=== FILE: README.md ===
# ManaBox → TCGplayer identity resolution, in Dafny

`convert_manabox_tcgp.py` turns a ManaBox collection export into a TCGplayer
staged-inventory file. For each ManaBox row it works out which TCGplayer
catalog row it is, if any. The steps are:

1. Normalise the row's name, set, collector number and condition into a key.
2. Score every reference key against it.
3. When the scores are low, consult Scryfall. Scryfall may supply a synthetic
   "Scryfall Verified" candidate at score 350.
4. Either auto-confirm the best candidate (the choice is memoised per key) or
   queue the row for manual review.

Token rows follow their own path, against the token rows of the catalog. The
entries for the main output are then merged by (TCGplayer Id, Condition). The
queued items are reviewed in a batch window, or on the console when no window
can be shown.

This project models that core as pure functions and small methods over
immutable data:

| module (file) | models |
|---|---|
| `Wrappers`, `Text`, `Dicts` | `Option`; Python's `strip`/`lower`/`split`/`replace`/`in` on strings; insertion-ordered dicts as sequences of pairs |
| `Cards` | keys, reference rows, candidates, output entries, queued items, and the resolution context |
| `Normalize` | `normalize_key` |
| `Scorer` | `find_best_match`: pruning, additive scores, restriction to exact-number matches, stable descending sort |
| `Verifier` | the matching part of `enhance_matches_with_scryfall`: set-code derivation and insertion of the synthetic candidate |
| `Classifier` | `confirm_and_iterate_match` |
| `Entries` | the `build_*` projections, condition mapping, the token test, the `T<code>` rewrite |
| `Outcome` | what one row produces, and how the context may change |
| `Standard`, `Tokens`, `Rows` | `process_standard`, `process_token`, `map_fields` |
| `Merge` | `merge_entries` |
| `Review` | the batch window's callbacks as a state machine over scripted actions, the console fallback, `confirm_match_gui_batch` |

`Standard` and `Rows` each hold `process_standard` and `map_fields` twice: as
written, and corrected for the memo-hit leak listed under Findings.

The converter keeps its state in module-level globals: `ref_data`,
`confirmed_matches`, `pending_confirmations`, `given_up_cards` and
`scryfall_only_cards`. Here they form a `Context` record. Each row's processing
returns a `Step`: at most one main-output entry, plus the new context.

Calls into code the model does not look inside are parameters:
- `fuzz.ratio`, bounded to 0..100 and taken as a whole number;
- `remove_accents`;
- `get_market_price`;
- `int()` on the Quantity column;
- the two Scryfall lookups.

The model follows the code where the code is surprising:
- The `the list` number split (lines 332-333) can never run, because lines
  328-329 have already renamed that set to `the list reprints`.
- Exact-number candidates are recorded before the condition, prerelease and
  special-print adjustments. So they carry partial scores and may be prerelease
  rows.
- The special-print penalties compare the condition strings.
- `SET_ALIAS` is only consulted when deriving a Scryfall set code, and never
  applies to a normalised set name.
- A queued standard item is keyed by its 4-tuple. A low-scoring token is keyed
  by its 5-tuple. A two-faced token conflict is keyed by its 4-tuple. Python
  never equates a 4-tuple with a 5-tuple, and `ItemKey` keeps the two apart.
- Tokens never consult the memo.
- If the window fails while running, the console reviews every queued item
  again.

## Model

| member | source | states |
|---|---|---|
| Normalize.NormalizeName | convert_manabox_tcgp.py:318-323 | the normalised name uses only lower-case `[a-z0-9 ,'-]` and has no blank ends |
| Normalize.BackFaceIgnored | convert_manabox_tcgp.py:319-323 | only the front face counts: `a // b` normalises exactly like `a`, whatever the back face `b`, when `a` has no bracket or slash and accent removal leaves the text alone |
| Normalize.ParentheticalIgnored | convert_manabox_tcgp.py:319-323 | a trailing parenthetical is dropped: `a (p)` normalises exactly like `a` when `p` has no `)` or line break and `a` has no bracket or slash |
| Normalize.NormalizeSet | convert_manabox_tcgp.py:325-329 | the normalised set uses only `[a-z0-9 ]`; `plst` and `the list` become `the list reprints`, every other cleaned set is kept, and no result is ever `plst` or `the list` |
| Normalize.NormalizeNumber | convert_manabox_tcgp.py:334-336 | the number is None exactly when the raw text holds no digit or dash; otherwise it is a non-empty run of digits and dashes |
| Normalize.NormalizeKey | convert_manabox_tcgp.py:316-337 | None exactly when the normalised set contains `prerelease cards`; otherwise the key's name is `NormalizeName` of the row's name, so it has no `//` part and keeps the name alphabet, the set keeps the set alphabet, the condition is lower-cased, the number is the raw number reduced to digits and dashes (so the `the list` split at 328-333 never happens), and the suffix is empty |
| Normalize.KeyIgnoresBackFace | convert_manabox_tcgp.py:316-337 | a two-faced card `a // b` gets the same key as its front face `a`, under the conditions of `BackFaceIgnored` |
| Normalize.KeyIgnoresParenthetical | convert_manabox_tcgp.py:316-337 | a card name with a trailing `(p)` gets the same key as the name without it, under the conditions of `ParentheticalIgnored` |
| Normalize.NoBackFace | convert_manabox_tcgp.py:321-322 | a name restricted to the name alphabet cannot contain `//` |
| Normalize.NormalizeIdempotent | convert_manabox_tcgp.py:316-337 | normalising a normalised key again gives the same key (given that accent removal leaves ASCII text alone) |
| Scorer.FindBestMatch | convert_manabox_tcgp.py:405-482 | the result is sorted by descending score; it holds the same candidates as the chosen list; for each score, the candidates with that score keep their dictionary order (the sort is stable) |
| Scorer.FindBestMatchMembers | convert_manabox_tcgp.py:408-476 | if an unpruned key has the query's known number, the result is exactly those keys, each with its score as it stood after the number bonus; otherwise it is every unpruned non-prerelease key with its full score |
| Scorer.ExactScoreIsPartial | convert_manabox_tcgp.py:427-438 | an exact-number candidate's score leaves out the condition and special-print adjustments |
| Scorer.ExactKeepsPrerelease | convert_manabox_tcgp.py:427-455 | an unpruned exact-number key for a prerelease row still appears in the result |
| Scorer.NoPrereleaseWithoutExact | convert_manabox_tcgp.py:453-476 | with no exact-number candidate, no prerelease row is offered |
| Scorer.NumberMatchWorth115 | convert_manabox_tcgp.py:427-433 | of two keys that differ only in a known number, the one equal to the query's number scores 115 more |
| Scorer.UnknownNumberWorth50 | convert_manabox_tcgp.py:427-433 | against a known query number, a matching number earns 50 more than an unknown one; an unknown query number scores every number alike |
| Scorer.SortByScore | convert_manabox_tcgp.py:481 | `list.sort(reverse=True)` on scores: the result is descending |
| Scorer.SortPerm | convert_manabox_tcgp.py:481 | the sorted list is a permutation of the input |
| Scorer.SortStable | convert_manabox_tcgp.py:481 | the sort is stable: for each score, the candidates with that score come out in their input order |
| Scorer.InsertPerm | convert_manabox_tcgp.py:481 | one insertion step of the sort adds exactly the inserted candidate |
| Verifier.SetCode | convert_manabox_tcgp.py:241-249 | a set name longer than 3 characters with at least 2 words gives the lower-cased initials of its first three words; any other set outside the alias table stays as it is |
| Verifier.AliasesNeverApply | convert_manabox_tcgp.py:19-25 | for a normalised set name, the `SET_ALIAS` lookup never hits: either the name is abbreviated (and the acronym wins) or it is not a key of the table |
| Verifier.FallbackRow | convert_manabox_tcgp.py:208-226 | the synthetic reference row is marked "Scryfall Verified" and named after the card; the name gains a promo-type suffix exactly for promo cards with promo types |
| Verifier.EnhanceMatches | convert_manabox_tcgp.py:229-277 | the query's own key is put first at score 350 exactly when a card is found, a row is given, and the list is empty or tops out below 300; the reference data then binds that key to exactly the `FallbackRow` built from the card, the row and the key's condition, and changes nowhere else; otherwise nothing changes |
| Verifier.SyntheticLeads | convert_manabox_tcgp.py:253-272 | once inserted, the synthetic candidate outscores every other candidate |
| Classifier.ConfirmAndIterate | convert_manabox_tcgp.py:770-792 | the top key is returned and memoised iff an auto-confirm rule holds; otherwise exactly one item is queued and the memo is unchanged |
| Classifier.Thresholds | convert_manabox_tcgp.py:778-789 | a non-Scryfall top score of 270 or more confirms and one below 260 never does; a Scryfall-only top confirms iff its score is at least 350 |
| Classifier.MarginRule | convert_manabox_tcgp.py:782-784 | between 260 and 269, a non-Scryfall top confirms iff it leads the runner-up (0 when there is none) by at least 30 |
| Classifier.ConfirmMonotone | convert_manabox_tcgp.py:778-789 | raising the top score, or lowering the runner-up, never undoes a confirmation |
| Classifier.LoneCandidate | convert_manabox_tcgp.py:773-784 | a single non-Scryfall candidate is confirmed at 260 but not at 259 |
| Entries.BuildStandardEntry | convert_manabox_tcgp.py:795-807 | the entry takes its identity from the reference row, with the key's suffix on the product name, and takes condition, quantity and purchase price from the ManaBox row |
| Entries.BuildTokenEntry | convert_manabox_tcgp.py:810-822 | a token entry takes its identity from the token's reference row and its condition and quantity from the ManaBox row |
| Entries.BuildTokenFallback | convert_manabox_tcgp.py:825-838 | an unmatched token is output as "Not Found", rarity Token, under its derived set name, product name and number |
| Entries.BuildGivenUpEntry | convert_manabox_tcgp.py:340-352 | an unmatched card is output as "Not Found" under the row's own name, set and stripped collector number |
| Entries.ConditionLabel | convert_manabox_tcgp.py:846 | a condition code maps to one of the five labels, with Near Mint for an unknown code |
| Entries.MapCondition | convert_manabox_tcgp.py:843-848 | the label gets " Foil" appended exactly when the Foil column says foil |
| Entries.FoilSuffixIff | convert_manabox_tcgp.py:843-848 | the label ends in " Foil" if and only if the row is foil |
| Entries.StrippedTokenCode | convert_manabox_tcgp.py:849-853 | on a stripped set name, `^T[A-Z0-9]+$` never uses `$`'s trailing-newline allowance |
| Entries.TokenSetName | convert_manabox_tcgp.py:910-913 | `T<code>` becomes `<code> tokens`; any other set name is kept |
| Entries.TokenCodeRewrite | convert_manabox_tcgp.py:910-914 | a `T<code>` set takes the token path, and its base name is the lower-cased code |
| Outcome.GiveUp | convert_manabox_tcgp.py:900-903 | the fallback is appended to the given-up list unless an item with the same key is queued |
| Standard.StandardNumber | convert_manabox_tcgp.py:863 | the number used is a suffix of the last dash-separated piece of the stripped column; everything cut off before it is letters and dashes, and it does not start with one (so exactly the leading letters and dashes are removed) |
| Standard.StandardKey | convert_manabox_tcgp.py:863-868 | a row with no name or no set has no key |
| Standard.Candidates | convert_manabox_tcgp.py:876-881 | the candidates are `find_best_match`'s list, passed through the Scryfall step exactly when that list is empty or its top score is below 260 and left with the reference data untouched otherwise; they all name rows of the (grown) reference data |
| Standard.Emit | convert_manabox_tcgp.py:888-898 | a confirmed "Scryfall Verified" row goes to the Scryfall-only list, and every other confirmed row becomes the main-output entry built from it |
| Standard.EmitsSound | convert_manabox_tcgp.py:888-898 | however a confirmed match is routed, the step yields at most one result, keeps the context valid and never emits a "Scryfall Verified" entry |
| Standard.Park | convert_manabox_tcgp.py:884-903 | an undecided row is queued with its candidates, and the give-up that follows changes nothing because the key is now queued |
| Standard.Accept | convert_manabox_tcgp.py:888-898 | an auto-confirmed match, once memoised, is emitted as its built entry or set aside when "Scryfall Verified"; the queue and the given-up list stay as they were |
| Standard.Decide | convert_manabox_tcgp.py:884-898 | an auto-confirmed match is memoised and then emitted or set aside as above; otherwise the row is queued under its 4-tuple with its candidates and nothing else changes |
| Standard.Classify | convert_manabox_tcgp.py:884-898 | the same step as `Decide`, seen only through its settling and soundness facts (a split that keeps `Settle`'s proof small) |
| Standard.Abandon | convert_manabox_tcgp.py:900-903 | a row with no candidate is given up, with the fallback built from the row, unless its 4-tuple is queued |
| Standard.Settle | convert_manabox_tcgp.py:884-903 | no candidate: given up unless queued; an auto-confirmed top candidate: memoised, then emitted or set aside; any other list: queued, and so not given up |
| Standard.SettlesSound | convert_manabox_tcgp.py:884-903 | however a list settles, the step yields at most one result, keeps the context valid and every memoised match, and never emits a "Scryfall Verified" entry |
| Standard.Resolve | convert_manabox_tcgp.py:876-905 | a row without a memoised match ends as its candidates (after the Scryfall step) settle against the enhanced reference data; it yields at most one result, keeps the context valid, only grows the reference data and the memo, and never emits a Scryfall-verified entry |
| Standard.MemoHitAsWritten | convert_manabox_tcgp.py:872-874 | the memoised row becomes the entry, whatever its id |
| Standard.MemoLeak | convert_manabox_tcgp.py:872-874 | after a Scryfall-only candidate is auto-confirmed for a key, the memo hit as written emits a "Scryfall Verified" entry for the next row with that key |
| Standard.MemoHit | convert_manabox_tcgp.py:872-874 | the memo hit agrees with the code as written, except that a "Scryfall Verified" row goes to the Scryfall-only list instead, as at lines 892-896 |
| Standard.RouteAsWritten | convert_manabox_tcgp.py:866-905 | as written: no key changes nothing, a memo hit yields the memoised row as the entry whatever its id, and any other key is resolved as above |
| Standard.ProcessStandardAsWritten | convert_manabox_tcgp.py:861-905 | `process_standard` as written: no name, set or key changes nothing; otherwise the row is routed as above for its normalised key; at most one result, a valid context, and the row's condition and quantity on the entry |
| Standard.Route | convert_manabox_tcgp.py:866-905 | corrected: the same routing, except that a memo hit is emitted or set aside like a fresh confirmation |
| Standard.ProcessStandard | convert_manabox_tcgp.py:861-905 | corrected `process_standard`: routed as `Route` for the row's normalised key; at most one result, and no main-output entry is ever "Scryfall Verified" |
| Tokens.MatchLength | convert_manabox_tcgp.py:919 | a match of `double[-\s]?sided token` at the front is 17 or 18 characters long and starts with "double" |
| Tokens.RemoveDoubleSided | convert_manabox_tcgp.py:919 | the substitution never lengthens the text, and leaves text without "double" as it is |
| Tokens.RemovesEachSpelling | convert_manabox_tcgp.py:919 | any word that lower-cases to one of the three spellings (`double-sided token`, `double sided token`, `doublesided token`) is removed whole from the front, whatever its case |
| Tokens.TokenProductName | convert_manabox_tcgp.py:916-922 | a name with `//` becomes "front // back"; any other name is kept |
| Tokens.TwoFacedProductName | convert_manabox_tcgp.py:916-922 | for a front face with no `/`, the name is the stripped front face, " // ", and the stripped back face with the double-sided marker removed; any further face is dropped |
| Tokens.TwoFacedTokenName | convert_manabox_tcgp.py:916-922 | the derived name of a two-faced token passes `is_double_sided_candidate` |
| Tokens.TokenCatalog | convert_manabox_tcgp.py:929-936 | the token catalog holds exactly the reference rows that are token rows for the set |
| Tokens.TokenCatalogAppend | convert_manabox_tcgp.py:929-936 | the token catalog keeps the reference data's order: a row appended to the reference data is appended to the token catalog exactly when it is a token row of the set |
| Dicts.FilterValuesConcat | convert_manabox_tcgp.py:929-936 | the dict comprehension keeps order: filtering a concatenation concatenates the filtered parts |
| Tokens.DoubleSidedMatches | convert_manabox_tcgp.py:952-955 | exactly the candidates whose rows are two-faced |
| Tokens.DoubleSidedSorted | convert_manabox_tcgp.py:952-955 | the two-faced candidates of a ranked list are still in ranked order |
| Tokens.TokenMatches | convert_manabox_tcgp.py:937 | token candidates are ranked and name token-catalog rows |
| Tokens.Settle | convert_manabox_tcgp.py:938-973 | no candidate: give up (unless queued); top below 250: queue under the 5-tuple; two-faced conflict: queue the two-faced candidates under the 4-tuple; otherwise emit the top row. Reference data, memo and Scryfall-only list never change |
| Tokens.RouteToken | convert_manabox_tcgp.py:924-973 | no key changes nothing; any other key is scored against the token catalog and settled by the cases of `Settle`; any emitted entry carries the id of a token row of the reference data |
| Tokens.ProcessToken | convert_manabox_tcgp.py:908-973 | `process_token` routes the normalised key of the derived product name, set name and number as `RouteToken` does; at most one result, and the reference data, memo and Scryfall-only list stay as they were |
| Rows.MapFieldsAsWritten | convert_manabox_tcgp.py:841-858 | as written: a token row is routed by `process_token`, any other row by `process_standard` as written; at most one result per row, and the entry carries the row's condition label and quantity |
| Rows.MapFields | convert_manabox_tcgp.py:841-858 | corrected (over the corrected `process_standard`): the same routing, with the memo hit fixed; a token row never touches the reference data or the memo; a standard row never emits a Scryfall-verified entry |
| Rows.CodedTokenRow | convert_manabox_tcgp.py:849-853 | a row whose set is written `T<code>` takes the token path |
| Merge.FirstKeys | convert_manabox_tcgp.py:976-985 | the first-seen keys are pairwise distinct |
| Merge.StepExisting | convert_manabox_tcgp.py:981-982 | adding an entry whose key is present keeps the merge invariant |
| Merge.StepNew | convert_manabox_tcgp.py:983-984 | adding an entry with a new key keeps the merge invariant |
| Merge.MergeAllMerged | convert_manabox_tcgp.py:976-985 | the fold yields one entry per key, in first-seen order, each equal to the first entry with that key but with the summed quantity, and the same total |
| Merge.MergeLoop | convert_manabox_tcgp.py:978-985 | the loop computes the fold |
| Merge.MergeEntries | convert_manabox_tcgp.py:976-985 | distinct keys; every input key present; each output is the first-seen entry with its key's total quantity; total quantity unchanged |
| Review.AutoFrom | convert_manabox_tcgp.py:700-708 | every item from the current one gets its best candidate, or nothing if it has none; earlier answers stay |
| Review.OnAction | convert_manabox_tcgp.py:679-731 | a closed window takes no input; Skip records nothing for the item; Confirm with row j highlighted records the item's j-th candidate and moves on, with no row highlighted records nothing and moves on, and with a row past the list changes nothing; Confirm on the pre-selected row records the best candidate; Auto-Confirm All answers the rest with best candidates and closes; Previous moves back one item (not below the first) and keeps the window open; Previous and Cancel keep the answers, and Cancel closes the window |
| Review.OnActionInv | convert_manabox_tcgp.py:679-731 | every callback keeps the position within the items, answers every earlier item, and only ever answers with a candidate of the item; closing other than by Cancel answers every item |
| Review.Run | convert_manabox_tcgp.py:751-760 | the window's main loop keeps that invariant over any script of actions |
| Review.AcceptDefaultsIsAutoAll | convert_manabox_tcgp.py:676-708 | pressing Confirm on every remaining item, as each is shown pre-selected, answers exactly as Auto-Confirm All |
| Review.SkipAll | convert_manabox_tcgp.py:694-698 | skipping every remaining item answers nothing for each and keeps the earlier answers |
| Review.Resolve | convert_manabox_tcgp.py:530-545 | a console pick names one of the five listed candidates; the prompt repeats exactly for an invalid line or a number outside 1 to min(5, candidates) |
| Review.Interpret | convert_manabox_tcgp.py:529-545 | a console pick names one of the five listed candidates |
| Review.ParseSkip | convert_manabox_tcgp.py:529-530 | `s` or `S` reads as skip |
| Review.InterpretSkip | convert_manabox_tcgp.py:529-532 | `s` or `S` skips the item |
| Review.ParseDigit | convert_manabox_tcgp.py:529-539 | a line reading as one digit (surrounding blanks and case ignored) names that row |
| Review.InterpretDigit | convert_manabox_tcgp.py:529-545 | a line reading as the digit n (surrounding blanks and case ignored) picks the item's n-th candidate exactly when 1 <= n <= 5 and n is at most the number of candidates, and asks again otherwise |
| Review.Session | convert_manabox_tcgp.py:512-547 | over commands already read: a completed session answers every item, keeps earlier answers, and only picks a listed candidate; running out of input with items left gives no answers |
| Review.Console | convert_manabox_tcgp.py:512-547 | the same over typed lines: a completed console session answers every item, keeps earlier answers, and only picks a listed candidate; running out of input with items left gives no answers |
| Review.EachRepeat | convert_manabox_tcgp.py:527-529 | reading the same line at every prompt gives the same command at every prompt |
| Review.SessionSkips | convert_manabox_tcgp.py:529-532 | skip at every remaining prompt answers nothing for each remaining item and keeps the earlier answers |
| Review.ConsoleSkipAll | convert_manabox_tcgp.py:527-532 | typing `s` at every remaining prompt answers nothing for each remaining item and keeps the earlier answers; later lines are never read |
| Review.SessionFirsts | convert_manabox_tcgp.py:539-541 | row 1 at every remaining prompt, when each remaining item has a candidate, answers as Auto-Confirm All from the same item |
| Review.ConsoleFirstAll | convert_manabox_tcgp.py:527-541 | typing `1` at every remaining prompt, when each remaining item has a candidate, answers exactly as Auto-Confirm All (and the console's `a`) from the same item |
| Review.ConsoleAutoIsGuiAutoAll | convert_manabox_tcgp.py:533-538 | typing `a` at the first prompt answers as the window's Auto-Confirm All on the first item |
| Review.ConfirmBatch | convert_manabox_tcgp.py:550-767 | no items give no answers; a window that ran gives exactly the answers its callbacks recorded from the first item; a window that could not be created or failed while running is replaced by the console from the first item with no answers (:568, :767), which answers every item when it completes; every answer names a candidate of its item |

## Left out

- CSV reading and writing, `load_reference_data`, `detect_csv_files`, `select_csv_file`, `create_output_folder`, and the module-level script (lines 1084-1202). This covers the row loop, the writing of merged output and the application of review answers. All of it is file I/O and process plumbing.
- Window construction, layout and rendering, and all `print` and `input` text. Only the callbacks' effect on the item position and the answers is modelled.
- The internals of `query_scryfall_card`, `query_scryfall_by_id`, `get_scryfall_variants`, the Scryfall cache and `rate_limit_scryfall`. These are network calls and timing. The lookups are pure functions supplied by the caller, and a pure function behaves like a per-run cache.
- `fuzz.ratio` and `remove_accents` are uninterpreted functions, the former bounded to 0..100.
- Cards.Percent: `fuzz.ratio` returns a float, but the model takes integer similarities. Fractional scores, such as a top score of 259.5 just under the Scryfall cut or a margin of 29.9 just under the 30 needed, are not represented.
- Normalize.BackFaceIgnored: proved only for a front face with no `/`. A slash at the end of the front face (`x/ // y`) shifts where the first `//` is found, although the name alphabet drops the slash afterwards.
- `get_market_price` and its `FLOOR_PRICE` formatting are an uninterpreted function, because they parse and format floats.
- `int()` on the Quantity column is an uninterpreted total function. Its ValueError on bad text is not modelled.
- `auto_confirm_high_score` (lines 988-995) is never called, and its body is window geometry code.
- `promo_info` in `enhance_matches_with_scryfall` only feeds a `print`.
- The reference rows' `.get` defaults are not modelled: every reference row has every column the converter reads.
- A queued standard item shares the live `ref_data` dict, which later rows may grow. The model stores the catalog as it was when the item was queued. Review only reads keys that were present then.
- Entries.IsToken, Scorer.IsPrereleaseRow, Tokens.TokenRow: the "token" and "prerelease" tests lower-case ASCII letters only, where Python's `.lower()` also maps non-ASCII letters.
- Normalize.NormalizeKey: lower-casing, `\d` and `str.isspace` are modelled on ASCII letters and digits, and on Python's whitespace set. Non-ASCII case mappings and Unicode decimal digits (which Python's `\d` keeps) are not modelled.
- Tokens.RemoveDoubleSided: IGNORECASE is modelled as ASCII case folding. The few non-ASCII characters that Python folds onto ASCII letters (such as the Kelvin sign) are not matched.
- Verifier.FallbackRow: `str.title()` is modelled on ASCII letters only; Python also capitalises non-ASCII letters (`"éa".title()` is `"Éa"`).
- Review.Interpret: only ASCII digits count as a number. Python's `isdigit` with `int()` also accepts other Unicode decimal digits.
- Review.Console: end of input raises EOFError out of the review functions; the script's handler at lines 1171-1177 catches it, prints the queued items as unmatched and drops them. The model returns no answers and does not follow the exception further.
- Review.Run: the window closing at the end of a script is not a separate event. The answers are whatever the callbacks recorded, as `confirm_match_gui_batch` returns them.
- Tokens.Settle: it does not claim that a token entry never carries a "Scryfall Verified" id. A synthetic row whose names mention tokens could in principle pass the token filter, and the code does not exclude it.

## Findings

| source | as written | input that shows it | evidently intended | confidence | as-written member | corrected member |
|---|---|---|---|---|---|---|
| convert_manabox_tcgp.py:872-874 | a memo hit builds the main-output entry from the memoised row without checking for "Scryfall Verified" | two identical rows of a card missing from the TCGplayer catalog but found on Scryfall: the first is auto-confirmed at 350 and set aside; the second hits the memo and goes to the main output with id "Scryfall Verified" | route a memoised "Scryfall Verified" row to the Scryfall-only list, as lines 892-896 do for a fresh confirmation | not executed | Standard.MemoLeak | Standard.MemoHit |

=== FILE: cards.dfy ===
/** The data model of the ManaBox-to-TCGplayer converter: normalised keys,
    reference rows, scored candidates, output entries, and the resolution
    context that replaces the converter's module-level state. */
module Cards {
  import opened Wrappers
  import opened Dicts

  /** The normalised identity of a card: the 4-tuple
      (name, set name, collector number, condition). */
  datatype Key = Key(name: string, setName: string, number: Option<string>, condition: string)

  /** The 5-tuple the normaliser returns: a Key and the suffix appended to
      product names on output. Reference rows are indexed by it. */
  datatype SuffixedKey = SuffixedKey(key: Key, suffix: string)

  /** A key as memoised or queued. The converter uses the 4-tuple in some places
      and the 5-tuple in others, and Python never equates a 4-tuple with a 5-tuple. */
  datatype ItemKey = Short(short: Key) | Long(long: SuffixedKey)

  /** A row of the TCGplayer reference catalog (or a synthetic one built from
      Scryfall data), restricted to the columns the converter reads. */
  datatype RefRow = RefRow(
    id: string,
    productLine: string,
    setName: string,
    productName: string,
    number: string,
    rarity: string,
    condition: string,
    price: string)

  /** The reference catalog: an insertion-ordered dict from normalised key to row. */
  type Catalog = Dict<SuffixedKey, RefRow>

  /** A reference key with the score it earned against one query. */
  datatype Candidate = Candidate(key: SuffixedKey, score: int)

  /** A ManaBox export row: column name to cell text. */
  type SourceRow = map<string, string>

  /** `row.get(column, default)`. */
  function Cell(row: SourceRow, column: string, default: string): string {
    if column in row then row[column] else default
  }

  /** One output record; every output stream shares this schema. */
  datatype Entry = Entry(
    id: string,
    productLine: string,
    setName: string,
    productName: string,
    number: string,
    rarity: string,
    condition: string,
    quantity: int,
    price: string)

  type Percent = x: int | 0 <= x <= 100

  /** The library calls the converter makes and this model does not look inside:
      - ratio: rapidfuzz's `fuzz.ratio`, a similarity on a 0..100 scale;
      - removeAccents: NFKD decomposition with combining marks dropped;
      - marketPrice: `get_market_price`, which parses and formats prices;
      - toInt: Python's `int()` applied to the Quantity column. */
  datatype Oracles = Oracles(
    ratio: (string, string) -> Percent,
    removeAccents: string -> string,
    marketPrice: (SourceRow, Option<RefRow>) -> string,
    toInt: string -> int)

  const SCRYFALL_VERIFIED: string := "Scryfall Verified"
  const NOT_FOUND: string := "Not Found"
  const PRODUCT_LINE: string := "Magic: The Gathering"

  /** An item whose confidence was too low to confirm automatically, with the
      ranked candidates and the catalog they were scored against. */
  datatype Deferred = Deferred(key: ItemKey, matches: seq<Candidate>, catalog: Catalog)

  /** The resolution context: the converter's module-level `ref_data`,
      `confirmed_matches`, `pending_confirmations`, `given_up_cards` and
      `scryfall_only_cards`, threaded explicitly. */
  datatype Context = Context(
    refData: Catalog,
    confirmed: map<ItemKey, SuffixedKey>,
    pending: seq<Deferred>,
    givenUp: seq<Entry>,
    scryfallOnly: seq<Entry>)

  /** Every candidate of a deferred item names a row of the catalog. */
  predicate MatchesIn(matches: seq<Candidate>, catalog: Catalog) {
    forall j :: 0 <= j < |matches| ==> matches[j].key in Keys(catalog)
  }

  /** A deferred item has candidates, all naming rows of the catalog it was scored
      against, and that catalog is part of the reference data. */
  predicate DeferredIn(d: Deferred, refData: Catalog) {
    |d.matches| > 0 && MatchesIn(d.matches, d.catalog) && Keys(d.catalog) <= Keys(refData)
  }

  /** What keeps the converter's dict lookups from failing: the catalog has distinct
      keys, every memoised match names a catalog row, and every deferred item is
      well formed. */
  predicate Valid(ctx: Context) {
    && DistinctKeys(ctx.refData)
    && (forall k :: k in ctx.confirmed ==> ctx.confirmed[k] in Keys(ctx.refData))
    && (forall i :: 0 <= i < |ctx.pending| ==> DeferredIn(ctx.pending[i], ctx.refData))
  }
}

=== FILE: classifier.dfy ===
/** The confidence classifier (`confirm_and_iterate_match`): auto-confirm the top
    candidate under one of three rules and memoise it, or defer the item for
    batch review. */
module Classifier {
  import opened Wrappers
  import opened Dicts
  import opened Cards

  const CONFIRM_SCORE: int := 270
  const MARGIN_SCORE: int := 260
  const MARGIN: int := 30
  const SCRYFALL_SCORE: int := 350

  /** The reference row behind `k` was synthesised from Scryfall data. A key with no
      row reads as an empty row, which is not. */
  predicate IsScryfallOnly(refData: Catalog, k: SuffixedKey) {
    var row := Get(refData, k);
    row.Some? && row.value.id == SCRYFALL_VERIFIED
  }

  /** The second-best score, or 0 when there is a single candidate. */
  function RunnerUp(matches: seq<Candidate>): int {
    if |matches| > 1 then matches[1].score else 0
  }

  /** One of the three auto-confirm rules accepts the top candidate. */
  predicate AutoConfirms(refData: Catalog, matches: seq<Candidate>)
    requires |matches| > 0
  {
    var best := matches[0];
    var scryfall := IsScryfallOnly(refData, best.key);
    || (best.score >= CONFIRM_SCORE && !scryfall)
    || (best.score >= MARGIN_SCORE && !scryfall && best.score - RunnerUp(matches) >= MARGIN)
    || (scryfall && best.score >= SCRYFALL_SCORE)
  }

  /** What the classifier decided and the context after it. */
  datatype Classified = Classified(choice: Option<SuffixedKey>, ctx: Context)

  /** `confirm_and_iterate_match`. On auto-confirmation the top key is returned and
      memoised under the query key, and nothing else changes; otherwise nothing is
      returned, exactly one deferred item (the query, its candidates, the current
      reference data) is queued, and the memo is untouched. */
  function ConfirmAndIterate(ctx: Context, key: Key, matches: seq<Candidate>): (r: Classified)
    requires |matches| > 0
    ensures r.choice.Some? <==> AutoConfirms(ctx.refData, matches)
    ensures r.choice.Some? ==>
      && r.choice.value == matches[0].key
      && r.ctx == ctx.(confirmed := ctx.confirmed[Short(key) := matches[0].key])
    ensures r.choice.None? ==>
      && r.ctx == ctx.(pending := ctx.pending + [Deferred(Short(key), matches, ctx.refData)])
    ensures Valid(ctx) && MatchesIn(matches, ctx.refData) ==> Valid(r.ctx)
  {
    if AutoConfirms(ctx.refData, matches) then
      Classified(Some(matches[0].key), ctx.(confirmed := ctx.confirmed[Short(key) := matches[0].key]))
    else
      Classified(None, ctx.(pending := ctx.pending + [Deferred(Short(key), matches, ctx.refData)]))
  }

  /** The thresholds: 270 always confirms a catalog candidate; below 260 a catalog
      candidate is never confirmed; a Scryfall candidate is confirmed exactly from 350. */
  lemma Thresholds(refData: Catalog, matches: seq<Candidate>)
    requires |matches| > 0
    ensures !IsScryfallOnly(refData, matches[0].key) && matches[0].score >= CONFIRM_SCORE ==> AutoConfirms(refData, matches)
    ensures !IsScryfallOnly(refData, matches[0].key) && matches[0].score < MARGIN_SCORE ==> !AutoConfirms(refData, matches)
    ensures IsScryfallOnly(refData, matches[0].key) ==> (AutoConfirms(refData, matches) <==> matches[0].score >= SCRYFALL_SCORE)
  {
  }

  /** Between 260 and 269 a catalog candidate is confirmed exactly when it leads the
      runner-up (or 0) by at least 30. */
  lemma MarginRule(refData: Catalog, matches: seq<Candidate>)
    requires |matches| > 0
    requires !IsScryfallOnly(refData, matches[0].key)
    requires MARGIN_SCORE <= matches[0].score < CONFIRM_SCORE
    ensures AutoConfirms(refData, matches) <==> matches[0].score - RunnerUp(matches) >= MARGIN
  {
  }

  /** Raising the top score, or lowering the runner-up's, never turns a confirmation
      into a deferral. */
  lemma ConfirmMonotone(refData: Catalog, m1: seq<Candidate>, m2: seq<Candidate>)
    requires |m1| > 0 && |m2| > 0
    requires m2[0].key == m1[0].key && m2[0].score >= m1[0].score
    requires RunnerUp(m2) <= RunnerUp(m1)
    requires AutoConfirms(refData, m1)
    ensures AutoConfirms(refData, m2)
  {
  }

  /** A single candidate at 260 is confirmed (its margin over 0 is 260), while the
      same candidate at 259 is deferred. */
  lemma LoneCandidate(refData: Catalog, k: SuffixedKey)
    requires !IsScryfallOnly(refData, k)
    ensures AutoConfirms(refData, [Candidate(k, MARGIN_SCORE)])
    ensures !AutoConfirms(refData, [Candidate(k, MARGIN_SCORE - 1)])
  {
  }
}

=== FILE: dicts.dfy ===
/** Python's insertion-ordered `dict`, as a sequence of (key, value) entries with
    distinct keys. Iteration order is sequence order. */
module Dicts {
  import opened Wrappers

  type Dict<K, V> = seq<(K, V)>

  predicate DistinctKeys<K(==), V>(d: Dict<K, V>) {
    forall i, j :: 0 <= i < j < |d| ==> d[i].0 != d[j].0
  }

  function Keys<K, V>(d: Dict<K, V>): set<K> {
    set i | 0 <= i < |d| :: d[i].0
  }

  lemma KeysCons<K, V>(e: (K, V), d: Dict<K, V>)
    ensures Keys([e] + d) == {e.0} + Keys(d)
  {
    var r := [e] + d;
    forall k | k in Keys(r) ensures k in {e.0} + Keys(d) {
      var i :| 0 <= i < |r| && r[i].0 == k;
      if i > 0 {
        assert r[i] == d[i - 1];
        assert k in Keys(d);
      }
    }
    assert r[0].0 == e.0;
    forall k | k in Keys(d) ensures k in Keys(r) {
      var i :| 0 <= i < |d| && d[i].0 == k;
      assert r[i + 1] == d[i];
    }
  }

  lemma KeysTail<K, V>(d: Dict<K, V>)
    requires |d| > 0
    ensures Keys(d) == {d[0].0} + Keys(d[1..])
  {
    assert d == [d[0]] + d[1..];
    KeysCons(d[0], d[1..]);
  }

  /** A head whose key is new keeps the keys distinct. */
  lemma DistinctCons<K, V>(e: (K, V), d: Dict<K, V>)
    requires DistinctKeys(d) && e.0 !in Keys(d)
    ensures DistinctKeys([e] + d)
  {
    var r := [e] + d;
    forall i, j | 0 <= i < j < |r| ensures r[i].0 != r[j].0 {
      assert r[j] == d[j - 1];
      if i == 0 {
        assert d[j - 1].0 in Keys(d);
      } else {
        assert r[i] == d[i - 1];
      }
    }
  }

  /** The tail of a dict with distinct keys has distinct keys, none of them the head's. */
  lemma DistinctTail<K, V>(d: Dict<K, V>)
    requires DistinctKeys(d) && |d| > 0
    ensures DistinctKeys(d[1..]) && d[0].0 !in Keys(d[1..])
  {
    var t := d[1..];
    forall i, j | 0 <= i < j < |t| ensures t[i].0 != t[j].0 {
      assert t[i] == d[i + 1] && t[j] == d[j + 1];
    }
    forall i | 0 <= i < |t| ensures t[i].0 != d[0].0 {
      assert t[i] == d[i + 1];
    }
  }

  /** `d.get(k)`: the value stored under `k`, if any. */
  function Get<K(==), V>(d: Dict<K, V>, k: K): (r: Option<V>)
    ensures r.Some? <==> k in Keys(d)
    ensures r.Some? ==> (k, r.value) in d
    decreases |d|
  {
    if d == [] then None
    else if d[0].0 == k then Some(d[0].1)
    else
      KeysTail(d);
      Get(d[1..], k)
  }

  /** In a dict with distinct keys, looking up the key of an entry finds that entry's value. */
  lemma {:induction false} GetAt<K, V>(d: Dict<K, V>, i: int)
    requires DistinctKeys(d) && 0 <= i < |d|
    ensures Get(d, d[i].0) == Some(d[i].1)
    decreases |d|
  {
    if i > 0 {
      assert d[1..][i - 1] == d[i];
      GetAt(d[1..], i - 1);
    }
  }

  /** `d[k] = v`: an existing key keeps its position and takes the new value;
      a new key is appended. */
  function Put<K(==), V>(d: Dict<K, V>, k: K, v: V): (r: Dict<K, V>)
    requires DistinctKeys(d)
    ensures DistinctKeys(r)
    ensures Keys(r) == Keys(d) + {k}
    ensures k !in Keys(d) ==> r == d + [(k, v)]
    decreases |d|
  {
    if d == [] then
      KeysCons((k, v), d);
      assert [(k, v)] + d == [(k, v)];
      [(k, v)]
    else if d[0].0 == k then
      ReplaceHead(d, (k, v));
      [(k, v)] + d[1..]
    else
      KeysTail(d);
      DistinctTail(d);
      var rest := Put(d[1..], k, v);
      KeepHead(d, k, v, rest);
      [d[0]] + rest
  }

  /** Rebinding the head's key keeps the keys. */
  lemma ReplaceHead<K, V>(d: Dict<K, V>, e: (K, V))
    requires DistinctKeys(d) && |d| > 0 && e.0 == d[0].0
    ensures DistinctKeys([e] + d[1..]) && Keys([e] + d[1..]) == Keys(d)
  {
    KeysTail(d);
    DistinctTail(d);
    KeysCons(e, d[1..]);
    DistinctCons(e, d[1..]);
  }

  /** Putting `k` into the tail of a dict whose head has another key. */
  lemma KeepHead<K, V>(d: Dict<K, V>, k: K, v: V, rest: Dict<K, V>)
    requires DistinctKeys(d) && |d| > 0 && d[0].0 != k
    requires DistinctKeys(rest) && Keys(rest) == Keys(d[1..]) + {k}
    requires k !in Keys(d[1..]) ==> rest == d[1..] + [(k, v)]
    ensures DistinctKeys([d[0]] + rest) && Keys([d[0]] + rest) == Keys(d) + {k}
    ensures k !in Keys(d) ==> [d[0]] + rest == d + [(k, v)]
  {
    KeysTail(d);
    DistinctTail(d);
    KeysCons(d[0], rest);
    DistinctCons(d[0], rest);
    if k !in Keys(d) {
      assert d == [d[0]] + d[1..];
    }
  }

  /** After `d[k] = v`, looking up `k` finds `v` and every other key finds what it found before. */
  lemma {:induction false} GetPut<K, V>(d: Dict<K, V>, k: K, v: V, k': K)
    requires DistinctKeys(d)
    ensures Get(Put(d, k, v), k') == if k' == k then Some(v) else Get(d, k')
    decreases |d|
  {
    var r := Put(d, k, v);
    if d == [] {
      assert r == [(k, v)];
    } else if d[0].0 == k {
      assert r == [(k, v)] + d[1..];
      assert r[0] == (k, v) && r[1..] == d[1..];
    } else {
      DistinctTail(d);
      GetPut(d[1..], k, v, k');
      assert r == [d[0]] + Put(d[1..], k, v);
      assert r[0] == d[0] && r[1..] == Put(d[1..], k, v);
    }
  }

  /** The dict comprehension `{k: v for k, v in d.items() if p(v)}`. */
  function FilterValues<K(==), V>(d: Dict<K, V>, p: V -> bool): (r: Dict<K, V>)
    ensures |r| <= |d|
    ensures forall i :: 0 <= i < |r| ==> r[i] in d && p(r[i].1)
    ensures forall i :: 0 <= i < |d| && p(d[i].1) ==> d[i] in r
    ensures Keys(r) <= Keys(d)
    ensures DistinctKeys(d) ==> DistinctKeys(r)
    decreases |d|
  {
    if d == [] then []
    else
      var rest := FilterValues(d[1..], p);
      KeysTail(d);
      assert forall i :: 1 <= i < |d| ==> d[i] == d[1..][i - 1];
      if p(d[0].1) then
        var r := [d[0]] + rest;
        KeysCons(d[0], rest);
        assert r[1..] == rest;
        r
      else rest
  }

  /** The comprehension keeps the dict's order: filtering a concatenation filters
      each part and concatenates the results. */
  lemma {:induction false} FilterValuesConcat<K, V>(a: Dict<K, V>, b: Dict<K, V>, p: V -> bool)
    ensures FilterValues(a + b, p) == FilterValues(a, p) + FilterValues(b, p)
    decreases |a|
  {
    if a == [] {
      assert a + b == b;
    } else {
      assert (a + b)[1..] == a[1..] + b;
      FilterValuesConcat(a[1..], b, p);
    }
  }
}

=== FILE: entries.dfy ===
/** The output-entry projections (`build_*_entry`) and the row-level decisions of
    `map_fields`: the condition label, the foil suffix, token detection and the
    token set-name rewrite. */
module Entries {
  import opened Wrappers
  import opened Text
  import opened Cards

  /** `CONDITION_MAP`. */
  const CONDITION_MAP: map<string, string> := map[
    "near mint" := "Near Mint",
    "lightly played" := "Lightly Played",
    "moderately played" := "Moderately Played",
    "heavily played" := "Heavily Played",
    "damaged" := "Damaged"]

  const DEFAULT_CONDITION: string := "Near Mint"
  const FOIL_SUFFIX: string := " Foil"

  /** `int(manabox_row.get("Quantity", "1"))`. */
  function Quantity(o: Oracles, row: SourceRow): int {
    o.toInt(Cell(row, "Quantity", "1"))
  }

  /** `build_standard_entry`: the reference row's identity with the product-name
      suffix, the row's condition, quantity and purchase price. */
  function BuildStandardEntry(o: Oracles, ref: RefRow, suffix: string, row: SourceRow, condition: string): (e: Entry)
    ensures e.id == ref.id && e.setName == ref.setName && e.number == ref.number
    ensures e.productName == ref.productName + suffix
    ensures e.condition == condition && e.quantity == Quantity(o, row)
    ensures e.price == Cell(row, "Purchase price", "0.00")
  {
    Entry(ref.id, ref.productLine, ref.setName, ref.productName + suffix, ref.number, ref.rarity,
          condition, Quantity(o, row), Cell(row, "Purchase price", "0.00"))
  }

  /** `build_token_entry`: the token's reference row, priced from that row. */
  function BuildTokenEntry(o: Oracles, ref: RefRow, row: SourceRow, condition: string): (e: Entry)
    ensures e.id == ref.id && e.productName == ref.productName && e.number == ref.number
    ensures e.condition == condition && e.quantity == Quantity(o, row)
    ensures e.price == o.marketPrice(row, Some(ref))
  {
    Entry(ref.id, ref.productLine, ref.setName, ref.productName, ref.number, ref.rarity,
          condition, Quantity(o, row), o.marketPrice(row, Some(ref)))
  }

  /** `build_token_fallback`: an unmatched token under the derived set and product name. */
  function BuildTokenFallback(o: Oracles, setName: string, productName: string, number: string,
                              row: SourceRow, condition: string): (e: Entry)
    ensures e.id == NOT_FOUND && e.rarity == "Token"
    ensures e.setName == setName && e.productName == productName && e.number == number
    ensures e.condition == condition && e.quantity == Quantity(o, row)
  {
    Entry(NOT_FOUND, PRODUCT_LINE, setName, productName, number, "Token",
          condition, Quantity(o, row), o.marketPrice(row, None))
  }

  /** `build_given_up_entry`: an unmatched card under the row's own names. */
  function BuildGivenUpEntry(o: Oracles, row: SourceRow, condition: string, name: string, setName: string): (e: Entry)
    ensures e.id == NOT_FOUND && e.productLine == PRODUCT_LINE
    ensures e.setName == setName && e.productName == name
    ensures e.number == Strip(Cell(row, "Collector number", ""))
    ensures e.condition == condition && e.quantity == Quantity(o, row)
  {
    Entry(NOT_FOUND, PRODUCT_LINE, setName, name, Strip(Cell(row, "Collector number", "")),
          Cell(row, "Rarity", ""), condition, Quantity(o, row), o.marketPrice(row, None))
  }

  /** The condition code: the Condition column stripped, lower-cased, with `_` as space. */
  function ConditionCode(row: SourceRow): string {
    ReplaceAll(Lower(Strip(Cell(row, "Condition", "near mint"))), "_", " ")
  }

  /** The Foil column says "foil", in any case. */
  predicate IsFoil(row: SourceRow) {
    Lower(Cell(row, "Foil", "normal")) == "foil"
  }

  /** The label of a condition code: its entry in the map, Near Mint for an unknown
      code; either way one of the five labels. */
  function ConditionLabel(code: string): (b: string)
    ensures b in CONDITION_MAP.Values
    ensures code !in CONDITION_MAP ==> b == DEFAULT_CONDITION
  {
    assert CONDITION_MAP["near mint"] == DEFAULT_CONDITION;
    if code in CONDITION_MAP then CONDITION_MAP[code] else DEFAULT_CONDITION
  }

  /** The condition label of a row: its condition code's label, with " Foil"
      appended exactly for foil rows. */
  function MapCondition(row: SourceRow): (c: string)
    ensures IsFoil(row) ==> c == ConditionLabel(ConditionCode(row)) + FOIL_SUFFIX
    ensures !IsFoil(row) ==> c == ConditionLabel(ConditionCode(row))
  {
    var base := ConditionLabel(ConditionCode(row));
    if IsFoil(row) then base + FOIL_SUFFIX else base
  }

  predicate EndsWith(s: string, t: string) {
    |t| <= |s| && s[|s| - |t|..] == t
  }

  /** The condition label reads " Foil" at its end exactly for foil rows: no base
      label ends that way. */
  lemma FoilSuffixIff(row: SourceRow)
    ensures EndsWith(MapCondition(row), FOIL_SUFFIX) <==> IsFoil(row)
  {
    LabelEnding(ConditionLabel(ConditionCode(row)));
    var c := MapCondition(row);
    if IsFoil(row) {
      assert c[|c| - |FOIL_SUFFIX|..] == FOIL_SUFFIX;
    }
  }

  lemma LabelEnding(b: string)
    requires b in CONDITION_MAP.Values
    ensures |b| > 0 && b[|b| - 1] != 'l'
  {
    var k :| k in CONDITION_MAP && CONDITION_MAP[k] == b;
  }

  predicate IsUpperAlnum(c: char) {
    IsAsciiUpper(c) || IsAsciiDigit(c)
  }

  /** `re.match(r"^T[A-Z0-9]+$", s)`: a T and at least one upper-case letter or digit,
      where `$` also accepts a single trailing newline. */
  predicate IsTokenSetCode(s: string) {
    && |s| >= 2 && s[0] == 'T'
    && (|| (forall i :: 1 <= i < |s| ==> IsUpperAlnum(s[i]))
        || (|s| >= 3 && s[|s| - 1] == '\n' && forall i :: 1 <= i < |s| - 1 ==> IsUpperAlnum(s[i])))
  }

  /** The token test of `map_fields`: "token" in the lower-cased set or card name, or
      a set name in the `T<code>` form. */
  predicate IsToken(name: string, setName: string) {
    Contains(Lower(setName), "token") || Contains(Lower(name), "token") || IsTokenSetCode(setName)
  }

  /** A stripped set name never uses the trailing-newline allowance. */
  lemma StrippedTokenCode(s: string)
    requires s == [] || !IsSpace(s[|s| - 1])
    ensures IsTokenSetCode(s) <==> |s| >= 2 && s[0] == 'T' && forall i :: 1 <= i < |s| ==> IsUpperAlnum(s[i])
  {
  }

  /** The token set name: `T<code>` becomes `<code> tokens`; other names are kept. */
  function TokenSetName(setName: string): (r: string)
    ensures IsTokenSetCode(setName) ==> r == setName[1..] + " tokens"
    ensures !IsTokenSetCode(setName) ==> r == setName
  {
    if IsTokenSetCode(setName) then setName[1..] + " tokens" else setName
  }

  /** `token_set_base`: the lower-cased token set name with " tokens" removed. */
  function TokenSetBase(tokenSetName: string): string {
    ReplaceAll(Lower(tokenSetName), " tokens", "")
  }

  /** A `T<code>` set name is a token set, and its base is the lower-cased code. */
  lemma TokenCodeRewrite(setName: string)
    requires IsTokenSetCode(setName) && !IsSpace(setName[|setName| - 1])
    ensures IsToken("", setName)
    ensures TokenSetBase(TokenSetName(setName)) == Lower(setName[1..])
  {
    var code := setName[1..];
    var lc := Lower(code);
    assert forall i :: 0 <= i < |lc| ==> lc[i] != ' ' by {
      forall i | 0 <= i < |lc| ensures lc[i] != ' ' {
        assert IsUpperAlnum(setName[i + 1]);
      }
    }
    assert Lower(code + " tokens") == lc + " tokens";
    ReplaceSuffix(lc, " tokens");
  }

  /** Removing a blank-led suffix from a string without blanks removes just the suffix. */
  lemma {:induction false} ReplaceSuffix(s: string, suffix: string)
    requires |suffix| > 0 && suffix[0] == ' '
    requires forall i :: 0 <= i < |s| ==> s[i] != ' '
    ensures ReplaceAll(s + suffix, suffix, "") == s
    decreases |s|
  {
    if s == [] {
      assert (s + suffix)[..|suffix|] == suffix;
      assert (s + suffix)[|suffix|..] == [];
    } else {
      assert (s + suffix)[0] != ' ';
      assert (s + suffix)[..|suffix|] != suffix;
      assert (s + suffix)[1..] == s[1..] + suffix;
      ReplaceSuffix(s[1..], suffix);
      assert s == [s[0]] + s[1..];
    }
  }

  /** `is_double_sided_candidate`: "//" in the lower-cased product name, or both
      "double" and "sided". */
  predicate IsDoubleSided(productName: string) {
    var pn := Lower(productName);
    Contains(pn, "//") || (Contains(pn, "double") && Contains(pn, "sided"))
  }
}

=== FILE: merge.dfy ===
/** `merge_entries`: fold the main-output entries by (TCGplayer Id, Condition),
    summing quantities into the first entry seen for each pair. The result lists
    the pairs in order of first appearance. */
module Merge {
  import opened Wrappers
  import opened Cards

  /** The merge key of an entry. */
  function KeyOf(e: Entry): (string, string) {
    (e.id, e.condition)
  }

  function Last<T>(s: seq<T>): T
    requires |s| > 0
  {
    s[|s| - 1]
  }

  function Init<T>(s: seq<T>): seq<T>
    requires |s| > 0
  {
    s[..|s| - 1]
  }

  /** The keys of `cards`, each once, in order of first appearance. */
  function FirstKeys(cards: seq<Entry>): (ks: seq<(string, string)>)
    ensures forall i, j :: 0 <= i < j < |ks| ==> ks[i] != ks[j]
    decreases |cards|
  {
    if cards == [] then []
    else
      var ks := FirstKeys(Init(cards));
      if KeyOf(Last(cards)) in ks then ks else ks + [KeyOf(Last(cards))]
  }

  /** The total quantity of the entries of `cards` with key `k`. */
  function QuantityOf(cards: seq<Entry>, k: (string, string)): int
    decreases |cards|
  {
    if cards == [] then 0
    else QuantityOf(Init(cards), k) + (if KeyOf(Last(cards)) == k then Last(cards).quantity else 0)
  }

  /** The total quantity of `cards`. */
  function Total(cards: seq<Entry>): int
    decreases |cards|
  {
    if cards == [] then 0 else Total(Init(cards)) + Last(cards).quantity
  }

  /** The first entry of `cards` with key `k`, if any. */
  function FirstWith(cards: seq<Entry>, k: (string, string)): Option<Entry>
    decreases |cards|
  {
    if cards == [] then None
    else
      var e := FirstWith(Init(cards), k);
      if e.Some? then e
      else if KeyOf(Last(cards)) == k then Some(Last(cards))
      else None
  }

  /** The merged entry for key `k`: the first entry seen, with the summed quantity. */
  function MergedFor(cards: seq<Entry>, k: (string, string)): Option<Entry> {
    var e := FirstWith(cards, k);
    if e.Some? then Some(e.value.(quantity := QuantityOf(cards, k))) else None
  }

  /** The reference definitions, one entry further on. */
  lemma Snoc(cards: seq<Entry>, c: Entry)
    ensures var cs := cards + [c];
      && FirstKeys(cs) == (if KeyOf(c) in FirstKeys(cards) then FirstKeys(cards) else FirstKeys(cards) + [KeyOf(c)])
      && Total(cs) == Total(cards) + c.quantity
  {
    var cs := cards + [c];
    assert Init(cs) == cards && Last(cs) == c;
  }

  lemma SnocAt(cards: seq<Entry>, c: Entry, k: (string, string))
    ensures var cs := cards + [c];
      && QuantityOf(cs, k) == QuantityOf(cards, k) + (if KeyOf(c) == k then c.quantity else 0)
      && FirstWith(cs, k) == (if FirstWith(cards, k).Some? then FirstWith(cards, k)
                              else if KeyOf(c) == k then Some(c) else None)
  {
    var cs := cards + [c];
    assert Init(cs) == cards && Last(cs) == c;
  }

  /** A key has a first entry exactly when it is one of the first-seen keys. */
  lemma {:induction false} FirstWithIff(cards: seq<Entry>, k: (string, string))
    ensures FirstWith(cards, k).Some? <==> k in FirstKeys(cards)
    ensures FirstWith(cards, k).None? ==> QuantityOf(cards, k) == 0
    decreases |cards|
  {
    if cards != [] {
      FirstWithIff(Init(cards), k);
    }
  }

  /** The position of the entry with key `k`, if any (the dict lookup). */
  function Find(merged: seq<Entry>, k: (string, string)): (r: int)
    ensures -1 <= r < |merged|
    ensures r >= 0 ==> KeyOf(merged[r]) == k
    ensures r < 0 ==> forall j :: 0 <= j < |merged| ==> KeyOf(merged[j]) != k
    decreases |merged|
  {
    if merged == [] then -1
    else if KeyOf(Last(merged)) == k then |merged| - 1
    else Find(Init(merged), k)
  }

  /** Raising one entry's quantity raises the total by as much. */
  lemma {:induction false} TotalUpdate(s: seq<Entry>, j: nat, e: Entry)
    requires j < |s|
    ensures Total(s[j := e]) == Total(s) - s[j].quantity + e.quantity
    decreases |s|
  {
    var t := s[j := e];
    if j == |s| - 1 {
      assert Init(t) == Init(s);
    } else {
      assert Init(t) == Init(s)[j := e];
      TotalUpdate(Init(s), j, e);
    }
  }

  /** `merged` is what merging `cards` gives: one entry per distinct key, in order of
      first appearance, each the first entry with that key carrying the key's summed
      quantity, and the same total quantity. */
  predicate Merged(cards: seq<Entry>, merged: seq<Entry>) {
    var ks := FirstKeys(cards);
    && |merged| == |ks|
    && (forall j :: 0 <= j < |merged| ==> KeyOf(merged[j]) == ks[j])
    && (forall j :: 0 <= j < |merged| ==> MergedFor(cards, ks[j]) == Some(merged[j]))
    && Total(merged) == Total(cards)
  }

  /** One loop step of `merge_entries`: add the quantity to the entry with the same
      key, or append the entry when its key is new. */
  function MergeStep(merged: seq<Entry>, c: Entry): seq<Entry> {
    var at := Find(merged, KeyOf(c));
    if at >= 0 then merged[at := merged[at].(quantity := merged[at].quantity + c.quantity)]
    else merged + [c]
  }

  lemma StepExisting(cards: seq<Entry>, merged: seq<Entry>, c: Entry)
    requires Merged(cards, merged) && Find(merged, KeyOf(c)) >= 0
    ensures Merged(cards + [c], MergeStep(merged, c))
  {
    var at := Find(merged, KeyOf(c));
    var r := MergeStep(merged, c);
    Snoc(cards, c);
    assert KeyOf(c) == FirstKeys(cards)[at];
    assert FirstKeys(cards + [c]) == FirstKeys(cards);
    TotalUpdate(merged, at, r[at]);
    OldKeyEntries(cards, merged, c, at);
  }

  /** Adding to the entry at `at`, whose key is `c`'s: every merged entry stays its
      key's merged entry. */
  lemma OldKeyEntries(cards: seq<Entry>, merged: seq<Entry>, c: Entry, at: nat)
    requires Merged(cards, merged) && at < |merged| && KeyOf(merged[at]) == KeyOf(c)
    ensures var r := merged[at := merged[at].(quantity := merged[at].quantity + c.quantity)];
      forall j :: 0 <= j < |r| ==> MergedFor(cards + [c], FirstKeys(cards)[j]) == Some(r[j])
  {
    var ks := FirstKeys(cards);
    var r := merged[at := merged[at].(quantity := merged[at].quantity + c.quantity)];
    forall j | 0 <= j < |r|
      ensures MergedFor(cards + [c], ks[j]) == Some(r[j])
    {
      assert MergedFor(cards, ks[j]) == Some(merged[j]);
      SnocAt(cards, c, ks[j]);
    }
  }

  lemma StepNew(cards: seq<Entry>, merged: seq<Entry>, c: Entry)
    requires Merged(cards, merged) && Find(merged, KeyOf(c)) < 0
    ensures Merged(cards + [c], MergeStep(merged, c))
  {
    var ks := FirstKeys(cards);
    NewKeyAbsent(cards, merged, c);
    Snoc(cards, c);
    assert FirstKeys(cards + [c]) == ks + [KeyOf(c)];
    assert MergeStep(merged, c) == merged + [c];
    NewKeyEntries(cards, merged, c);
    Snoc(merged, c);
  }

  /** A key the merged list lacks is not among the first-seen keys. */
  lemma NewKeyAbsent(cards: seq<Entry>, merged: seq<Entry>, c: Entry)
    requires Merged(cards, merged) && Find(merged, KeyOf(c)) < 0
    ensures KeyOf(c) !in FirstKeys(cards)
  {
    var ks := FirstKeys(cards);
    forall j | 0 <= j < |ks|
      ensures ks[j] != KeyOf(c)
    {
      assert KeyOf(merged[j]) == ks[j];
    }
  }

  /** Appending an entry with a new key: the old merged entries stay right, and the
      new entry is its key's merged entry. */
  lemma NewKeyEntries(cards: seq<Entry>, merged: seq<Entry>, c: Entry)
    requires Merged(cards, merged) && KeyOf(c) !in FirstKeys(cards)
    ensures var ks' := FirstKeys(cards) + [KeyOf(c)];
      forall j :: 0 <= j < |merged| + 1 ==> MergedFor(cards + [c], ks'[j]) == Some((merged + [c])[j])
  {
    var ks := FirstKeys(cards);
    var ks' := ks + [KeyOf(c)];
    var r := merged + [c];
    FirstWithIff(cards, KeyOf(c));
    forall j | 0 <= j < |merged| + 1
      ensures MergedFor(cards + [c], ks'[j]) == Some(r[j])
    {
      SnocAt(cards, c, ks'[j]);
      if j < |merged| {
        assert ks'[j] == ks[j] && r[j] == merged[j];
        assert MergedFor(cards, ks[j]) == Some(merged[j]);
      }
    }
  }

  /** Every key of `cards` is one of its first-seen keys. */
  lemma {:induction false} KeysListed(cards: seq<Entry>, i: nat)
    requires i < |cards|
    ensures KeyOf(cards[i]) in FirstKeys(cards)
    decreases |cards|
  {
    if i < |cards| - 1 {
      KeysListed(Init(cards), i);
    }
  }

  /** The position of the first entry of `cards` with key `k`, or -1 when there is
      none. */
  function FirstIndex(cards: seq<Entry>, k: (string, string)): (p: int)
    ensures -1 <= p < |cards|
    ensures p >= 0 ==> KeyOf(cards[p]) == k && forall q :: 0 <= q < p ==> KeyOf(cards[q]) != k
    ensures p < 0 ==> forall q :: 0 <= q < |cards| ==> KeyOf(cards[q]) != k
    decreases |cards|
  {
    if cards == [] then -1
    else if KeyOf(cards[0]) == k then 0
    else
      var p := FirstIndex(cards[1..], k);
      if p < 0 then -1 else p + 1
  }

  /** The first entry with key `k` is the one at its first position. */
  lemma {:induction false} FirstWithAt(cards: seq<Entry>, k: (string, string))
    requires FirstWith(cards, k).Some?
    ensures 0 <= FirstIndex(cards, k) && FirstWith(cards, k).value == cards[FirstIndex(cards, k)]
    decreases |cards|
  {
    var init := Init(cards);
    if FirstWith(init, k).Some? {
      FirstWithAt(init, k);
      var p := FirstIndex(init, k);
      assert cards[p] == init[p];
      assert forall q :: 0 <= q < p ==> cards[q] == init[q];
    } else {
      FirstWithNone(init, k);
      assert forall q :: 0 <= q < |cards| - 1 ==> cards[q] == init[q];
    }
  }

  /** A key without a first entry appears nowhere. */
  lemma {:induction false} FirstWithNone(cards: seq<Entry>, k: (string, string))
    requires FirstWith(cards, k).None?
    ensures forall q :: 0 <= q < |cards| ==> KeyOf(cards[q]) != k
    decreases |cards|
  {
    if cards != [] {
      FirstWithNone(Init(cards), k);
      assert forall q :: 0 <= q < |cards| - 1 ==> cards[q] == Init(cards)[q];
    }
  }

  /** The merged keys are pairwise distinct. */
  lemma MergedDistinct(cards: seq<Entry>, merged: seq<Entry>)
    requires Merged(cards, merged)
    ensures forall i, j :: 0 <= i < j < |merged| ==> KeyOf(merged[i]) != KeyOf(merged[j])
  {
    var ks := FirstKeys(cards);
    forall i, j | 0 <= i < j < |merged|
      ensures KeyOf(merged[i]) != KeyOf(merged[j])
    {
      assert KeyOf(merged[i]) == ks[i] && KeyOf(merged[j]) == ks[j];
    }
  }

  /** Every input key has a merged entry. */
  lemma MergedCovers(cards: seq<Entry>, merged: seq<Entry>)
    requires Merged(cards, merged)
    ensures forall i :: 0 <= i < |cards| ==> Find(merged, KeyOf(cards[i])) >= 0
  {
    var ks := FirstKeys(cards);
    forall i | 0 <= i < |cards|
      ensures Find(merged, KeyOf(cards[i])) >= 0
    {
      KeysListed(cards, i);
      var j :| 0 <= j < |ks| && ks[j] == KeyOf(cards[i]);
      assert KeyOf(merged[j]) == ks[j];
    }
  }

  /** Each merged entry is the first input entry with its key, carrying the key's
      total quantity. */
  lemma MergedFirstSeen(cards: seq<Entry>, merged: seq<Entry>)
    requires Merged(cards, merged)
    ensures forall j :: 0 <= j < |merged| ==> merged[j].quantity == QuantityOf(cards, KeyOf(merged[j]))
    ensures forall j :: 0 <= j < |merged| ==>
      && 0 <= FirstIndex(cards, KeyOf(merged[j]))
      && merged[j] == cards[FirstIndex(cards, KeyOf(merged[j]))].(quantity := merged[j].quantity)
  {
    var ks := FirstKeys(cards);
    forall j | 0 <= j < |merged|
      ensures merged[j].quantity == QuantityOf(cards, KeyOf(merged[j]))
      ensures 0 <= FirstIndex(cards, KeyOf(merged[j]))
      ensures merged[j] == cards[FirstIndex(cards, KeyOf(merged[j]))].(quantity := merged[j].quantity)
    {
      assert MergedFor(cards, ks[j]) == Some(merged[j]);
      assert KeyOf(merged[j]) == ks[j];
      FirstWithAt(cards, ks[j]);
    }
  }

  /** `merge_entries` over a list, one entry at a time from the front. */
  function MergeAll(cards: seq<Entry>): seq<Entry>
    decreases |cards|
  {
    if cards == [] then [] else MergeStep(MergeAll(Init(cards)), Last(cards))
  }

  lemma {:induction false} MergeAllMerged(cards: seq<Entry>)
    ensures Merged(cards, MergeAll(cards))
    decreases |cards|
  {
    if cards != [] {
      var init, c := Init(cards), Last(cards);
      MergeAllMerged(init);
      assert cards == init + [c];
      if Find(MergeAll(init), KeyOf(c)) >= 0 {
        StepExisting(init, MergeAll(init), c);
      } else {
        StepNew(init, MergeAll(init), c);
      }
    }
  }

  /** `merge_entries`. The result has one entry per distinct key, in order of first
      appearance; each is the first entry with that key, carrying the key's summed
      quantity; and the total quantity is unchanged. */
  method MergeEntries(cards: seq<Entry>) returns (merged: seq<Entry>)
    ensures Merged(cards, merged)
    ensures Total(merged) == Total(cards)
    ensures forall i, j :: 0 <= i < j < |merged| ==> KeyOf(merged[i]) != KeyOf(merged[j])
    ensures forall i :: 0 <= i < |cards| ==> Find(merged, KeyOf(cards[i])) >= 0
    ensures forall j :: 0 <= j < |merged| ==> merged[j].quantity == QuantityOf(cards, KeyOf(merged[j]))
    ensures forall j :: 0 <= j < |merged| ==>
      && 0 <= FirstIndex(cards, KeyOf(merged[j]))
      && merged[j] == cards[FirstIndex(cards, KeyOf(merged[j]))].(quantity := merged[j].quantity)
  {
    merged := MergeLoop(cards);
    MergeAllMerged(cards);
    MergedDistinct(cards, merged);
    MergedCovers(cards, merged);
    MergedFirstSeen(cards, merged);
  }

  /** The loop of `merge_entries`: one merge step per entry, front to back. */
  method MergeLoop(cards: seq<Entry>) returns (merged: seq<Entry>)
    ensures merged == MergeAll(cards)
  {
    merged := [];
    var i := 0;
    while i < |cards|
      invariant 0 <= i <= |cards|
      invariant merged == MergeAll(cards[..i])
    {
      assert Init(cards[..i + 1]) == cards[..i];
      merged := MergeStep(merged, cards[i]);
      i := i + 1;
    }
    assert cards[..i] == cards;
  }
}

=== FILE: normalize.dfy ===
/** The key normaliser (`normalize_key`): turns a loosely written name, set name,
    condition and collector number into a comparable key, or rejects prerelease
    products. */
module Normalize {
  import opened Wrappers
  import opened Text
  import opened Cards

  /** The characters `[a-zA-Z0-9 ,'-]` a name keeps. */
  predicate IsNameChar(c: char) {
    IsAsciiLetter(c) || IsAsciiDigit(c) || c == ' ' || c == ',' || c == '\'' || c == '-'
  }

  /** The characters `[a-zA-Z0-9 ]` a set name keeps. */
  predicate IsSetChar(c: char) {
    IsAsciiLetter(c) || IsAsciiDigit(c) || c == ' '
  }

  /** The characters `[\d\-]` a collector number keeps. */
  predicate IsNumberChar(c: char) {
    IsAsciiDigit(c) || c == '-'
  }

  /** A name character after lower-casing: `[a-z0-9 ,'-]`. */
  predicate IsLowerNameChar(c: char) {
    IsNameChar(c) && !IsAsciiUpper(c)
  }

  /** A set-name character after lower-casing: `[a-z0-9 ]`. */
  predicate IsLowerSetChar(c: char) {
    IsSetChar(c) && !IsAsciiUpper(c)
  }

  predicate AllChars(s: string, p: char -> bool) {
    forall i :: 0 <= i < |s| ==> p(s[i])
  }

  /** Neither end of `s` is blank (what `strip()` guarantees). */
  predicate Trimmed(s: string) {
    s == [] || (!IsSpace(s[0]) && !IsSpace(s[|s| - 1]))
  }

  const LIST_REPRINTS: string := "the list reprints"
  const PRERELEASE_SET: string := "prerelease cards"

  /** Lower-casing keeps a string's blank ends as they were and maps the characters
      of a class onto its lower-case part. */
  lemma LowerKeepsClass(s: string, p: char -> bool, q: char -> bool)
    requires AllChars(s, p)
    requires forall c :: p(c) ==> q(LowerChar(c))
    requires Trimmed(s)
    ensures AllChars(Lower(s), q)
    ensures Trimmed(Lower(s))
  {
  }

  /** The name with its parenthetical text removed, when it has both brackets. */
  function Unbracketed(raw: string): string {
    if '(' in raw && ')' in raw then Strip(RemoveParens(raw)) else raw
  }

  /** The front face: the unbracketed name without accents, cut at its first `//`. */
  function FrontFace(o: Oracles, raw: string): string {
    Strip(SplitOn(o.removeAccents(Unbracketed(raw)), "//")[0])
  }

  /** Strip the parenthetical text, the accents and the back face, then restrict
      the name to `[a-zA-Z0-9 ,'-]` and lower-case it. */
  function NormalizeName(o: Oracles, raw: string): (r: string)
    ensures AllChars(r, IsLowerNameChar)
    ensures Trimmed(r)
  {
    var front := FrontFace(o, raw);
    var kept := Strip(Keep(front, IsNameChar));
    assert AllChars(kept, IsNameChar) by {
      forall i | 0 <= i < |kept| ensures IsNameChar(kept[i]) {
        assert kept[i] in Keep(front, IsNameChar);
      }
    }
    LowerKeepsClass(kept, IsNameChar, IsLowerNameChar);
    Lower(kept)
  }

  /** Only the front face of a two-faced name counts: `a // b` normalises like `a`.
      The front face must have no `(`, or a bracket in it could pair with one in
      the back face, and (for a short proof) no slash. */
  lemma BackFaceIgnored(o: Oracles, a: string, b: string)
    requires '(' !in a && '/' !in a
    requires o.removeAccents(a) == a
    requires o.removeAccents(Unbracketed(a + "//" + b)) == Unbracketed(a + "//" + b)
    ensures NormalizeName(o, a + "//" + b) == NormalizeName(o, a)
  {
    TwoFacedFront(a, b);
    NoSlashPiece(a);
    assert FrontFace(o, a + "//" + b) == FrontFace(o, a);
  }

  /** The unbracketed form of `a // b` is cut back to `a`, up to blanks. */
  lemma TwoFacedFront(a: string, b: string)
    requires '(' !in a && '/' !in a
    ensures Strip(SplitOn(Unbracketed(a + "//" + b), "//")[0]) == Strip(a)
  {
    var raw := a + "//" + b;
    if '(' in raw && ')' in raw {
      BracketedFront(a, b);
      assert Strip(TrimLeft(a)) == Strip(a);
    } else {
      FirstPiece(a, b);
    }
  }

  /** With the brackets of the back face removed, the first piece is `a` without
      its leading blanks. */
  lemma BracketedFront(a: string, b: string)
    requires '(' !in a && '/' !in a
    ensures SplitOn(Strip(RemoveParens(a + "//" + b)), "//")[0] == TrimLeft(a)
  {
    RemoveParensPrefix(a + "//", b);
    var r := RemoveParens(b);
    StripAroundSlashes(a, r);
    FirstPiece(TrimLeft(a), TrimRight(r));
  }

  /** A trailing parenthetical is dropped: `a (p)` normalises like `a`, for a `p`
      with no `)` or line break. The name before it must have no `(`: `x (y` with
      `(p)` appended would lose `(y (p)` as one group. */
  lemma ParentheticalIgnored(o: Oracles, a: string, p: string)
    requires '(' !in a && '/' !in a
    requires ')' !in p && '\n' !in p
    requires o.removeAccents(a) == a && o.removeAccents(Strip(a)) == Strip(a)
    ensures NormalizeName(o, a + " (" + p + ")") == NormalizeName(o, a)
  {
    var raw := a + " (" + p + ")";
    assert raw == (a + " ") + ("(" + p + ")");
    assert '(' in raw by { assert raw[|a| + 1] == '('; }
    assert ')' in raw by { assert raw[|raw| - 1] == ')'; }
    RemoveParensPrefix(a + " ", "(" + p + ")");
    RemoveParensGroup(p);
    assert RemoveParens(raw) == a + " ";
    StripTrailingBlank(a);
    assert Unbracketed(raw) == Strip(a);
    assert '/' !in Strip(a);
    NoSlashPiece(Strip(a));
    NoSlashPiece(a);
    StripTwice(a);
  }

  /** The set name restricted to `[a-zA-Z0-9 ]` and lower-cased, before aliasing. */
  function CleanSet(o: Oracles, raw: string): (r: string)
    ensures AllChars(r, IsLowerSetChar)
    ensures Trimmed(r)
  {
    var kept := Strip(Keep(o.removeAccents(raw), IsSetChar));
    assert AllChars(kept, IsSetChar) by {
      forall i | 0 <= i < |kept| ensures IsSetChar(kept[i]) {
        assert kept[i] in Keep(o.removeAccents(raw), IsSetChar);
      }
    }
    LowerKeepsClass(kept, IsSetChar, IsLowerSetChar);
    Lower(kept)
  }

  /** The normalised set name: `plst` and `the list` both become `the list reprints`. */
  function NormalizeSet(o: Oracles, raw: string): (r: string)
    ensures AllChars(r, IsLowerSetChar)
    ensures Trimmed(r)
    ensures r != "plst" && r != "the list"
    ensures CleanSet(o, raw) == "plst" || CleanSet(o, raw) == "the list" ==> r == LIST_REPRINTS
    ensures CleanSet(o, raw) != "plst" && CleanSet(o, raw) != "the list" ==> r == CleanSet(o, raw)
  {
    var s := CleanSet(o, raw);
    if s == "plst" || s == "the list" then
      ListReprintsClean();
      LIST_REPRINTS
    else s
  }

  lemma ListReprintsClean()
    ensures AllChars(LIST_REPRINTS, IsLowerSetChar) && Trimmed(LIST_REPRINTS)
  {
  }

  /** The collector number reduced to digits and dashes; empty means unknown. */
  function NormalizeNumber(raw: string): (r: Option<string>)
    ensures r.Some? ==> |r.value| > 0 && AllChars(r.value, IsNumberChar)
    ensures r.None? <==> AllChars(raw, c => !IsNumberChar(c))
  {
    if raw == [] then None
    else
      var n := Keep(Strip(raw), IsNumberChar);
      assert n == [] <==> AllChars(raw, c => !IsNumberChar(c)) by {
        if n == [] {
          forall i | 0 <= i < |raw| ensures !IsNumberChar(raw[i]) {
            if IsNumberChar(raw[i]) {
              KeepFindsChar(Strip(raw), IsNumberChar, raw, i);
            }
          }
        } else {
          assert n[0] in Strip(raw);
        }
      }
      if n == [] then None else Some(n)
  }

  /** A character of `raw` satisfying `p` survives stripping and filtering. */
  lemma KeepFindsChar(t: string, p: char -> bool, raw: string, i: nat)
    requires t == Strip(raw) && i < |raw| && p(raw[i])
    requires forall c :: p(c) ==> !IsSpace(c)
    ensures Keep(t, p) != []
  {
    var lo := |raw| - |TrimLeft(raw)|;
    assert TrimLeft(raw) == raw[lo..];
    if i < lo {
      LeadingBlanks(raw, i);
    } else {
      var u := TrimLeft(raw);
      assert u[i - lo] == raw[i];
      if i - lo >= |t| {
        TrailingBlanks(u, i - lo);
      }
      assert t[i - lo] == raw[i];
      KeepNonEmpty(t, p, i - lo);
    }
  }

  lemma {:induction false} LeadingBlanks(s: string, i: nat)
    requires i < |s| - |TrimLeft(s)|
    ensures IsSpace(s[i])
    decreases |s|
  {
    if i > 0 {
      LeadingBlanks(s[1..], i - 1);
    }
  }

  lemma {:induction false} TrailingBlanks(s: string, i: nat)
    requires |TrimRight(s)| <= i < |s|
    ensures IsSpace(s[i])
    decreases |s|
  {
    if i < |s| - 1 {
      TrailingBlanks(s[..|s| - 1], i);
    }
  }

  lemma {:induction false} KeepNonEmpty(t: string, p: char -> bool, i: nat)
    requires i < |t| && p(t[i])
    ensures Keep(t, p) != []
    decreases |t|
  {
    if i > 0 && !p(t[0]) {
      KeepNonEmpty(t[1..], p, i - 1);
    }
  }

  /** `normalize_key`: None exactly for prerelease sets; otherwise a key whose name
      is the normalised card name (so `BackFaceIgnored` and `ParentheticalIgnored`
      carry over to the key), restricted to `[a-z0-9 ,'-]` (so holds no `//` back face), whose set name is
      restricted to `[a-z0-9 ]`, whose condition is lower-cased, whose number is
      unknown or a non-empty run of digits and dashes, and whose suffix is empty.
      The number split meant for "the list" never happens: the set name is compared
      after aliasing, so even for a set written "The List" the number is the raw
      number reduced to digits and dashes, dashes and all. */
  function NormalizeKey(o: Oracles, name: string, setName: string, condition: string, number: string)
    : (r: Option<SuffixedKey>)
    ensures r.None? <==> Contains(NormalizeSet(o, setName), PRERELEASE_SET)
    ensures r.Some? ==> r.value.key.name == NormalizeName(o, name)
    ensures r.Some? ==> AllChars(r.value.key.name, IsLowerNameChar) && !Contains(r.value.key.name, "//")
    ensures r.Some? ==> AllChars(r.value.key.setName, IsLowerSetChar)
    ensures r.Some? ==> r.value.key.setName == NormalizeSet(o, setName)
    ensures r.Some? ==> r.value.key.condition == Lower(condition)
    ensures r.Some? ==> r.value.key.number == NormalizeNumber(number)
    ensures r.Some? ==> r.value.key.number.None? || (|r.value.key.number.value| > 0 && AllChars(r.value.key.number.value, IsNumberChar))
    ensures r.Some? ==> r.value.suffix == ""
  {
    var n := NormalizeName(o, name);
    var s := NormalizeSet(o, setName);
    if Contains(s, PRERELEASE_SET) then None
    else
      // This branch follows the alias above, which already turned "the list"
      // into "the list reprints"; it can never run.
      var num := if s == "the list" then (if number != [] then LastPiece(number) else []) else number;
      NoBackFace(n);
      Some(SuffixedKey(Key(n, s, NormalizeNumber(num), Lower(condition)), ""))
  }

  /** A two-faced card is keyed by its front face alone. */
  lemma KeyIgnoresBackFace(o: Oracles, a: string, b: string, setName: string, condition: string, number: string)
    requires '(' !in a && '/' !in a
    requires o.removeAccents(a) == a
    requires o.removeAccents(Unbracketed(a + "//" + b)) == Unbracketed(a + "//" + b)
    ensures NormalizeKey(o, a + "//" + b, setName, condition, number) == NormalizeKey(o, a, setName, condition, number)
  {
    BackFaceIgnored(o, a, b);
  }

  /** A trailing parenthetical does not change a card's key. */
  lemma KeyIgnoresParenthetical(o: Oracles, a: string, p: string, setName: string, condition: string, number: string)
    requires '(' !in a && '/' !in a
    requires ')' !in p && '\n' !in p
    requires o.removeAccents(a) == a && o.removeAccents(Strip(a)) == Strip(a)
    ensures NormalizeKey(o, a + " (" + p + ")", setName, condition, number) == NormalizeKey(o, a, setName, condition, number)
  {
    ParentheticalIgnored(o, a, p);
  }

  /** A name restricted to `[a-z0-9 ,'-]` holds no `//`. */
  lemma NoBackFace(n: string)
    requires AllChars(n, IsLowerNameChar)
    ensures !Contains(n, "//")
  {
    var p: char -> bool := c => !IsLowerNameChar(c);
    assert p("//"[0]);
    assert forall j :: 0 <= j < |n| ==> !p(n[j]);
    NotContainsByChar(n, "//", p, 0);
  }

  /** `number.split("-")[-1]`. */
  function LastPiece(number: string): string {
    var parts := SplitOn(number, "-");
    parts[|parts| - 1]
  }

  /** Read a normalised number back as collector-number text. */
  function NumberText(n: Option<string>): string {
    n.GetOr("")
  }

  /** Normalising an already normalised key gives it back, provided accent
      removal leaves its (ASCII) name and set name alone. */
  lemma NormalizeIdempotent(o: Oracles, name: string, setName: string, condition: string, number: string)
    requires NormalizeKey(o, name, setName, condition, number).Some?
    requires var k := NormalizeKey(o, name, setName, condition, number).value.key;
      o.removeAccents(k.name) == k.name && o.removeAccents(k.setName) == k.setName
    ensures var r := NormalizeKey(o, name, setName, condition, number).value;
      NormalizeKey(o, r.key.name, r.key.setName, r.key.condition, NumberText(r.key.number)) == Some(r)
  {
    var r := NormalizeKey(o, name, setName, condition, number).value;
    var k := r.key;
    NameFixed(o, k.name);
    SetFixed(o, k.setName);
    NumberFixed(k.number);
    LowerIdempotent(condition);
  }

  lemma NameFixed(o: Oracles, n: string)
    requires AllChars(n, IsLowerNameChar) && Trimmed(n)
    requires o.removeAccents(n) == n
    ensures NormalizeName(o, n) == n
  {
    assert '(' !in n;
    NoBackFace(n);
    assert SplitOn(n, "//") == [n];
    assert Keep(n, IsNameChar) == n;
    assert forall i :: 0 <= i < |n| ==> LowerChar(n[i]) == n[i];
    assert Lower(n) == n;
  }

  lemma SetFixed(o: Oracles, s: string)
    requires AllChars(s, IsLowerSetChar) && Trimmed(s)
    requires s != "plst" && s != "the list"
    requires o.removeAccents(s) == s
    ensures NormalizeSet(o, s) == s
  {
    assert Keep(s, IsSetChar) == s;
    assert forall i :: 0 <= i < |s| ==> LowerChar(s[i]) == s[i];
    assert Lower(s) == s;
  }

  lemma NumberFixed(n: Option<string>)
    requires n.Some? ==> |n.value| > 0 && AllChars(n.value, IsNumberChar)
    ensures NormalizeNumber(NumberText(n)) == n
  {
    if n.Some? {
      var v := n.value;
      assert IsNumberChar(v[0]) && IsNumberChar(v[|v| - 1]);
      assert Strip(v) == v;
      assert Keep(Strip(v), IsNumberChar) == v;
      assert NormalizeNumber(v) == Some(v);
    } else {
      assert NormalizeNumber("") == None;
    }
  }
}

=== FILE: outcome.dfy ===
/** What processing one ManaBox row produces: at most one output entry, and the
    context with the given-up, Scryfall-only and pending lists possibly extended. */
module Outcome {
  import opened Wrappers
  import opened Dicts
  import opened Cards

  /** The entry for the main output (if any) and the context afterwards. */
  datatype Step = Step(entry: Option<Entry>, ctx: Context)

  /** `b` is `a` with zero or more items appended. */
  predicate Extends<T(==)>(a: seq<T>, b: seq<T>) {
    |a| <= |b| && b[..|a|] == a
  }

  /** Some queued item carries exactly this key (`any(item[0] == key ...)`). */
  predicate Queued(ctx: Context, key: ItemKey) {
    AnyKey(ctx.pending, key)
  }

  /** Some item of `items` carries `key`, scanned front to back. */
  predicate AnyKey(items: seq<Deferred>, key: ItemKey)
    decreases |items|
  {
    items != [] && (items[0].key == key || AnyKey(items[1..], key))
  }

  /** `AnyKey` is the existential it scans for. */
  lemma {:induction false} AnyKeyExists(items: seq<Deferred>, key: ItemKey)
    ensures AnyKey(items, key) <==> exists i :: 0 <= i < |items| && items[i].key == key
    decreases |items|
  {
    if items != [] {
      AnyKeyExists(items[1..], key);
      if exists i :: 0 <= i < |items| && items[i].key == key {
        var i :| 0 <= i < |items| && items[i].key == key;
        if i > 0 {
          assert items[1..][i - 1].key == key;
        }
      }
      if AnyKey(items[1..], key) {
        var i :| 0 <= i < |items[1..]| && items[1..][i].key == key;
        assert items[i + 1].key == key;
      }
    }
  }

  /** Append `e` to the given-up list unless an item with `key` is queued. */
  function GiveUp(ctx: Context, key: ItemKey, e: Entry): (r: Context)
    ensures Queued(ctx, key) ==> r == ctx
    ensures !Queued(ctx, key) ==> r == ctx.(givenUp := ctx.givenUp + [e])
  {
    if Queued(ctx, key) then ctx else ctx.(givenUp := ctx.givenUp + [e])
  }

  /** Queue a deferred item. */
  function Defer(ctx: Context, d: Deferred): Context {
    ctx.(pending := ctx.pending + [d])
  }

  /** Route an entry to the Scryfall-only list. */
  function SetAside(ctx: Context, e: Entry): Context {
    ctx.(scryfallOnly := ctx.scryfallOnly + [e])
  }

  /** How many results one step produced: its entry plus what it appended. */
  function Produced(ctx: Context, s: Step): int {
    (if s.entry.Some? then 1 else 0)
    + (|s.ctx.pending| - |ctx.pending|)
    + (|s.ctx.givenUp| - |ctx.givenUp|)
    + (|s.ctx.scryfallOnly| - |ctx.scryfallOnly|)
  }

  /** A step only appends to the three lists, and yields at most one result: an
      entry, a queued item, a given-up entry or a Scryfall-only entry. */
  predicate AtMostOne(ctx: Context, s: Step) {
    && Extends(ctx.pending, s.ctx.pending)
    && Extends(ctx.givenUp, s.ctx.givenUp)
    && Extends(ctx.scryfallOnly, s.ctx.scryfallOnly)
    && Produced(ctx, s) <= 1
  }

  /** An entry the step emits carries the row's condition label and quantity. */
  predicate CarriesRow(s: Step, condition: string, quantity: int) {
    s.entry.Some? ==> s.entry.value.condition == condition && s.entry.value.quantity == quantity
  }

  /** The reference data only gains keys, and a memoised match is never dropped
      or rebound. */
  predicate Grows(ctx: Context, c: Context) {
    && Keys(ctx.refData) <= Keys(c.refData)
    && forall k :: k in ctx.confirmed ==> k in c.confirmed && c.confirmed[k] == ctx.confirmed[k]
  }

  lemma GrowsTrans(a: Context, b: Context, c: Context)
    requires Grows(a, b) && Grows(b, c)
    ensures Grows(a, c)
  {
  }

  lemma AppendExtends<T>(a: seq<T>, x: T)
    ensures Extends(a, a + [x])
  {
    assert (a + [x])[..|a|] == a;
  }

  /** Giving up yields at most one result and keeps the context valid. */
  lemma GiveUpStep(ctx: Context, key: ItemKey, e: Entry)
    ensures AtMostOne(ctx, Step(None, GiveUp(ctx, key, e))) && Grows(ctx, GiveUp(ctx, key, e))
    ensures Valid(ctx) ==> Valid(GiveUp(ctx, key, e))
  {
    AppendExtends(ctx.givenUp, e);
  }

  /** Setting an entry aside yields one result and keeps the context valid. */
  lemma SetAsideStep(ctx: Context, e: Entry)
    ensures AtMostOne(ctx, Step(None, SetAside(ctx, e))) && Grows(ctx, SetAside(ctx, e))
    ensures Valid(ctx) ==> Valid(SetAside(ctx, e))
  {
    AppendExtends(ctx.scryfallOnly, e);
  }

  /** Queueing an item yields one result; it keeps the context valid when the item
      is well formed. */
  lemma DeferStep(ctx: Context, d: Deferred)
    ensures AtMostOne(ctx, Step(None, Defer(ctx, d))) && Grows(ctx, Defer(ctx, d))
    ensures Valid(ctx) && DeferredIn(d, ctx.refData) ==> Valid(Defer(ctx, d))
  {
    AppendExtends(ctx.pending, d);
  }

  /** A step that changes no list and yields at most its entry. */
  lemma QuietStep(ctx: Context, s: Step)
    requires s.ctx.pending == ctx.pending && s.ctx.givenUp == ctx.givenUp && s.ctx.scryfallOnly == ctx.scryfallOnly
    ensures AtMostOne(ctx, s)
  {
  }
}

=== FILE: review.dfy ===
/** Manual review of the queued items: the batch window (`confirm_match_gui_batch`)
    and its console fallback (`confirm_match_simple_fallback`). Both return a
    dictionary from item position to the chosen reference key, or to nothing when
    the item was skipped. */
module Review {
  import opened Wrappers
  import opened Text
  import opened Cards

  /** The answers collected so far: item position to chosen key (`None` = skipped). */
  type Answers = map<nat, Option<SuffixedKey>>

  /** `k` is one of the item's candidates. */
  predicate IsCandidate(d: Deferred, k: SuffixedKey) {
    exists j :: 0 <= j < |d.matches| && d.matches[j].key == k
  }

  /** `k` is one of the five candidates the console lists for the item. */
  predicate InTopFive(d: Deferred, k: SuffixedKey) {
    exists j :: 0 <= j < |d.matches| && j < 5 && d.matches[j].key == k
  }

  /** The best candidate of an item, or nothing when it has none. */
  function Top(d: Deferred): (r: Option<SuffixedKey>)
    ensures r.Some? <==> |d.matches| > 0
    ensures r.Some? ==> InTopFive(d, r.value) && IsCandidate(d, r.value)
  {
    if |d.matches| > 0 then Some(d.matches[0].key) else None
  }

  /** Every answer is about an existing item, and every chosen key is one of that
      item's candidates. */
  predicate Sound(items: seq<Deferred>, results: Answers) {
    forall i :: i in results ==> i < |items| && (results[i].Some? ==> IsCandidate(items[i], results[i].value))
  }

  /** Like `Sound`, with the chosen key among the five candidates listed. */
  predicate SoundTopFive(items: seq<Deferred>, results: Answers) {
    forall i :: i in results ==> i < |items| && (results[i].Some? ==> InTopFive(items[i], results[i].value))
  }

  /** "Auto-confirm all remaining": every item from `from` on gets its best
      candidate; earlier answers stay as they are. */
  function AutoFrom(items: seq<Deferred>, from: nat, results: Answers): (r: Answers)
    ensures forall i :: from <= i < |items| ==> i in r && r[i] == Top(items[i])
    ensures forall i :: i in results && !(from <= i < |items|) ==> i in r && r[i] == results[i]
    ensures forall i :: i in r ==> i in results || from <= i < |items|
    decreases |items| - from
  {
    if from >= |items| then results
    else AutoFrom(items, from + 1, results[from := Top(items[from])])
  }

  lemma AutoFromSound(items: seq<Deferred>, from: nat, results: Answers)
    requires SoundTopFive(items, results)
    ensures SoundTopFive(items, AutoFrom(items, from, results))
    ensures Sound(items, AutoFrom(items, from, results))
  {
    var r := AutoFrom(items, from, results);
    forall i | i in r
      ensures i < |items| && (r[i].Some? ==> InTopFive(items[i], r[i].value) && IsCandidate(items[i], r[i].value))
    {
      if from <= i < |items| {
      } else {
        assert r[i] == results[i];
        if r[i].Some? {
          var j :| 0 <= j < |items[i].matches| && j < 5 && items[i].matches[j].key == r[i].value;
          assert IsCandidate(items[i], r[i].value);
        }
      }
    }
  }

  // ----- The batch window -----

  /** What the user can do in the window. `Confirm` carries the highlighted row of
      the match list, if any (the Confirm button or the Return key); `Skip` is the
      Skip button or the space bar; `Cancel` is the Cancel button, the Escape key or
      closing the window. */
  datatype Action = Confirm(selection: Option<nat>) | Skip | AutoAll | Previous | Cancel

  /** The window's state: the item shown, the answers so far, and whether the window
      is still open. */
  datatype Gui = Gui(current: nat, results: Answers, open: bool)

  /** The window as first shown: on the first item, with no answers. */
  function Start(items: seq<Deferred>): Gui {
    Gui(0, map[], |items| > 0)
  }

  /** Record the answer for the current item and show the next one; showing past the
      last item closes the window. */
  function Advance(items: seq<Deferred>, g: Gui, answer: Option<SuffixedKey>): Gui
    requires g.current < |items|
  {
    Gui(g.current + 1, g.results[g.current := answer], g.current + 1 < |items|)
  }

  /** The row the window highlights when it shows an item: the first, if any. */
  function DefaultSelection(d: Deferred): Option<nat> {
    if |d.matches| > 0 then Some(0) else None
  }

  /** One callback. A closed window takes no more input. A highlighted row beyond
      the match list raises inside the callback before anything is assigned, so the
      state stays as it was. */
  function OnAction(items: seq<Deferred>, g: Gui, a: Action): (r: Gui)
    ensures !g.open ==> r == g
    ensures g.open && g.current < |items| && a == Skip ==> r.results == g.results[g.current := None]
    ensures g.open && g.current < |items| && a == Confirm(DefaultSelection(items[g.current])) ==>
      r.results == g.results[g.current := Top(items[g.current])] && r.current == g.current + 1
    ensures g.open && g.current < |items| && a.Confirm? && a.selection.Some? && a.selection.value < |items[g.current].matches| ==>
      r.results == g.results[g.current := Some(items[g.current].matches[a.selection.value].key)] && r.current == g.current + 1
    ensures g.open && g.current < |items| && a == Confirm(None) ==> r.results == g.results[g.current := None] && r.current == g.current + 1
    ensures g.open && a.Confirm? && a.selection.Some? && (g.current >= |items| || a.selection.value >= |items[g.current].matches|) ==> r == g
    ensures g.open && a == AutoAll ==> r.results == AutoFrom(items, g.current, g.results) && !r.open
    ensures g.open && a == Previous ==> r.current == (if g.current > 0 then g.current - 1 else 0) && r.open
    ensures a == Previous || a == Cancel ==> r.results == g.results
    ensures a == Cancel ==> !r.open
  {
    if !g.open then g
    else match a
      case Confirm(selection) =>
        if g.current < |items| then
          var matches := items[g.current].matches;
          if selection.None? then Advance(items, g, None)
          else if selection.value < |matches| then Advance(items, g, Some(matches[selection.value].key))
          else g
        else g
      case Skip =>
        if g.current < |items| then Advance(items, g, None) else g
      case AutoAll =>
        Gui(g.current, AutoFrom(items, g.current, g.results), false)
      case Previous =>
        if g.current > 0 then g.(current := g.current - 1) else g
      case Cancel =>
        g.(open := false)
  }

  /** The window's invariant: the position stays within the items (and on an item
      while the window is open), every item before the current one has an answer,
      and the answers are sound. */
  predicate GuiInv(items: seq<Deferred>, g: Gui) {
    && g.current <= |items|
    && (g.open ==> g.current < |items|)
    && (forall i :: 0 <= i < g.current ==> i in g.results)
    && Sound(items, g.results)
  }

  lemma StartInv(items: seq<Deferred>)
    ensures GuiInv(items, Start(items))
  {
  }

  lemma OnActionInv(items: seq<Deferred>, g: Gui, a: Action)
    requires GuiInv(items, g)
    ensures GuiInv(items, OnAction(items, g, a))
    ensures !OnAction(items, g, a).open && g.open && a != Cancel ==>
      forall i :: 0 <= i < |items| ==> i in OnAction(items, g, a).results
  {
    var r := OnAction(items, g, a);
    if g.open {
      match a {
        case Confirm(selection) =>
          if selection.Some? && selection.value < |items[g.current].matches| {
            var k := items[g.current].matches[selection.value].key;
            assert IsCandidate(items[g.current], k);
          }
        case AutoAll =>
          forall i | i in r.results
            ensures i < |items| && (r.results[i].Some? ==> IsCandidate(items[i], r.results[i].value))
          {
          }
        case _ =>
      }
    }
  }

  /** The window's main loop over a sequence of user actions. */
  function Run(items: seq<Deferred>, g: Gui, script: seq<Action>): (r: Gui)
    requires GuiInv(items, g)
    ensures GuiInv(items, r)
    decreases |script|
  {
    if script == [] then g
    else
      OnActionInv(items, g, script[0]);
      Run(items, OnAction(items, g, script[0]), script[1..])
  }

  /** Pressing Return on every remaining item, each with its first row highlighted
      as the window shows it. */
  function AcceptDefaults(items: seq<Deferred>, from: nat): seq<Action>
    decreases |items| - from
  {
    if from >= |items| then [] else [Confirm(DefaultSelection(items[from]))] + AcceptDefaults(items, from + 1)
  }

  /** Accepting the highlighted row on every remaining item answers exactly as
      Auto-Confirm All does from the same item. */
  lemma {:induction false} AcceptDefaultsIsAutoAll(items: seq<Deferred>, g: Gui)
    requires GuiInv(items, g) && g.open
    ensures Run(items, g, AcceptDefaults(items, g.current)).results
         == OnAction(items, g, AutoAll).results
    decreases |items| - g.current
  {
    var script := AcceptDefaults(items, g.current);
    var next := OnAction(items, g, script[0]);
    OnActionInv(items, g, script[0]);
    assert script[1..] == AcceptDefaults(items, g.current + 1);
    if next.open {
      AcceptDefaultsIsAutoAll(items, next);
    } else {
      assert AcceptDefaults(items, g.current + 1) == [];
    }
  }

  /** `n` skips. */
  function Skips(n: nat): (r: seq<Action>)
    ensures |r| == n && forall i :: 0 <= i < n ==> r[i] == Skip
  {
    if n == 0 then [] else [Skip] + Skips(n - 1)
  }

  /** Skipping every remaining item answers "nothing" for each of them and keeps the
      earlier answers. */
  lemma {:induction false} SkipAll(items: seq<Deferred>, g: Gui)
    requires GuiInv(items, g) && g.open
    ensures var r := Run(items, g, Skips(|items| - g.current)).results;
      && (forall i :: g.current <= i < |items| ==> i in r && r[i] == None)
      && (forall i :: i in g.results && i < g.current ==> i in r && r[i] == g.results[i])
    decreases |items| - g.current
  {
    var script := Skips(|items| - g.current);
    var next := OnAction(items, g, Skip);
    OnActionInv(items, g, Skip);
    assert next.current == g.current + 1 && next.results == g.results[g.current := None];
    assert script[0] == Skip && script[1..] == Skips(|items| - next.current);
    var r := Run(items, next, script[1..]).results;
    assert Run(items, g, script).results == r;
    if next.open {
      SkipAll(items, next);
      assert g.current in next.results && g.current < next.current;
    } else {
      assert script[1..] == [];
    }
  }

  // ----- The console fallback -----

  /** What one typed line asks for, before it is matched against the item on screen. */
  datatype Command = SkipCmd | AutoCmd | Pick(n: nat) | Invalid

  /** Read one line: case and surrounding spaces are ignored; `s` skips, `a`
      auto-confirms the rest, a string of digits names a row; anything else is invalid. */
  function Parse(line: string): (r: Command)
    ensures r.Pick? <==> Lower(Strip(line)) != "s" && Lower(Strip(line)) != "a" && AllDigits(Lower(Strip(line)))
  {
    var choice := Lower(Strip(line));
    if choice == "s" then SkipCmd
    else if choice == "a" then AutoCmd
    else match Numeral(choice)
      case Some(n) => Pick(n)
      case None => Invalid
  }

  /** What one typed line means for the item on screen. */
  datatype Reply = Chose(answer: Option<SuffixedKey>) | AutoRest | Retry

  /** A command for the item on screen: a row number from 1 to the count of listed
      candidates (at most five) picks that candidate; other numbers and invalid
      lines ask again. */
  function Resolve(d: Deferred, c: Command): (r: Reply)
    ensures r.Chose? && r.answer.Some? ==> InTopFive(d, r.answer.value)
    ensures r == Retry <==> c.Invalid? || (c.Pick? && !(1 <= c.n <= 5 && c.n <= |d.matches|))
  {
    match c
    case SkipCmd => Chose(None)
    case AutoCmd => AutoRest
    case Pick(n) => if 1 <= n <= 5 && n <= |d.matches| then Chose(Some(d.matches[n - 1].key)) else Retry
    case Invalid => Retry
  }

  /** One typed line read for the item on screen. */
  function Interpret(d: Deferred, line: string): (r: Reply)
    ensures r.Chose? && r.answer.Some? ==> InTopFive(d, r.answer.value)
  {
    Resolve(d, Parse(line))
  }

  /** Typing `s`, in either case, skips the item. */
  lemma ParseSkip()
    ensures Parse("s") == SkipCmd && Parse("S") == SkipCmd
  {
    SkipChoice();
  }

  /** Typing `s`, in either case, skips the item. */
  lemma InterpretSkip(d: Deferred)
    ensures Interpret(d, "s") == Chose(None)
    ensures Interpret(d, "S") == Chose(None)
  {
    ParseSkip();
  }

  /** A line that reads as one digit (after stripping and lower-casing; `DigitChoice`
      shows the digit typed alone does) names that row. */
  lemma ParseDigit(line: string, c: char)
    requires IsAsciiDigit(c) && Lower(Strip(line)) == [c]
    ensures Parse(line) == Pick(c as int - '0' as int)
  {
    DigitNumeral(c);
    assert [c] != "s" && [c] != "a";
  }

  /** Typing `1` names the first row. */
  lemma ParseOne()
    ensures Parse("1") == Pick(1)
  {
    DigitChoice('1');
    ParseDigit("1", '1');
  }

  /** A line that reads as one digit picks that listed candidate exactly when it
      names one of the rows shown, 1 to 5 and no more than there are candidates;
      any other digit asks again. */
  lemma InterpretDigit(d: Deferred, line: string, c: char)
    requires IsAsciiDigit(c) && Lower(Strip(line)) == [c]
    ensures var n := c as int - '0' as int;
      1 <= n <= 5 && n <= |d.matches| ==> Interpret(d, line) == Chose(Some(d.matches[n - 1].key))
    ensures var n := c as int - '0' as int;
      !(1 <= n <= 5 && n <= |d.matches|) ==> Interpret(d, line) == Retry
  {
    ParseDigit(line, c);
  }

  /** Answers picked among the five listed candidates are candidates. */
  lemma TopFiveSound(items: seq<Deferred>, results: Answers)
    requires SoundTopFive(items, results)
    ensures Sound(items, results)
  {
    forall i | i in results && results[i].Some?
      ensures IsCandidate(items[i], results[i].value)
    {
      var j :| 0 <= j < |items[i].matches| && j < 5 && items[i].matches[j].key == results[i].value;
    }
  }

  /** Recording a console answer for item `i` keeps the answers sound, answers
      every item up to `i`, and keeps the earlier answers. */
  lemma Record(items: seq<Deferred>, i: nat, results: Answers, k: Option<SuffixedKey>, r: Answers)
    requires SoundTopFive(items, results) && i < |items|
    requires forall j :: 0 <= j < i ==> j in results
    requires k.Some? ==> InTopFive(items[i], k.value)
    requires r == results[i := k]
    ensures SoundTopFive(items, r)
    ensures forall j :: 0 <= j < i + 1 ==> j in r
    ensures forall j :: j in results && j < i ==> j in r && r[j] == results[j]
  {
  }

  /** The console loop from item `i` over the remaining commands. Running out of
      input raises out of the review functions: no answers. */
  function Session(items: seq<Deferred>, i: nat, cmds: seq<Command>, results: Answers): (r: Option<Answers>)
    requires SoundTopFive(items, results)
    requires forall j :: 0 <= j < i ==> j in results
    ensures r.Some? ==> SoundTopFive(items, r.value)
    ensures r.Some? ==> forall j :: 0 <= j < |items| ==> j in r.value
    ensures r.Some? ==> forall j :: j in results && j < i ==> j in r.value && r.value[j] == results[j]
    ensures i < |items| && cmds == [] ==> r == None
    decreases |cmds|
  {
    if i >= |items| then Some(results)
    else if cmds == [] then None
    else match Resolve(items[i], cmds[0])
      case Chose(k) =>
        Record(items, i, results, k, results[i := k]);
        Session(items, i + 1, cmds[1..], results[i := k])
      case AutoRest =>
        AutoFromSound(items, i, results);
        Some(AutoFrom(items, i, results))
      case Retry => Session(items, i, cmds[1..], results)
  }

  /** `f` applied to each element of `s`. */
  function Each<A, B>(f: A -> B, s: seq<A>): (r: seq<B>)
    ensures |r| == |s| && forall k :: 0 <= k < |s| ==> r[k] == f(s[k])
  {
    if s == [] then [] else [f(s[0])] + Each(f, s[1..])
  }

  /** The console loop from item `i` over the remaining input lines: each line is
      read on its own, so the session runs over the lines' commands. */
  function Console(items: seq<Deferred>, i: nat, lines: seq<string>, results: Answers): (r: Option<Answers>)
    requires SoundTopFive(items, results)
    requires forall j :: 0 <= j < i ==> j in results
    ensures r.Some? ==> SoundTopFive(items, r.value)
    ensures r.Some? ==> forall j :: 0 <= j < |items| ==> j in r.value
    ensures r.Some? ==> forall j :: j in results && j < i ==> j in r.value && r.value[j] == results[j]
    ensures i < |items| && lines == [] ==> r == None
  {
    Session(items, i, Each(Parse, lines), results)
  }

  /** The same value `n` times. */
  function Repeat<T>(x: T, n: nat): (r: seq<T>)
    ensures |r| == n && forall k :: 0 <= k < n ==> r[k] == x
  {
    if n == 0 then [] else [x] + Repeat(x, n - 1)
  }

  /** Mapping over `n` copies of `x` gives `n` copies of `f(x)`. */
  lemma EachRepeat<A, B>(f: A -> B, x: A, n: nat, rest: seq<A>)
    ensures Each(f, Repeat(x, n) + rest) == Repeat(f(x), n) + Each(f, rest)
  {
    var l, r := Each(f, Repeat(x, n) + rest), Repeat(f(x), n) + Each(f, rest);
    assert forall k :: 0 <= k < |l| ==> l[k] == r[k];
  }

  /** A finished console session that answered "nothing" for every item from `i`
      on and kept the answers before `i`. */
  predicate SkippedFrom(items: seq<Deferred>, i: nat, results: Answers, r: Option<Answers>) {
    && r.Some?
    && (forall j :: i <= j < |items| ==> j in r.value && r.value[j] == None)
    && (forall j :: j in results && j < i ==> j in r.value && r.value[j] == results[j])
  }

  /** With the same command at every remaining prompt, a command that answers the
      item on screen moves the session to the next item, one command shorter. */
  lemma SessionStep(items: seq<Deferred>, i: nat, c: Command, results: Answers, k: Option<SuffixedKey>,
                    next: Answers, rest: seq<Command>)
    requires SoundTopFive(items, results) && i < |items|
    requires forall j :: 0 <= j < i ==> j in results
    requires Resolve(items[i], c) == Chose(k)
    requires next == results[i := k]
    ensures SoundTopFive(items, next) && forall j :: 0 <= j < i + 1 ==> j in next
    ensures Session(items, i, Repeat(c, |items| - i) + rest, results)
         == Session(items, i + 1, Repeat(c, |items| - (i + 1)) + rest, next)
  {
    Record(items, i, results, k, next);
    var cmds := Repeat(c, |items| - i) + rest;
    assert cmds[0] == c && cmds[1..] == Repeat(c, |items| - (i + 1)) + rest;
  }

  /** `s` at every remaining prompt answers "nothing" for each remaining item and
      keeps the earlier answers; the commands after those are never read. */
  lemma {:induction false} SessionSkips(items: seq<Deferred>, i: nat, results: Answers, rest: seq<Command>)
    requires SoundTopFive(items, results) && i <= |items|
    requires forall j :: 0 <= j < i ==> j in results
    ensures SkippedFrom(items, i, results, Session(items, i, Repeat(SkipCmd, |items| - i) + rest, results))
    decreases |items| - i
  {
    if i < |items| {
      var next := results[i := None];
      SessionStep(items, i, SkipCmd, results, None, next, rest);
      SessionSkips(items, i + 1, next, rest);
    }
  }

  /** Typing `s` at every remaining prompt answers "nothing" for each remaining item
      and keeps the earlier answers. */
  lemma ConsoleSkipAll(items: seq<Deferred>, i: nat, results: Answers, rest: seq<string>)
    requires SoundTopFive(items, results) && i <= |items|
    requires forall j :: 0 <= j < i ==> j in results
    ensures SkippedFrom(items, i, results, Console(items, i, Repeat("s", |items| - i) + rest, results))
  {
    EachRepeat(Parse, "s", |items| - i, rest);
    ParseSkip();
    SessionSkips(items, i, results, Each(Parse, rest));
  }

  /** Row 1 at every remaining prompt, when every remaining item has a candidate,
      answers as Auto-Confirm All does from the same item. */
  lemma {:induction false} SessionFirsts(items: seq<Deferred>, i: nat, results: Answers, rest: seq<Command>)
    requires SoundTopFive(items, results) && i <= |items|
    requires forall j :: 0 <= j < i ==> j in results
    requires forall j :: i <= j < |items| ==> |items[j].matches| > 0
    ensures Session(items, i, Repeat(Pick(1), |items| - i) + rest, results) == Some(AutoFrom(items, i, results))
    decreases |items| - i
  {
    if i < |items| {
      var next := results[i := Top(items[i])];
      SessionStep(items, i, Pick(1), results, Top(items[i]), next, rest);
      SessionFirsts(items, i + 1, next, rest);
    }
  }

  /** Typing `1` at every remaining prompt, when every remaining item has a candidate,
      answers exactly as Auto-Confirm All does from the same item. */
  lemma ConsoleFirstAll(items: seq<Deferred>, i: nat, results: Answers, rest: seq<string>)
    requires SoundTopFive(items, results) && i <= |items|
    requires forall j :: 0 <= j < i ==> j in results
    requires forall j :: i <= j < |items| ==> |items[j].matches| > 0
    ensures Console(items, i, Repeat("1", |items| - i) + rest, results) == Some(AutoFrom(items, i, results))
  {
    ParseOne();
    EachRepeat(Parse, "1", |items| - i, rest);
    SessionFirsts(items, i, results, Each(Parse, rest));
  }

  /** Typing `a` at the first console prompt answers as the window's Auto-Confirm All
      button does on the first item. */
  lemma ConsoleAutoIsGuiAutoAll(items: seq<Deferred>, rest: seq<string>)
    requires |items| > 0
    ensures Console(items, 0, ["a"] + rest, map[]) == Some(OnAction(items, Start(items), AutoAll).results)
  {
    var lines := ["a"] + rest;
    assert Strip("a") == "a";
    assert Lower("a")[0] == 'a';
    assert Lower("a") == "a";
    assert Parse("a") == AutoCmd;
    assert lines[0] == "a";
    assert Each(Parse, lines)[0] == AutoCmd;
  }

  // ----- The batch entry point -----

  /** How the window fared: it could not be created, it failed while running (its
      answers are lost), or it ran through a sequence of user actions. */
  datatype GuiOutcome = Unavailable | Crashed | Ran(script: seq<Action>)

  /** `confirm_match_gui_batch`. No items: no answers. Otherwise the window's
      answers when it ran, and the console's when it did not. Every answer is about
      an existing item and names one of its candidates; the console answers every
      item. */
  function ConfirmBatch(items: seq<Deferred>, gui: GuiOutcome, lines: seq<string>): (r: Option<Answers>)
    ensures items == [] ==> r == Some(map[])
    ensures gui.Ran? ==> r.Some?
    ensures r.Some? ==> Sound(items, r.value)
    ensures items != [] && !gui.Ran? && r.Some? ==> forall j :: 0 <= j < |items| ==> j in r.value
    ensures items != [] && gui.Ran? ==> r == Some(Run(items, Start(items), gui.script).results)
    ensures items != [] && !gui.Ran? ==> r == Console(items, 0, lines, map[])
  {
    if items == [] then Some(map[])
    else match gui
      case Ran(script) =>
        StartInv(items);
        Some(Run(items, Start(items), script).results)
      case _ =>
        var r := Console(items, 0, lines, map[]);
        if r.Some? then TopFiveSound(items, r.value); r else r
  }
}

=== FILE: rows.dfy ===
/** One ManaBox row (`map_fields`): read the name, set and condition label, then
    take the token path or the standard path. */
module Rows {
  import opened Wrappers
  import opened Text
  import opened Cards
  import opened Normalize
  import opened Verifier
  import opened Entries
  import opened Outcome
  import opened Standard
  import opened Tokens

  /** The stripped Name column. */
  function CardName(row: SourceRow): string {
    Strip(Cell(row, "Name", ""))
  }

  /** The stripped Set name column. */
  function SetName(row: SourceRow): string {
    Strip(Cell(row, "Set name", ""))
  }

  /** How a token row ends: `process_token` on the row's derived names and number. */
  predicate TokenPath(o: Oracles, ctx: Context, row: SourceRow, s: Step) {
    var name := CardName(row);
    var number := Strip(Cell(row, "Collector number", ""));
    TokenRouted(o, ctx, row, MapCondition(row), name, TokenSetName(SetName(row)), TokenProductName(name), number,
                NormalizeKey(o, TokenProductName(name), TokenSetName(SetName(row)), MapCondition(row), number), s)
  }

  /** `map_fields` as written, over `process_standard` as written. Whatever path
      the row takes, it yields at most one result, the context stays valid, the
      reference data only grows, memoised matches stay as they were, and an emitted
      entry carries the row's condition label and quantity. A token row is routed by
      `process_token`, a standard row by `process_standard`. */
  method MapFieldsAsWritten(o: Oracles, a: Authority, ctx: Context, row: SourceRow) returns (s: Step)
    requires Valid(ctx)
    ensures Valid(s.ctx) && AtMostOne(ctx, s) && Grows(ctx, s.ctx)
    ensures CarriesRow(s, MapCondition(row), Quantity(o, row))
    ensures IsToken(CardName(row), SetName(row)) ==> TokenPath(o, ctx, row, s)
    ensures !IsToken(CardName(row), SetName(row)) ==>
      RoutedAsWritten(o, a, ctx, row, MapCondition(row), CardName(row), SetName(row),
                      StandardKey(o, row, MapCondition(row), CardName(row), SetName(row)), s)
  {
    var name := CardName(row);
    var setName := SetName(row);
    var condition := MapCondition(row);
    if IsToken(name, setName) {
      s := ProcessToken(o, ctx, row, condition, name, setName);
    } else {
      s := ProcessStandardAsWritten(o, a, ctx, row, condition, name, setName);
    }
  }

  /** `map_fields` with the memo hit of `process_standard` corrected. Beyond what
      the as-written converter keeps, a token row never touches the reference data,
      the memo or the Scryfall-only list, and a standard row never emits a
      Scryfall-verified entry. */
  method MapFields(o: Oracles, a: Authority, ctx: Context, row: SourceRow) returns (s: Step)
    requires Valid(ctx)
    ensures Valid(s.ctx) && AtMostOne(ctx, s) && Grows(ctx, s.ctx)
    ensures CarriesRow(s, MapCondition(row), Quantity(o, row))
    ensures IsToken(CardName(row), SetName(row)) ==>
      && TokenPath(o, ctx, row, s)
      && s.ctx.refData == ctx.refData && s.ctx.confirmed == ctx.confirmed && s.ctx.scryfallOnly == ctx.scryfallOnly
    ensures !IsToken(CardName(row), SetName(row)) ==>
      Routed(o, a, ctx, row, MapCondition(row), CardName(row), SetName(row),
             StandardKey(o, row, MapCondition(row), CardName(row), SetName(row)), s)
    ensures !IsToken(CardName(row), SetName(row)) && s.entry.Some? ==> s.entry.value.id != SCRYFALL_VERIFIED
  {
    var name := CardName(row);
    var setName := SetName(row);
    var condition := MapCondition(row);
    if IsToken(name, setName) {
      s := ProcessToken(o, ctx, row, condition, name, setName);
    } else {
      s := ProcessStandard(o, a, ctx, row, condition, name, setName);
    }
  }

  /** A row whose set is written `T<code>` takes the token path, and its tokens
      are searched under the lower-cased code. */
  lemma CodedTokenRow(row: SourceRow)
    requires IsTokenSetCode(SetName(row))
    ensures IsToken(CardName(row), SetName(row))
    ensures TokenSetBase(TokenSetName(SetName(row))) == Lower(SetName(row)[1..])
  {
    var s := SetName(row);
    LastNotBlank(Cell(row, "Set name", ""));
    TokenCodeRewrite(s);
  }
}

=== FILE: scorer.dfy ===
/** The candidate scorer (`find_best_match`): a pruning filter and additive score
    rules applied to every reference key, a restriction to exact collector-number
    matches when there are any, and a stable sort by descending score. */
module Scorer {
  import opened Wrappers
  import opened Text
  import opened Dicts
  import opened Cards

  /** Python truthiness of a normalised collector number: present and non-empty. */
  predicate Known(n: Option<string>) {
    n.Some? && n.value != []
  }

  predicate SharesWord(a: seq<string>, b: seq<string>) {
    exists w :: w in a && w in b
  }

  /** The cheap filter that skips a reference key before scoring: different first
      letters, two different one-word names, or two multi-word names with no word
      in common. */
  predicate Pruned(q: Key, r: Key) {
    || (q.name != [] && r.name != [] && q.name[0] != r.name[0])
    || (var qw := Words(q.name);
        var cw := Words(r.name);
        if |qw| == 1 && |cw| == 1 then qw[0] != cw[0]
        else if |qw| > 1 && |cw| > 1 then !SharesWord(qw, cw)
        else false)
  }

  /** Both collector numbers are known and equal. */
  predicate ExactNumber(q: Key, r: Key) {
    Known(q.number) && Known(r.number) && q.number == r.number
  }

  function NumberBonus(q: Key, r: Key): int {
    if !Known(q.number) || !Known(r.number) then 50
    else if q.number == r.number then 100
    else -15
  }

  /** The score as it stands right after the collector-number adjustment:
      similarity, +20 for a substring name, +50 for the same set, then the number bonus. */
  function PartialScore(o: Oracles, q: Key, r: Key): int {
    o.ratio(q.name, r.name)
    + (if Contains(r.name, q.name) || Contains(q.name, r.name) then 20 else 0)
    + (if q.setName == r.setName then 50 else 0)
    + NumberBonus(q, r)
  }

  /** `condition_rank`. */
  const CONDITION_RANK: map<string, int> := map[
    "near mint" := 0,
    "lightly played" := 1,
    "moderately played" := 2,
    "heavily played" := 3,
    "damaged" := 4]

  /** Compare conditions by rank once the finish word "foil" is removed; fall back
      to a -20 penalty for differing unranked conditions. */
  function ConditionBonus(qc: string, rc: string): int {
    var c1 := Strip(ReplaceAll(qc, "foil", ""));
    var c2 := Strip(ReplaceAll(rc, "foil", ""));
    if c1 in CONDITION_RANK && c2 in CONDITION_RANK then
      var d := CONDITION_RANK[c1] - CONDITION_RANK[c2];
      if d == 0 then 50 else if d == 1 || d == -1 then -10 else -30
    else if qc != rc then -20
    else 0
  }

  function TermPenalty(qc: string, rc: string, term: string, penalty: int): int {
    if Contains(qc, term) != Contains(rc, term) then penalty else 0
  }

  /** The special-print penalties: each term found in exactly one of the two
      condition strings costs its penalty. */
  function PrintPenalty(qc: string, rc: string): int {
    TermPenalty(qc, rc, "foil", 40)
    + TermPenalty(qc, rc, "showcase", 30)
    + TermPenalty(qc, rc, "etched", 30)
    + TermPenalty(qc, rc, "borderless", 30)
    + TermPenalty(qc, rc, "extended", 30)
    + TermPenalty(qc, rc, "gilded", 30)
  }

  /** The full score of a candidate that reaches the end of the loop body. */
  function FullScore(o: Oracles, q: Key, r: Key): int {
    PartialScore(o, q, r) + ConditionBonus(q.condition, r.condition) - PrintPenalty(q.condition, r.condition)
  }

  /** A reference row for a prerelease product. */
  predicate IsPrereleaseRow(row: RefRow) {
    Contains(Lower(row.productName), "prerelease") || Contains(Lower(row.setName), "prerelease cards")
  }

  /** Entry `e` of the catalog yields exact-number candidate `c`, recorded with its
      partial score. */
  predicate ExactFrom(o: Oracles, q: Key, e: (SuffixedKey, RefRow), c: Candidate) {
    ExactKey(q, e) && c == Candidate(e.0, PartialScore(o, q, e.0.key))
  }

  /** Catalog entry `e` survives pruning and matches the query's known number. */
  predicate ExactKey(q: Key, e: (SuffixedKey, RefRow)) {
    !Pruned(q, e.0.key) && ExactNumber(q, e.0.key)
  }

  /** Catalog entry `e` survives pruning and is not a prerelease product. */
  predicate Offered(q: Key, e: (SuffixedKey, RefRow)) {
    !Pruned(q, e.0.key) && !IsPrereleaseRow(e.1)
  }

  /** Entry `e` of the catalog yields ordinary candidate `c` with its full score. */
  predicate ScoredFrom(o: Oracles, q: Key, e: (SuffixedKey, RefRow), c: Candidate) {
    Offered(q, e) && c == Candidate(e.0, FullScore(o, q, e.0.key))
  }

  /** Some catalog key survives pruning and matches the query's known number. */
  predicate HasExact(q: Key, db: Catalog) {
    exists e :: e in db && ExactKey(q, e)
  }

  /** The candidates `(k, score(k))` for the catalog entries `keep` admits, in
      dictionary order: one pass of the scoring loop, seen through one of its lists. */
  function Collect(db: Catalog, keep: ((SuffixedKey, RefRow)) -> bool, score: SuffixedKey -> int)
    : (r: seq<Candidate>)
    ensures forall c :: c in r <==> exists e :: e in db && keep(e) && c == Candidate(e.0, score(e.0))
    ensures r == [] <==> forall e :: e in db ==> !keep(e)
    ensures forall c :: c in r ==> c.key in Keys(db)
    decreases |db|
  {
    if db == [] then []
    else
      var rest := Collect(db[1..], keep, score);
      assert forall e' :: e' in db <==> e' == db[0] || e' in db[1..];
      KeysTail(db);
      if keep(db[0]) then [Candidate(db[0].0, score(db[0].0))] + rest else rest
  }

  /** `exact_number_matches`, in dictionary order. */
  function ExactCandidates(o: Oracles, q: Key, db: Catalog): (r: seq<Candidate>)
    ensures forall c :: c in r <==> exists e :: e in db && ExactFrom(o, q, e, c)
    ensures r == [] <==> !HasExact(q, db)
    ensures forall c :: c in r ==> c.key in Keys(db)
  {
    Collect(db, (e: (SuffixedKey, RefRow)) => ExactKey(q, e), (k: SuffixedKey) => PartialScore(o, q, k.key))
  }

  /** `matches`, in dictionary order. */
  function ScoredCandidates(o: Oracles, q: Key, db: Catalog): (r: seq<Candidate>)
    ensures forall c :: c in r <==> exists e :: e in db && ScoredFrom(o, q, e, c)
    ensures forall c :: c in r ==> c.key in Keys(db)
  {
    Collect(db, (e: (SuffixedKey, RefRow)) => Offered(q, e), (k: SuffixedKey) => FullScore(o, q, k.key))
  }

  predicate SortedDesc(s: seq<Candidate>) {
    forall i, j :: 0 <= i < j < |s| ==> s[i].score >= s[j].score
  }

  /** The candidates of `s` with score `v`, in order. */
  function WithScore(s: seq<Candidate>, v: int): seq<Candidate> {
    if s == [] then [] else (if s[0].score == v then [s[0]] else []) + WithScore(s[1..], v)
  }

  lemma {:induction false} WithScoreCons(c: Candidate, s: seq<Candidate>, v: int)
    ensures WithScore([c] + s, v) == (if c.score == v then [c] else []) + WithScore(s, v)
  {
    assert ([c] + s)[1..] == s;
  }

  /** Insert `c` into a descending list before the first candidate it is not below. */
  function Insert(c: Candidate, s: seq<Candidate>): (r: seq<Candidate>)
    requires SortedDesc(s)
    ensures SortedDesc(r)
    ensures |r| == |s| + 1 && (r[0] == c || (s != [] && r[0] == s[0]))
    decreases |s|
  {
    if s == [] then [c]
    else if s[0].score > c.score then
      var rest := Insert(c, s[1..]);
      assert s == [s[0]] + s[1..];
      assert rest[0].score <= s[0].score;
      SortedCons(s[0], rest);
      [s[0]] + rest
    else [c] + s
  }

  /** A head no lower than the head of a descending list keeps it descending. */
  lemma SortedCons(x: Candidate, s: seq<Candidate>)
    requires SortedDesc(s) && (s == [] || s[0].score <= x.score)
    ensures SortedDesc([x] + s)
  {
    var r := [x] + s;
    forall i, j | 0 <= i < j < |r| ensures r[i].score >= r[j].score {
      if i == 0 && j > 1 {
        assert r[j] == s[j - 1] && s[0].score >= s[j - 1].score;
      }
    }
  }

  /** Inserting adds exactly `c`. */
  lemma {:induction false} InsertPerm(c: Candidate, s: seq<Candidate>)
    requires SortedDesc(s)
    ensures multiset(Insert(c, s)) == multiset(s) + multiset{c}
    decreases |s|
  {
    if s != [] && s[0].score > c.score {
      var rest := Insert(c, s[1..]);
      assert Insert(c, s) == [s[0]] + rest;
      InsertPerm(c, s[1..]);
      assert s == [s[0]] + s[1..];
    }
  }

  /** Inserting `c` puts it first among the candidates of its own score. */
  lemma {:induction false} InsertStable(c: Candidate, s: seq<Candidate>, v: int)
    requires SortedDesc(s)
    ensures WithScore(Insert(c, s), v) == (if c.score == v then [c] else []) + WithScore(s, v)
    decreases |s|
  {
    if s == [] {
      assert Insert(c, s) == [c] + [];
      WithScoreCons(c, [], v);
    } else if s[0].score > c.score {
      var rest := Insert(c, s[1..]);
      assert Insert(c, s) == [s[0]] + rest;
      InsertStable(c, s[1..], v);
      WithScoreCons(s[0], rest, v);
      assert s == [s[0]] + s[1..];
      WithScoreCons(s[0], s[1..], v);
    } else {
      assert Insert(c, s) == [c] + s;
      WithScoreCons(c, s, v);
    }
  }

  /** Python's `list.sort(key=score, reverse=True)`, as an insertion sort: the result
      is descending by score (`SortPerm` adds that it is a permutation of the input,
      `SortStable` that it is stable). */
  function SortByScore(s: seq<Candidate>): (r: seq<Candidate>)
    ensures SortedDesc(r)
    decreases |s|
  {
    if s == [] then [] else Insert(s[0], SortByScore(s[1..]))
  }

  /** The sort is a permutation of its input. */
  lemma {:induction false} SortPerm(s: seq<Candidate>)
    ensures multiset(SortByScore(s)) == multiset(s)
    decreases |s|
  {
    if s != [] {
      var rest := SortByScore(s[1..]);
      calc {
        multiset(SortByScore(s));
        multiset(Insert(s[0], rest));
        { InsertPerm(s[0], rest); }
        multiset(rest) + multiset{s[0]};
        { SortPerm(s[1..]); }
        multiset(s[1..]) + multiset{s[0]};
        { assert s == [s[0]] + s[1..]; }
        multiset(s);
      }
    }
  }

  /** The sort is stable: candidates of equal score keep their input order. */
  lemma {:induction false} SortStable(s: seq<Candidate>, v: int)
    ensures WithScore(SortByScore(s), v) == WithScore(s, v)
    decreases |s|
  {
    if s != [] {
      var rest := SortByScore(s[1..]);
      var head := if s[0].score == v then [s[0]] else [];
      calc {
        WithScore(SortByScore(s), v);
        WithScore(Insert(s[0], rest), v);
        { InsertStable(s[0], rest, v); }
        head + WithScore(rest, v);
        { SortStable(s[1..], v); }
        head + WithScore(s[1..], v);
        { WithScoreCons(s[0], s[1..], v); }
        WithScore([s[0]] + s[1..], v);
        { assert [s[0]] + s[1..] == s; }
        WithScore(s, v);
      }
    }
  }

  /** The list `find_best_match` sorts: the exact-number candidates when there
      are any, the ordinary ones otherwise. */
  function Chosen(o: Oracles, q: Key, db: Catalog): (r: seq<Candidate>)
    ensures HasExact(q, db) ==> forall c :: c in r <==> exists e :: e in db && ExactFrom(o, q, e, c)
    ensures !HasExact(q, db) ==> forall c :: c in r <==> exists e :: e in db && ScoredFrom(o, q, e, c)
    ensures forall c :: c in r ==> c.key in Keys(db)
  {
    var exact := ExactCandidates(o, q, db);
    if exact != [] then exact else ScoredCandidates(o, q, db)
  }

  /** `find_best_match`: the chosen candidates sorted by descending score, ties in
      dictionary order. */
  function FindBestMatch(o: Oracles, q: Key, db: Catalog): (r: seq<Candidate>)
    ensures SortedDesc(r)
    ensures forall c :: c in r <==> c in Chosen(o, q, db)
    ensures forall v :: WithScore(r, v) == WithScore(Chosen(o, q, db), v)
    ensures forall c :: c in r ==> c.key in Keys(db)
  {
    var chosen := Chosen(o, q, db);
    var r := SortByScore(chosen);
    forall v ensures WithScore(r, v) == WithScore(chosen, v) {
      SortStable(chosen, v);
    }
    SortPerm(chosen);
    assert forall c :: c in r <==> c in chosen by {
      forall c ensures c in r <==> c in chosen {
        assert c in r <==> c in multiset(r);
        assert c in chosen <==> c in multiset(chosen);
      }
    }
    r
  }

  /** When some unpruned key matches the query's known number, the result holds
      exactly those keys, each with its score as it stood right after the +100
      bonus; otherwise it holds every unpruned key whose row is not a prerelease
      product, with its full score. */
  lemma FindBestMatchMembers(o: Oracles, q: Key, db: Catalog)
    ensures HasExact(q, db) ==> forall c :: c in FindBestMatch(o, q, db) <==> exists e :: e in db && ExactFrom(o, q, e, c)
    ensures !HasExact(q, db) ==> forall c :: c in FindBestMatch(o, q, db) <==> exists e :: e in db && ScoredFrom(o, q, e, c)
  {
  }

  /** The restricted list can carry prerelease rows: an unpruned exact-number key
      is kept whatever its row says. */
  lemma ExactKeepsPrerelease(o: Oracles, q: Key, db: Catalog, e: (SuffixedKey, RefRow))
    requires e in db && !Pruned(q, e.0.key) && ExactNumber(q, e.0.key) && IsPrereleaseRow(e.1)
    ensures Candidate(e.0, PartialScore(o, q, e.0.key)) in FindBestMatch(o, q, db)
  {
    assert ExactFrom(o, q, e, Candidate(e.0, PartialScore(o, q, e.0.key)));
  }

  /** Without an exact-number candidate, no prerelease row is offered. */
  lemma NoPrereleaseWithoutExact(o: Oracles, q: Key, db: Catalog, c: Candidate)
    requires !HasExact(q, db) && c in FindBestMatch(o, q, db)
    ensures exists e :: e in db && e.0 == c.key && !IsPrereleaseRow(e.1)
  {
    var e :| e in db && ScoredFrom(o, q, e, c);
  }

  /** Two reference keys that differ only in a known collector number: the one
      equal to the query's number scores 115 more than the other. */
  lemma NumberMatchWorth115(o: Oracles, q: Key, r1: Key, r2: Key)
    requires r1.(number := r2.number) == r2
    requires Known(q.number) && Known(r2.number)
    requires r1.number == q.number && r2.number != q.number
    ensures FullScore(o, q, r1) == FullScore(o, q, r2) + 115
  {
  }

  /** Against a known query number, a matching key scores 50 more than the same key
      with its number unknown; an unknown query number scores every number alike. */
  lemma UnknownNumberWorth50(o: Oracles, q: Key, r1: Key, r2: Key)
    requires r1.(number := r2.number) == r2
    requires !Known(r2.number)
    ensures Known(q.number) && r1.number == q.number ==> FullScore(o, q, r1) == FullScore(o, q, r2) + 50
    ensures !Known(q.number) ==> FullScore(o, q, r1) == FullScore(o, q, r2)
  {
  }

  /** An exact-number candidate's score in the restricted list is its partial score,
      so the condition and special-print adjustments never apply to it. */
  lemma ExactScoreIsPartial(o: Oracles, q: Key, db: Catalog, c: Candidate)
    requires HasExact(q, db) && c in FindBestMatch(o, q, db)
    ensures exists e :: e in db && e.0 == c.key && ExactNumber(q, e.0.key) && c.score == PartialScore(o, q, e.0.key)
  {
    var e :| e in db && ExactFrom(o, q, e, c);
  }
}

=== FILE: standard.dfy ===
/** The standard-card path (`process_standard`): normalise, reuse a memoised match,
    or score the catalog, consult Scryfall when the match is weak, classify, and
    route the result to the main output, the Scryfall-only list, the pending queue
    or the given-up list. */
module Standard {
  import opened Wrappers
  import opened Text
  import opened Dicts
  import opened Cards
  import opened Normalize
  import opened Scorer
  import opened Verifier
  import opened Classifier
  import opened Entries
  import opened Outcome

  /** Below this top score the Scryfall step runs. */
  const ENHANCE_BELOW: int := 260

  predicate IsNumberPrefixChar(c: char) {
    IsAsciiLetter(c) || c == '-'
  }

  /** The collector number used for a standard card: the last dash-separated piece
      of the stripped column, with its leading letters and dashes removed. */
  function StandardNumber(row: SourceRow): (n: string)
    ensures var piece := LastPiece(Strip(Cell(row, "Collector number", "")));
      && |n| <= |piece| && n == piece[|piece| - |n|..]
      && (forall i :: 0 <= i < |piece| - |n| ==> IsNumberPrefixChar(piece[i]))
    ensures n == [] || !IsNumberPrefixChar(n[0])
  {
    DropWhile(LastPiece(Strip(Cell(row, "Collector number", ""))), IsNumberPrefixChar)
  }

  /** The candidates of a scored list all name catalog rows, and so do the
      Scryfall-enhanced ones in the enhanced catalog. */
  lemma EnhancedIn(o: Oracles, a: Authority, nk: SuffixedKey, found: seq<Candidate>, refData: Catalog, row: SourceRow)
    requires DistinctKeys(refData)
    requires forall c :: c in found ==> c.key in Keys(refData)
    ensures var en := EnhanceMatches(o, a, nk, found, refData, row);
      MatchesIn(en.matches, en.refData)
  {
    var en := EnhanceMatches(o, a, nk, found, refData, row);
    forall j | 0 <= j < |en.matches| ensures en.matches[j].key in Keys(en.refData) {
      if en.matches == [Candidate(nk, SYNTHETIC_SCORE)] + found {
        if j > 0 {
          assert en.matches[j] == found[j - 1];
        }
      } else {
        assert en.matches[j] in found;
      }
    }
  }

  /** The candidates for a query with no memoised match, and the reference data
      after the Scryfall step: the scored list, consulted with Scryfall exactly when
      it is empty or its top score is below 260. */
  function Candidates(o: Oracles, a: Authority, refData: Catalog, row: SourceRow, nk: SuffixedKey): (en: Enhanced)
    requires DistinctKeys(refData)
    ensures DistinctKeys(en.refData) && Keys(refData) <= Keys(en.refData)
    ensures MatchesIn(en.matches, en.refData)
    ensures var found := FindBestMatch(o, nk.key, refData);
      && (found == [] || found[0].score < ENHANCE_BELOW ==> en == EnhanceMatches(o, a, nk, found, refData, row))
      && (found != [] && found[0].score >= ENHANCE_BELOW ==> en == Enhanced(found, refData))
  {
    var found := FindBestMatch(o, nk.key, refData);
    if found == [] || found[0].score < ENHANCE_BELOW then
      EnhancedIn(o, a, nk, found, refData, row);
      EnhanceMatches(o, a, nk, found, refData, row)
    else
      assert MatchesIn(found, refData) by {
        forall j | 0 <= j < |found| ensures found[j].key in Keys(refData) {
          assert found[j] in found;
        }
      }
      Enhanced(found, refData)
  }

  /** The context with `best` memoised for the row's 4-tuple. */
  function Memoise(ctx: Context, nk: SuffixedKey, best: SuffixedKey): Context {
    ctx.(confirmed := ctx.confirmed[Short(nk.key) := best])
  }

  /** How a confirmed match ends (:888-898): the row named by `best` is built into
      an entry, which goes to the Scryfall-only list when the row is "Scryfall
      Verified" and is the step's entry otherwise; nothing else changes. */
  predicate Emits(o: Oracles, ctx: Context, best: SuffixedKey, nk: SuffixedKey, row: SourceRow, condition: string, s: Step)
    requires best in Keys(ctx.refData)
  {
    var ref := Get(ctx.refData, best).value;
    var e := BuildStandardEntry(o, ref, nk.suffix, row, condition);
    if ref.id == SCRYFALL_VERIFIED then s == Step(None, SetAside(ctx, e)) else s == Step(Some(e), ctx)
  }

  /** How a scored candidate list ends (:884-903): with no candidate the row is
      given up (unless its 4-tuple is queued); an auto-confirmed top candidate is
      memoised and emitted as above; any other list is queued under the 4-tuple,
      and being queued the row is not also given up. */
  predicate Settles(o: Oracles, ctx: Context, row: SourceRow, condition: string,
                    name: string, setName: string, nk: SuffixedKey, matches: seq<Candidate>, s: Step)
    requires MatchesIn(matches, ctx.refData)
  {
    if matches == [] then
      s == Step(None, GiveUp(ctx, Short(nk.key), BuildGivenUpEntry(o, row, condition, name, setName)))
    else if AutoConfirms(ctx.refData, matches) then
      Emits(o, Memoise(ctx, nk, matches[0].key), matches[0].key, nk, row, condition, s)
    else
      s == Step(None, Defer(ctx, Deferred(Short(nk.key), matches, ctx.refData)))
  }

  /** How a row with no memoised match ends: its candidates, after the Scryfall
      step, settled against the enhanced reference data. */
  predicate Resolves(o: Oracles, a: Authority, ctx: Context, row: SourceRow, condition: string,
                     name: string, setName: string, nk: SuffixedKey, s: Step)
    requires DistinctKeys(ctx.refData)
  {
    var en := Candidates(o, a, ctx.refData, row, nk);
    Settles(o, ctx.(refData := en.refData), row, condition, name, setName, nk, en.matches, s)
  }

  /** The reference data grows; memoised and queued items keep their catalogs. */
  lemma GrowKeepsValid(ctx: Context, refData: Catalog)
    requires Valid(ctx) && DistinctKeys(refData) && Keys(ctx.refData) <= Keys(refData)
    ensures Valid(ctx.(refData := refData)) && Grows(ctx, ctx.(refData := refData))
  {
  }

  /** Route a confirmed match: a Scryfall-verified row goes to the Scryfall-only list,
      any other row becomes the step's entry. */
  method Emit(o: Oracles, ctx: Context, best: SuffixedKey, nk: SuffixedKey, row: SourceRow, condition: string) returns (s: Step)
    requires best in Keys(ctx.refData)
    ensures s.entry.Some? <==> Get(ctx.refData, best).value.id != SCRYFALL_VERIFIED
    ensures s.entry.Some? ==> s.entry.value == BuildStandardEntry(o, Get(ctx.refData, best).value, nk.suffix, row, condition)
    ensures s.entry.Some? ==> s.entry.value.id != SCRYFALL_VERIFIED && s.ctx == ctx
    ensures Emits(o, ctx, best, nk, row, condition, s)
    ensures AtMostOne(ctx, s) && (Valid(ctx) ==> Valid(s.ctx))
    ensures s.ctx.(scryfallOnly := ctx.scryfallOnly) == ctx
  {
    var ref := Get(ctx.refData, best).value;
    var e := BuildStandardEntry(o, ref, nk.suffix, row, condition);
    if ref.id == SCRYFALL_VERIFIED {
      SetAsideStep(ctx, e);
      s := Step(None, SetAside(ctx, e));
    } else {
      QuietStep(ctx, Step(Some(e), ctx));
      s := Step(Some(e), ctx);
    }
  }

  /** An undecided row: its item is queued, and because it is now queued the
      give-up that follows leaves the context as it is. */
  method Park(o: Oracles, ctx: Context, row: SourceRow, condition: string,
              name: string, setName: string, nk: SuffixedKey, matches: seq<Candidate>, c: Classified) returns (s: Step)
    requires Valid(ctx) && |matches| > 0 && MatchesIn(matches, ctx.refData)
    requires c.choice.None? && c.ctx == Defer(ctx, Deferred(Short(nk.key), matches, ctx.refData))
    ensures s == Step(None, c.ctx)
    ensures Valid(s.ctx) && AtMostOne(ctx, s) && Grows(ctx, s.ctx)
  {
    var d := Deferred(Short(nk.key), matches, ctx.refData);
    assert DeferredIn(d, ctx.refData);
    DeferStep(ctx, d);
    var queued := c.ctx;
    assert Queued(queued, d.key) by {
      assert queued.pending[|ctx.pending|] == d;
      AnyKeyExists(queued.pending, d.key);
    }
    var after := GiveUp(queued, d.key, BuildGivenUpEntry(o, row, condition, name, setName));
    assert after == queued;
    s := Step(None, after);
  }

  /** An auto-confirmed row: the match is memoised, then emitted or set aside. */
  method Accept(o: Oracles, ctx: Context, row: SourceRow, condition: string,
                nk: SuffixedKey, best: SuffixedKey, c: Classified) returns (s: Step)
    requires Valid(ctx) && best in Keys(ctx.refData)
    requires c.ctx == ctx.(confirmed := ctx.confirmed[Short(nk.key) := best])
    requires Short(nk.key) !in ctx.confirmed
    ensures Valid(s.ctx) && AtMostOne(ctx, s) && Grows(ctx, s.ctx)
    ensures CarriesRow(s, condition, Quantity(o, row))
    ensures s.entry.Some? ==> s.entry.value.id != SCRYFALL_VERIFIED
    ensures s.ctx.refData == ctx.refData
    ensures s.ctx.confirmed == c.ctx.confirmed
    ensures s.ctx.pending == ctx.pending && s.ctx.givenUp == ctx.givenUp
    ensures Emits(o, c.ctx, best, nk, row, condition, s)
  {
    assert Valid(c.ctx);
    assert Grows(ctx, c.ctx);
    s := Emit(o, c.ctx, best, nk, row, condition);
    assert AtMostOne(ctx, s);
    assert Grows(c.ctx, s.ctx);
    GrowsTrans(ctx, c.ctx, s.ctx);
  }

  /** Classify a non-empty candidate list and route the outcome. An auto-confirmed
      match is memoised and emitted; otherwise the row is queued for review and,
      being queued, is not also given up. */
  method Decide(o: Oracles, ctx: Context, row: SourceRow, condition: string,
                name: string, setName: string, nk: SuffixedKey, matches: seq<Candidate>) returns (s: Step)
    requires Valid(ctx) && |matches| > 0 && MatchesIn(matches, ctx.refData)
    requires Short(nk.key) !in ctx.confirmed
    ensures Valid(s.ctx) && AtMostOne(ctx, s) && Grows(ctx, s.ctx)
    ensures CarriesRow(s, condition, Quantity(o, row))
    ensures s.entry.Some? ==> s.entry.value.id != SCRYFALL_VERIFIED
    ensures s.ctx.refData == ctx.refData
    ensures Settles(o, ctx, row, condition, name, setName, nk, matches, s)
  {
    var c := ConfirmAndIterate(ctx, nk.key, matches);
    if c.choice.None? {
      s := Park(o, ctx, row, condition, name, setName, nk, matches, c);
    } else {
      assert matches[0].key in Keys(ctx.refData);
      s := Accept(o, ctx, row, condition, nk, c.choice.value, c);
    }
  }

  /** A row with no candidate at all is given up unless its key is queued. */
  method Abandon(o: Oracles, ctx: Context, row: SourceRow, condition: string,
                 name: string, setName: string, nk: SuffixedKey) returns (s: Step)
    requires Valid(ctx)
    ensures s == Step(None, GiveUp(ctx, Short(nk.key), BuildGivenUpEntry(o, row, condition, name, setName)))
    ensures Valid(s.ctx) && AtMostOne(ctx, s) && Grows(ctx, s.ctx)
  {
    var g := BuildGivenUpEntry(o, row, condition, name, setName);
    GiveUpStep(ctx, Short(nk.key), g);
    s := Step(None, GiveUp(ctx, Short(nk.key), g));
  }

  /** A confirmed match yields at most one result, keeps the context valid, and
      never emits a Scryfall-verified entry. */
  lemma EmitsSound(o: Oracles, ctx: Context, best: SuffixedKey, nk: SuffixedKey, row: SourceRow, condition: string, s: Step)
    requires Valid(ctx) && best in Keys(ctx.refData)
    requires Emits(o, ctx, best, nk, row, condition, s)
    ensures Valid(s.ctx) && AtMostOne(ctx, s) && Grows(ctx, s.ctx)
    ensures CarriesRow(s, condition, Quantity(o, row))
    ensures s.entry.Some? ==> s.entry.value.id != SCRYFALL_VERIFIED
  {
    var ref := Get(ctx.refData, best).value;
    var e := BuildStandardEntry(o, ref, nk.suffix, row, condition);
    if ref.id == SCRYFALL_VERIFIED {
      SetAsideStep(ctx, e);
    } else {
      QuietStep(ctx, s);
    }
  }

  /** However a candidate list settles, the step yields at most one result, keeps
      the context valid and any memoised match, and never emits a Scryfall-verified
      entry. */
  lemma SettlesSound(o: Oracles, ctx: Context, row: SourceRow, condition: string,
                     name: string, setName: string, nk: SuffixedKey, matches: seq<Candidate>, s: Step)
    requires Valid(ctx) && MatchesIn(matches, ctx.refData)
    requires Short(nk.key) !in ctx.confirmed
    requires Settles(o, ctx, row, condition, name, setName, nk, matches, s)
    ensures Valid(s.ctx) && AtMostOne(ctx, s) && Grows(ctx, s.ctx)
    ensures CarriesRow(s, condition, Quantity(o, row))
    ensures s.entry.Some? ==> s.entry.value.id != SCRYFALL_VERIFIED
  {
    if matches == [] {
      GiveUpStep(ctx, Short(nk.key), BuildGivenUpEntry(o, row, condition, name, setName));
    } else if AutoConfirms(ctx.refData, matches) {
      var memo := Memoise(ctx, nk, matches[0].key);
      assert Valid(memo) && Grows(ctx, memo);
      EmitsSound(o, memo, matches[0].key, nk, row, condition, s);
      GrowsTrans(ctx, memo, s.ctx);
    } else {
      var d := Deferred(Short(nk.key), matches, ctx.refData);
      assert DeferredIn(d, ctx.refData);
      DeferStep(ctx, d);
    }
  }

  /** Route a scored candidate list: give up on an empty one, classify any other. */
  method Settle(o: Oracles, ctx: Context, row: SourceRow, condition: string,
                name: string, setName: string, nk: SuffixedKey, matches: seq<Candidate>) returns (s: Step)
    requires Valid(ctx) && MatchesIn(matches, ctx.refData)
    requires Short(nk.key) !in ctx.confirmed
    ensures Valid(s.ctx) && AtMostOne(ctx, s) && Grows(ctx, s.ctx)
    ensures CarriesRow(s, condition, Quantity(o, row))
    ensures s.entry.Some? ==> s.entry.value.id != SCRYFALL_VERIFIED
    ensures Settles(o, ctx, row, condition, name, setName, nk, matches, s)
  {
    if matches == [] {
      s := Abandon(o, ctx, row, condition, name, setName, nk);
    } else {
      s := Classify(o, ctx, row, condition, name, setName, nk, matches);
    }
    SettlesSound(o, ctx, row, condition, name, setName, nk, matches, s);
  }

  /** `Decide`, seen only through what every routed row satisfies. It models no code
      of its own: it keeps `Settle`'s proof from unfolding `Decide`'s contract, which
      is cheaper to verify. */
  method Classify(o: Oracles, ctx: Context, row: SourceRow, condition: string,
                  name: string, setName: string, nk: SuffixedKey, matches: seq<Candidate>) returns (s: Step)
    requires Valid(ctx) && |matches| > 0 && MatchesIn(matches, ctx.refData)
    requires Short(nk.key) !in ctx.confirmed
    ensures Valid(s.ctx) && AtMostOne(ctx, s) && Grows(ctx, s.ctx)
    ensures CarriesRow(s, condition, Quantity(o, row))
    ensures s.entry.Some? ==> s.entry.value.id != SCRYFALL_VERIFIED
    ensures Settles(o, ctx, row, condition, name, setName, nk, matches, s)
  {
    s := Decide(o, ctx, row, condition, name, setName, nk, matches);
  }

  /** A row with no memoised match: score, enhance, classify and route. A row with
      no candidate at all is given up unless its key is queued. */
  method Resolve(o: Oracles, a: Authority, ctx: Context, row: SourceRow, condition: string,
                 name: string, setName: string, nk: SuffixedKey) returns (s: Step)
    requires Valid(ctx) && Short(nk.key) !in ctx.confirmed
    ensures Valid(s.ctx) && AtMostOne(ctx, s) && Grows(ctx, s.ctx)
    ensures CarriesRow(s, condition, Quantity(o, row))
    ensures s.entry.Some? ==> s.entry.value.id != SCRYFALL_VERIFIED
    ensures Resolves(o, a, ctx, row, condition, name, setName, nk, s)
  {
    var en := Candidates(o, a, ctx.refData, row, nk);
    var ctx1 := ctx.(refData := en.refData);
    GrowKeepsValid(ctx, en.refData);
    s := Settle(o, ctx1, row, condition, name, setName, nk, en.matches);
    assert AtMostOne(ctx, s);
    GrowsTrans(ctx, ctx1, s.ctx);
  }

  /** The memo hit as the converter writes it: the memoised row always becomes the
      step's entry, even when it is a Scryfall-verified row. */
  function MemoHitAsWritten(o: Oracles, ctx: Context, row: SourceRow, condition: string, nk: SuffixedKey): (s: Step)
    requires Valid(ctx) && Short(nk.key) in ctx.confirmed
    ensures s.ctx == ctx && s.entry.Some?
    ensures s.entry.value.id == Get(ctx.refData, ctx.confirmed[Short(nk.key)]).value.id
  {
    var ref := Get(ctx.refData, ctx.confirmed[Short(nk.key)]).value;
    Step(Some(BuildStandardEntry(o, ref, nk.suffix, row, condition)), ctx)
  }

  /** The memo hit as intended: routed like a fresh confirmation, so a
      Scryfall-verified row goes to the Scryfall-only list. */
  method MemoHit(o: Oracles, ctx: Context, row: SourceRow, condition: string, nk: SuffixedKey) returns (s: Step)
    requires Valid(ctx) && Short(nk.key) in ctx.confirmed
    ensures s.entry.Some? ==> s.entry.value.id != SCRYFALL_VERIFIED
    ensures var w := MemoHitAsWritten(o, ctx, row, condition, nk);
      && (s.entry.Some? <==> w.entry.value.id != SCRYFALL_VERIFIED)
      && (s.entry.Some? ==> s == w)
    ensures s.ctx.(scryfallOnly := ctx.scryfallOnly) == ctx
    ensures Valid(s.ctx) && AtMostOne(ctx, s)
    ensures CarriesRow(s, condition, Quantity(o, row))
    ensures Emits(o, ctx, ctx.confirmed[Short(nk.key)], nk, row, condition, s)
  {
    s := Emit(o, ctx, ctx.confirmed[Short(nk.key)], nk, row, condition);
  }

  /** The normalised key of a standard row: none without a name and a set, or for a
      prerelease set. */
  function StandardKey(o: Oracles, row: SourceRow, condition: string, name: string, setName: string): (k: Option<SuffixedKey>)
    ensures name == [] || setName == [] ==> k.None?
  {
    if name == [] || setName == [] then None
    else NormalizeKey(o, name, setName, condition, StandardNumber(row))
  }

  /** How `process_standard` as written ends for a normalised key (:868-903): no
      key changes nothing, a memoised key yields the memoised row as the step's
      entry, and any other key is resolved. */
  predicate RoutedAsWritten(o: Oracles, a: Authority, ctx: Context, row: SourceRow, condition: string,
                            name: string, setName: string, k: Option<SuffixedKey>, s: Step)
    requires Valid(ctx)
  {
    match k
    case None => s == Step(None, ctx)
    case Some(nk) =>
      if Short(nk.key) in ctx.confirmed then s == MemoHitAsWritten(o, ctx, row, condition, nk)
      else Resolves(o, a, ctx, row, condition, name, setName, nk, s)
  }

  /** How `process_standard` ends for a normalised key with the memo hit routed as
      intended: a memoised key is emitted or set aside like a fresh confirmation. */
  predicate Routed(o: Oracles, a: Authority, ctx: Context, row: SourceRow, condition: string,
                   name: string, setName: string, k: Option<SuffixedKey>, s: Step)
    requires Valid(ctx)
  {
    match k
    case None => s == Step(None, ctx)
    case Some(nk) =>
      if Short(nk.key) in ctx.confirmed then Emits(o, ctx, ctx.confirmed[Short(nk.key)], nk, row, condition, s)
      else Resolves(o, a, ctx, row, condition, name, setName, nk, s)
  }

  /** What `process_standard` does with a normalised key, as written: no key changes
      nothing, a memoised key yields the memoised row as the step's entry, and any
      other key is resolved. */
  method RouteAsWritten(o: Oracles, a: Authority, ctx: Context, row: SourceRow, condition: string,
                        name: string, setName: string, k: Option<SuffixedKey>) returns (s: Step)
    requires Valid(ctx)
    ensures Valid(s.ctx) && AtMostOne(ctx, s) && Grows(ctx, s.ctx)
    ensures CarriesRow(s, condition, Quantity(o, row))
    ensures k.None? ==> s == Step(None, ctx)
    ensures RoutedAsWritten(o, a, ctx, row, condition, name, setName, k, s)
  {
    if k.None? {
      QuietStep(ctx, Step(None, ctx));
      s := Step(None, ctx);
    } else if Short(k.value.key) in ctx.confirmed {
      s := MemoHitAsWritten(o, ctx, row, condition, k.value);
      QuietStep(ctx, s);
    } else {
      s := Resolve(o, a, ctx, row, condition, name, setName, k.value);
    }
  }

  /** `process_standard` as written. */
  method ProcessStandardAsWritten(o: Oracles, a: Authority, ctx: Context, row: SourceRow, condition: string,
                                  name: string, setName: string) returns (s: Step)
    requires Valid(ctx)
    ensures Valid(s.ctx) && AtMostOne(ctx, s) && Grows(ctx, s.ctx)
    ensures CarriesRow(s, condition, Quantity(o, row))
    ensures StandardKey(o, row, condition, name, setName).None? ==> s == Step(None, ctx)
    ensures RoutedAsWritten(o, a, ctx, row, condition, name, setName, StandardKey(o, row, condition, name, setName), s)
  {
    s := RouteAsWritten(o, a, ctx, row, condition, name, setName, StandardKey(o, row, condition, name, setName));
  }

  /** What `process_standard` does with a normalised key, with the memo hit routed
      as intended: no key changes nothing, a memoised key changes nothing but the
      Scryfall-only list, and no main-output entry is a Scryfall-verified one. */
  method Route(o: Oracles, a: Authority, ctx: Context, row: SourceRow, condition: string,
               name: string, setName: string, k: Option<SuffixedKey>) returns (s: Step)
    requires Valid(ctx)
    ensures Valid(s.ctx) && AtMostOne(ctx, s) && Grows(ctx, s.ctx)
    ensures CarriesRow(s, condition, Quantity(o, row))
    ensures s.entry.Some? ==> s.entry.value.id != SCRYFALL_VERIFIED
    ensures k.None? ==> s == Step(None, ctx)
    ensures Routed(o, a, ctx, row, condition, name, setName, k, s)
  {
    if k.None? {
      QuietStep(ctx, Step(None, ctx));
      s := Step(None, ctx);
    } else if Short(k.value.key) in ctx.confirmed {
      s := MemoHit(o, ctx, row, condition, k.value);
    } else {
      s := Resolve(o, a, ctx, row, condition, name, setName, k.value);
    }
  }

  /** `process_standard`, with the memo hit routed as intended. A row with no name
      or set, or in a prerelease set, changes nothing; every other row yields at most
      one result, and no main-output entry is ever a Scryfall-verified one. */
  method ProcessStandard(o: Oracles, a: Authority, ctx: Context, row: SourceRow, condition: string,
                         name: string, setName: string) returns (s: Step)
    requires Valid(ctx)
    ensures Valid(s.ctx) && AtMostOne(ctx, s) && Grows(ctx, s.ctx)
    ensures CarriesRow(s, condition, Quantity(o, row))
    ensures s.entry.Some? ==> s.entry.value.id != SCRYFALL_VERIFIED
    ensures StandardKey(o, row, condition, name, setName).None? ==> s == Step(None, ctx)
    ensures Routed(o, a, ctx, row, condition, name, setName, StandardKey(o, row, condition, name, setName), s)
  {
    s := Route(o, a, ctx, row, condition, name, setName, StandardKey(o, row, condition, name, setName));
  }

  /** The leak the memo hit as written lets through: once a Scryfall-only candidate
      at 350 has been auto-confirmed for a key (which sends its first row to the
      Scryfall-only list), the next row with the same key is emitted to the main
      output under the "Scryfall Verified" id. */
  lemma MemoLeak(o: Oracles, ctx: Context, row: SourceRow, condition: string, nk: SuffixedKey, best: SuffixedKey)
    requires Valid(ctx) && best in Keys(ctx.refData)
    requires IsScryfallOnly(ctx.refData, best)
    ensures var c := ConfirmAndIterate(ctx, nk.key, [Candidate(best, SCRYFALL_SCORE)]);
      && c.choice == Some(best)
      && Valid(c.ctx) && Short(nk.key) in c.ctx.confirmed
      && MemoHitAsWritten(o, c.ctx, row, condition, nk).entry.value.id == SCRYFALL_VERIFIED
  {
    var m := [Candidate(best, SCRYFALL_SCORE)];
    assert MatchesIn(m, ctx.refData);
  }
}

=== FILE: text.dfy ===
/** The Python string operations the converter relies on, over `string`
    (a sequence of Unicode scalar values). Case mapping and digit tests cover
    ASCII only; blank tests cover every character Python's `str.isspace`
    accepts. */
module Text {
  import opened Wrappers

  /** Python's `str.isspace`: the characters `strip()` and `split()` treat as blank. */
  predicate IsSpace(c: char) {
    || c == ' '
    || '\t' <= c <= '\r'
    || '\U{1c}' <= c <= '\U{1f}'
    || c == '\U{85}' || c == '\U{a0}' || c == '\U{1680}'
    || '\U{2000}' <= c <= '\U{200a}'
    || c == '\U{2028}' || c == '\U{2029}' || c == '\U{202f}' || c == '\U{205f}' || c == '\U{3000}'
  }

  predicate IsAsciiUpper(c: char) { 'A' <= c <= 'Z' }
  predicate IsAsciiLower(c: char) { 'a' <= c <= 'z' }
  predicate IsAsciiLetter(c: char) { IsAsciiUpper(c) || IsAsciiLower(c) }
  /** The regular-expression class `\d`, restricted to ASCII. */
  predicate IsAsciiDigit(c: char) { '0' <= c <= '9' }

  function LowerChar(c: char): (r: char)
    ensures !IsAsciiUpper(r)
    ensures IsAsciiLetter(c) <==> IsAsciiLetter(r)
    ensures !IsAsciiLetter(c) ==> r == c
  {
    if IsAsciiUpper(c) then (c as int + 32) as char else c
  }

  function UpperChar(c: char): char {
    if IsAsciiLower(c) then (c as int - 32) as char else c
  }

  /** Python's `str.lower()` on ASCII letters; every other character is kept. */
  function Lower(s: string): (r: string)
    ensures |r| == |s|
    ensures forall i :: 0 <= i < |s| ==> r[i] == LowerChar(s[i])
  {
    seq(|s|, i requires 0 <= i < |s| => LowerChar(s[i]))
  }

  lemma LowerIdempotent(s: string)
    ensures Lower(Lower(s)) == Lower(s)
  {
  }

  /** `s` without its leading blanks (Python `lstrip()`). */
  function TrimLeft(s: string): (r: string)
    ensures |r| <= |s| && r == s[|s| - |r|..]
    ensures r == [] || !IsSpace(r[0])
    decreases |s|
  {
    if |s| > 0 && IsSpace(s[0]) then TrimLeft(s[1..]) else s
  }

  /** `s` without its trailing blanks (Python `rstrip()`). */
  function TrimRight(s: string): (r: string)
    ensures |r| <= |s| && r == s[..|r|]
    ensures r == [] || !IsSpace(r[|r| - 1])
    decreases |s|
  {
    if |s| > 0 && IsSpace(s[|s| - 1]) then TrimRight(s[..|s| - 1]) else s
  }

  /** Python's `str.strip()`: a contiguous piece of `s` with no blank at either end,
      and `s` itself when `s` already has none. */
  function Strip(s: string): (r: string)
    ensures forall c :: c in r ==> c in s
    ensures r == [] || (!IsSpace(r[0]) && !IsSpace(r[|r| - 1]))
    ensures (s == [] || (!IsSpace(s[0]) && !IsSpace(s[|s| - 1]))) ==> r == s
  {
    TrimRight(TrimLeft(s))
  }

  /** A non-empty stripped string ends in a non-blank. */
  lemma LastNotBlank(s: string)
    requires Strip(s) != []
    ensures !IsSpace(Strip(s)[|Strip(s)| - 1])
  {
  }

  predicate StartsWith(s: string, p: string) {
    |p| <= |s| && s[..|p|] == p
  }

  /** `t` occurs in `s` starting at position `k`. */
  predicate OccursAt(s: string, t: string, k: int) {
    0 <= k && k + |t| <= |s| && s[k..k + |t|] == t
  }

  /** Position of the first occurrence of `t` in `s` (Python `str.find`, with None for -1). */
  function IndexOf(s: string, t: string): (r: Option<nat>)
    ensures r.Some? ==> OccursAt(s, t, r.value)
    ensures r.Some? ==> forall k :: 0 <= k < r.value ==> !OccursAt(s, t, k)
    ensures r.None? ==> forall k :: !OccursAt(s, t, k)
    decreases |s|
  {
    if |s| < |t| then None
    else if s[..|t|] == t then Some(0)
    else
      var rest := IndexOf(s[1..], t);
      assert forall k :: 1 <= k ==> (OccursAt(s, t, k) <==> OccursAt(s[1..], t, k - 1)) by {
        forall k | 1 <= k
          ensures OccursAt(s, t, k) <==> OccursAt(s[1..], t, k - 1)
        {
          if k + |t| <= |s| {
            assert s[1..][k - 1..k - 1 + |t|] == s[k..k + |t|];
          }
        }
      }
      match rest
      case None => None
      case Some(j) => Some(j + 1)
  }

  /** Python's `t in s` for strings. */
  predicate Contains(s: string, t: string) {
    IndexOf(s, t).Some?
  }

  lemma ContainsWitness(s: string, t: string, k: int)
    requires OccursAt(s, t, k)
    ensures Contains(s, t)
  {
  }

  /** `b` occurs in `a + b + c`. */
  lemma ContainsInfix(a: string, b: string, c: string)
    ensures Contains(a + b + c, b)
  {
    var s := a + b + c;
    assert s[|a|..|a| + |b|] == b;
    ContainsWitness(s, b, |a|);
  }

  /** An occurrence in the tail of `s` is an occurrence in `s`. */
  lemma ContainsTail(s: string, t: string)
    requires |s| > 0
    ensures Contains(s[1..], t) ==> Contains(s, t)
  {
    if Contains(s[1..], t) {
      var k := IndexOf(s[1..], t).value;
      assert s[1..][k..k + |t|] == s[k + 1..k + 1 + |t|];
      ContainsWitness(s, t, k + 1);
    }
  }

  /** A string whose characters all fail `p` contains no string with a character meeting `p`. */
  lemma NotContainsByChar(s: string, t: string, p: char -> bool, i: nat)
    requires i < |t| && p(t[i])
    requires forall j :: 0 <= j < |s| ==> !p(s[j])
    ensures !Contains(s, t)
  {
  }

  /** Python's `s.replace(pat, rep)`: every leftmost non-overlapping occurrence replaced. */
  function ReplaceAll(s: string, pat: string, rep: string): (r: string)
    requires |pat| > 0
    ensures !Contains(s, pat) ==> r == s
    decreases |s|
  {
    if |s| < |pat| then s
    else if s[..|pat|] == pat then rep + ReplaceAll(s[|pat|..], pat, rep)
    else
      assert !Contains(s, pat) ==> !Contains(s[1..], pat) by {
        if Contains(s[1..], pat) {
          var k := IndexOf(s[1..], pat).value;
          assert s[1..][k..k + |pat|] == s[k + 1..k + 1 + |pat|];
          ContainsWitness(s, pat, k + 1);
        }
      }
      [s[0]] + ReplaceAll(s[1..], pat, rep)
  }

  /** Python's `s.split(sep)`: the pieces between leftmost non-overlapping occurrences of `sep`. */
  function SplitOn(s: string, sep: string): (parts: seq<string>)
    requires |sep| > 0
    ensures |parts| >= 1
    ensures Contains(s, sep) ==> |parts| >= 2
    decreases |s|
  {
    match IndexOf(s, sep)
    case None => [s]
    case Some(j) => [s[..j]] + SplitOn(s[j + |sep|..], sep)
  }

  /** Python's `sep.join(parts)`. */
  function JoinWith(parts: seq<string>, sep: string): string {
    if parts == [] then []
    else if |parts| == 1 then parts[0]
    else parts[0] + sep + JoinWith(parts[1..], sep)
  }

  /** Splitting and joining again with the same separator gives back the input. */
  lemma {:induction false} JoinSplit(s: string, sep: string)
    requires |sep| > 0
    ensures JoinWith(SplitOn(s, sep), sep) == s
    decreases |s|
  {
    match IndexOf(s, sep)
    case None =>
    case Some(j) =>
      var rest := SplitOn(s[j + |sep|..], sep);
      JoinSplit(s[j + |sep|..], sep);
      assert ([s[..j]] + rest)[1..] == rest;
      assert s[j..j + |sep|] == sep;
      assert s == s[..j] + sep + s[j + |sep|..];
  }

  /** The first piece of a split never contains the separator. */
  lemma {:induction false} FirstPieceAvoidsSep(s: string, sep: string)
    requires |sep| > 0
    ensures !Contains(SplitOn(s, sep)[0], sep)
  {
    match IndexOf(s, sep)
    case None =>
    case Some(j) =>
      var p := s[..j];
      if Contains(p, sep) {
        var k := IndexOf(p, sep).value;
        assert p[k..k + |sep|] == s[k..k + |sep|];
        assert OccursAt(s, sep, k);
      }
  }

  /** The characters of `s` that satisfy `p`, in order (a regular-expression
      substitution of a negated character class by the empty string). */
  function Keep(s: string, p: char -> bool): (r: string)
    ensures |r| <= |s|
    ensures forall i :: 0 <= i < |r| ==> p(r[i])
    ensures forall c :: c in r ==> c in s
    ensures (forall i :: 0 <= i < |s| ==> p(s[i])) ==> r == s
    decreases |s|
  {
    if s == [] then []
    else (if p(s[0]) then [s[0]] else []) + Keep(s[1..], p)
  }

  /** `s` without its longest prefix of characters satisfying `p` (a `^[...]*` substitution). */
  function DropWhile(s: string, p: char -> bool): (r: string)
    ensures |r| <= |s| && r == s[|s| - |r|..]
    ensures r == [] || !p(r[0])
    ensures forall i :: 0 <= i < |s| - |r| ==> p(s[i])
    decreases |s|
  {
    if |s| > 0 && p(s[0]) then DropWhile(s[1..], p) else s
  }

  /** The longest blank-free prefix of `s`. */
  function TakeWord(s: string): (w: string)
    ensures |w| <= |s| && w == s[..|w|]
    ensures |s| > 0 && !IsSpace(s[0]) ==> |w| > 0
    ensures forall i :: 0 <= i < |w| ==> !IsSpace(w[i])
    decreases |s|
  {
    if |s| == 0 || IsSpace(s[0]) then [] else [s[0]] + TakeWord(s[1..])
  }

  predicate IsWord(w: string) {
    |w| > 0 && forall i :: 0 <= i < |w| ==> !IsSpace(w[i])
  }

  /** Python's `str.split()` with no argument: the maximal runs of non-blank characters. */
  function Words(s: string): (ws: seq<string>)
    ensures forall i :: 0 <= i < |ws| ==> IsWord(ws[i])
    decreases |s|
  {
    var t := TrimLeft(s);
    if t == [] then []
    else
      var w := TakeWord(t);
      assert IsWord(w);
      var rest := Words(t[|w|..]);
      assert forall i :: 0 < i <= |rest| ==> ([w] + rest)[i] == rest[i - 1];
      [w] + rest
  }

  /** A word followed by nothing or by a blank is taken whole. */
  lemma {:induction false} TakeWordOf(w: string, rest: string)
    requires IsWord(w) && (rest == [] || IsSpace(rest[0]))
    ensures TakeWord(w + rest) == w
    decreases |w|
  {
    assert (w + rest)[1..] == w[1..] + rest;
    if |w| > 1 {
      TakeWordOf(w[1..], rest);
      assert w == [w[0]] + w[1..];
    } else {
      assert w[1..] + rest == rest;
    }
  }

  /** The words of a word followed by a blank-led (or empty) remainder. */
  lemma WordsCons(w: string, rest: string)
    requires IsWord(w) && (rest == [] || IsSpace(rest[0]))
    ensures Words(w + rest) == [w] + Words(rest)
  {
    assert TrimLeft(w + rest) == w + rest;
    TakeWordOf(w, rest);
    assert (w + rest)[|w|..] == rest;
  }

  /** Index of the first `)` at or after `i` with no newline before it: where the
      lazy `.*?\)` of a regular expression stops. */
  function CloseAt(s: string, i: nat): (r: Option<nat>)
    ensures r.Some? ==> i <= r.value < |s| && s[r.value] == ')'
    decreases |s| - i
  {
    if i >= |s| || s[i] == '\n' then None
    else if s[i] == ')' then Some(i)
    else CloseAt(s, i + 1)
  }

  /** The substitution `re.sub(r"\(.*?\)", "", s)`: each `(` that has a `)` later on
      its line is removed together with everything up to that first `)`. */
  function RemoveParens(s: string): (r: string)
    ensures |r| <= |s|
    ensures '(' !in s ==> r == s
    decreases |s|
  {
    if s == [] then []
    else if s[0] == '(' && CloseAt(s, 1).Some? then RemoveParens(s[CloseAt(s, 1).value + 1..])
    else [s[0]] + RemoveParens(s[1..])
  }

  function TitleFrom(s: string, afterLetter: bool): (r: string)
    ensures |r| == |s|
    decreases |s|
  {
    if s == [] then []
    else
      var c := s[0];
      var c' := if !IsAsciiLetter(c) then c else if afterLetter then LowerChar(c) else UpperChar(c);
      [c'] + TitleFrom(s[1..], IsAsciiLetter(c))
  }

  /** Python's `str.title()` on ASCII letters: a letter is upper-cased when it starts a
      run of letters and lower-cased otherwise. */
  function Title(s: string): (r: string)
    ensures |r| == |s|
  {
    TitleFrom(s, false)
  }

  predicate AllDigits(s: string) {
    |s| > 0 && forall i :: 0 <= i < |s| ==> IsAsciiDigit(s[i])
  }

  /** The value of a decimal numeral (Python `int()` on ASCII digits). */
  function ParseNat(s: string): nat
    requires forall i :: 0 <= i < |s| ==> IsAsciiDigit(s[i])
    decreases |s|
  {
    if s == [] then 0
    else
      assert IsAsciiDigit(s[|s| - 1]);
      ParseNat(s[..|s| - 1]) * 10 + (s[|s| - 1] as int - '0' as int)
  }

  /** `s.isdigit()` followed by `int(s)`, for ASCII digits: the value of a non-empty
      run of digits, and nothing for any other text. */
  function Numeral(s: string): (r: Option<nat>)
    ensures r.Some? <==> AllDigits(s)
  {
    if AllDigits(s) then Some(ParseNat(s)) else None
  }

  /** Stripping twice strips once. */
  lemma StripTwice(s: string)
    ensures Strip(Strip(s)) == Strip(s)
  {
  }

  /** Leading blanks of `x + y` come from `x`, unless `x` is all blanks. */
  lemma {:induction false} TrimLeftAppend(x: string, y: string)
    ensures TrimLeft(x) != [] ==> TrimLeft(x + y) == TrimLeft(x) + y
    ensures TrimLeft(x) == [] ==> TrimLeft(x + y) == TrimLeft(y)
    decreases |x|
  {
    if x == [] {
      assert x + y == y;
    } else if IsSpace(x[0]) {
      assert (x + y)[1..] == x[1..] + y;
      TrimLeftAppend(x[1..], y);
    }
  }

  /** Trailing blanks of `x + y` come from `y` when `x` ends in a non-blank. */
  lemma {:induction false} TrimRightAppend(x: string, y: string)
    requires x != [] && !IsSpace(x[|x| - 1])
    ensures TrimRight(x + y) == x + TrimRight(y)
    decreases |y|
  {
    if y == [] {
      assert x + y == x;
    } else if IsSpace(y[|y| - 1]) {
      assert (x + y)[..|x + y| - 1] == x + y[..|y| - 1];
      TrimRightAppend(x, y[..|y| - 1]);
    } else {
      assert (x + y)[|x + y| - 1] == y[|y| - 1];
    }
  }

  /** A trailing blank does not survive `strip()`. */
  lemma StripTrailingBlank(x: string)
    ensures Strip(x + " ") == Strip(x)
  {
    TrimLeftAppend(x, " ");
    if TrimLeft(x) != [] {
      assert (TrimLeft(x) + " ")[..|TrimLeft(x)|] == TrimLeft(x);
    }
  }

  /** Stripping `a + "//" + r`: the slashes stay, and the blanks go from the front
      of `a` and the end of `r`. */
  lemma StripAroundSlashes(a: string, r: string)
    ensures Strip(a + "//" + r) == TrimLeft(a) + "//" + TrimRight(r)
  {
    TrimLeftSlashes(a, r);
    var u := TrimLeft(a) + "//";
    assert u[|u| - 1] == '/';
    TrimRightAppend(u, r);
  }

  /** Leading blanks of `a + "//" + r` come from `a`. */
  lemma {:induction false} TrimLeftSlashes(a: string, r: string)
    ensures TrimLeft(a + "//" + r) == TrimLeft(a) + "//" + r
    decreases |a|
  {
    var s := a + "//" + r;
    if a == [] {
      assert s == "//" + r && s[0] == '/';
    } else if IsSpace(a[0]) {
      assert s[0] == a[0] && s[1..] == a[1..] + "//" + r;
      TrimLeftSlashes(a[1..], r);
    } else {
      assert s[0] == a[0];
    }
  }

  /** `(` only ever removes text from its own position on: a prefix without one is
      kept. */
  lemma {:induction false} RemoveParensPrefix(p: string, t: string)
    requires '(' !in p
    ensures RemoveParens(p + t) == p + RemoveParens(t)
    decreases |p|
  {
    if p == [] {
      assert p + t == t;
    } else {
      var s := p + t;
      assert s[0] == p[0] && p[0] != '(';
      assert s[1..] == p[1..] + t;
      KeptChar(s);
      RemoveParensPrefix(p[1..], t);
      HeadThenRest(p, RemoveParens(t));
    }
  }

  lemma HeadThenRest(x: string, y: string)
    requires x != []
    ensures [x[0]] + (x[1..] + y) == x + y
  {
    assert x == [x[0]] + x[1..];
  }

  /** A first character other than `(` is kept. */
  lemma KeptChar(s: string)
    requires s != [] && s[0] != '('
    ensures RemoveParens(s) == [s[0]] + RemoveParens(s[1..])
  {
  }

  /** A parenthetical with no `)` or line break inside is removed whole. */
  lemma RemoveParensGroup(p: string)
    requires ')' !in p && '\n' !in p
    ensures RemoveParens("(" + p + ")") == []
  {
    var s := "(" + p + ")";
    CloseAtGroup(s, 1);
    assert s[|s| - 1 + 1..] == [];
  }

  lemma {:induction false} CloseAtGroup(s: string, i: nat)
    requires 1 <= i <= |s| - 1 && s[|s| - 1] == ')'
    requires forall j :: i <= j < |s| - 1 ==> s[j] != ')' && s[j] != '\n'
    ensures CloseAt(s, i) == Some(|s| - 1)
    decreases |s| - i
  {
    if i < |s| - 1 {
      CloseAtGroup(s, i + 1);
    }
  }

  /** A text with no slash before its first `//` splits there first. */
  lemma FirstPiece(u: string, w: string)
    requires '/' !in u
    ensures SplitOn(u + "//" + w, "//") == [u] + SplitOn(w, "//")
  {
    var s := u + "//" + w;
    assert OccursAt(s, "//", |u|) by {
      assert s[|u|..|u| + 2] == "//";
    }
    forall k | 0 <= k < |u| ensures !OccursAt(s, "//", k) {
      assert s[k] == u[k] != '/';
      assert k + 2 <= |s| ==> s[k..k + 2][0] == s[k];
    }
    assert IndexOf(s, "//") == Some(|u|);
    assert s[..|u|] == u && s[|u| + 2..] == w;
  }

  /** A text with no slash is its own only `//`-separated piece. */
  lemma NoSlashPiece(a: string)
    requires '/' !in a
    ensures SplitOn(a, "//") == [a]
  {
    forall k | 0 <= k < |a| ensures !OccursAt(a, "//", k) {
      assert a[k] != '/';
      assert k + 2 <= |a| ==> a[k..k + 2][0] == a[k];
    }
    assert IndexOf(a, "//") == None;
  }

  /** A single digit is its own stripped form. */
  lemma DigitStrips(c: char)
    requires IsAsciiDigit(c)
    ensures Strip([c]) == [c]
  {
  }

  /** Lower-casing leaves a digit alone. */
  lemma DigitLowers(c: char)
    requires IsAsciiDigit(c)
    ensures Lower([c]) == [c]
  {
  }

  /** A single digit is a numeral with the digit's value. */
  lemma DigitNumeral(c: char)
    requires IsAsciiDigit(c)
    ensures Numeral([c]) == Some(c as int - '0' as int)
  {
    assert AllDigits([c]);
    assert [c][..0] == [];
    assert ParseNat([c]) == c as int - '0' as int;
  }

  /** A digit typed alone reads as itself once stripped and lower-cased. */
  lemma DigitChoice(c: char)
    requires IsAsciiDigit(c)
    ensures Lower(Strip([c])) == [c]
  {
    DigitStrips(c);
    DigitLowers(c);
  }

  /** `s` and `S` both read as `s` once stripped and lower-cased. */
  lemma SkipChoice()
    ensures Lower(Strip("s")) == "s" && Lower(Strip("S")) == "s"
  {
    assert Strip("s") == "s" && Strip("S") == "S";
    assert Lower("s")[0] == 's' && Lower("S")[0] == 's';
  }
}

=== FILE: tokens.dfy ===
/** The token path (`process_token`): rewrite the set and product names, score the
    token rows of the catalog, confirm from 250, defer weaker matches and
    two-faced tokens whose best two-faced candidate is not the top one, and give
    up on tokens with no candidate. Tokens are never memoised. */
module Tokens {
  import opened Wrappers
  import opened Text
  import opened Dicts
  import opened Cards
  import opened Normalize
  import opened Scorer
  import opened Entries
  import opened Outcome

  /** From this score the top token candidate is taken without review. */
  const TOKEN_CONFIRM: int := 250

  const FACES: string := "//"
  const DOUBLE: string := "double"
  const SIDED_TOKEN: string := "sided token"

  /** The optional separator of `double[-\s]?sided`. */
  predicate IsSeparator(c: char) {
    c == '-' || IsSpace(c)
  }

  /** The length of a match of `double[-\s]?sided token` at the start of the
      lower-cased text `t`, or 0 when there is none. */
  function MatchLength(t: string): (n: nat)
    ensures n == 0 || n == 17 || n == 18
    ensures n > 0 ==> n <= |t| && t[..6] == DOUBLE
  {
    if |t| >= 18 && t[..6] == DOUBLE && IsSeparator(t[6]) && t[7..18] == SIDED_TOKEN then 18
    else if |t| >= 17 && t[..6] == DOUBLE && t[6..17] == SIDED_TOKEN then 17
    else 0
  }

  /** `re.sub(r"double[-\s]?sided token", "", s, flags=re.IGNORECASE)`: every
      leftmost match removed. Text that never spells "double" is kept. */
  function RemoveDoubleSided(s: string): (r: string)
    ensures |r| <= |s|
    ensures !Contains(Lower(s), DOUBLE) ==> r == s
    decreases |s|
  {
    if s == [] then []
    else
      var n := MatchLength(Lower(s));
      if n > 0 then
        assert OccursAt(Lower(s), DOUBLE, 0);
        RemoveDoubleSided(s[n..])
      else
        assert Lower(s[1..]) == Lower(s)[1..];
        ContainsTail(Lower(s), DOUBLE);
        [s[0]] + RemoveDoubleSided(s[1..])
  }

  /** The three spellings the pattern accepts are removed whole, in any case: `w`
      is any text that lower-cases to "double", the separator, and "sided token". */
  lemma RemovesEachSpelling(w: string, sep: string, rest: string)
    requires sep == "-" || sep == " " || sep == ""
    requires Lower(w) == DOUBLE + sep + SIDED_TOKEN
    ensures RemoveDoubleSided(w + rest) == RemoveDoubleSided(rest)
  {
    var s := w + rest;
    SpellingMatches(w, sep, rest);
    assert s[|w|..] == rest;
    RemoveAtMatch(s);
  }

  /** A match at the front is dropped and removal carries on after it. */
  lemma RemoveAtMatch(s: string)
    requires s != [] && MatchLength(Lower(s)) > 0
    ensures RemoveDoubleSided(s) == RemoveDoubleSided(s[MatchLength(Lower(s))..])
  {
  }

  /** Each accepted spelling, in any case, is a match of its own length. */
  lemma SpellingMatches(w: string, sep: string, rest: string)
    requires sep == "-" || sep == " " || sep == ""
    requires Lower(w) == DOUBLE + sep + SIDED_TOKEN
    ensures MatchLength(Lower(w + rest)) == |w| == 17 + |sep|
  {
    var t := Lower(w + rest);
    var u := Lower(w);
    assert |u| == |w| == 17 + |sep|;
    assert t[..|w|] == u by {
      assert forall i :: 0 <= i < |w| ==> t[i] == LowerChar(w[i]) == u[i];
    }
    assert t[..6] == u[..6] == DOUBLE;
    assert t[6 + |sep|..17 + |sep|] == u[6 + |sep|..17 + |sep|] == SIDED_TOKEN;
    if sep != "" {
      assert t[6] == u[6] == sep[0];
      assert IsSeparator(t[6]);
    } else {
      assert t[6] == 's';
    }
  }

  /** The product name searched for a token: a two-faced name becomes
      "front // back" with both faces stripped and "double-sided token" removed
      from the back; any other name is kept. */
  function TokenProductName(name: string): (r: string)
    ensures !Contains(name, FACES) ==> r == name
    ensures Contains(name, FACES) ==> Contains(r, " " + FACES + " ")
  {
    if Contains(name, FACES) then
      var parts := SplitOn(name, FACES);
      var front := Strip(parts[0]);
      var back := Strip(RemoveDoubleSided(parts[1]));
      SpacedJoin(front, back);
      front + " " + FACES + " " + back
    else name
  }

  /** A two-faced token name `a // b` becomes its stripped front face, " // ", and its
      stripped second face with "double-sided token" removed; any further face is
      dropped. */
  lemma TwoFacedProductName(a: string, b: string)
    requires '/' !in a
    ensures TokenProductName(a + FACES + b) == Strip(a) + " " + FACES + " " + Strip(RemoveDoubleSided(SplitOn(b, FACES)[0]))
  {
    FirstPiece(a, b);
    ContainsInfix(a, FACES, b);
  }

  /** Faces joined with " // " contain the spaced separator. */
  lemma SpacedJoin(front: string, back: string)
    ensures Contains(front + " " + FACES + " " + back, " " + FACES + " ")
  {
    ContainsInfix(front, " " + FACES + " ", back);
    assert front + " " + FACES + " " + back == front + (" " + FACES + " ") + back;
  }

  /** The product name of a two-faced token reads as two-faced itself. */
  lemma TwoFacedTokenName(name: string)
    requires Contains(name, FACES)
    ensures IsDoubleSided(TokenProductName(name))
  {
    SpacedFacesStay(TokenProductName(name));
  }

  /** Lower-casing keeps a " // " face separator. */
  lemma SpacedFacesStay(r: string)
    requires Contains(r, " " + FACES + " ")
    ensures Contains(Lower(r), FACES)
  {
    var k := IndexOf(r, " " + FACES + " ").value;
    assert r[k + 1] == '/' && r[k + 2] == '/';
    assert Lower(r)[k + 1..k + 3] == FACES;
    ContainsWitness(Lower(r), FACES, k + 1);
  }

  /** A token row for the query's set: "token" in its set or product name, and
      the token set name or its base in its set name (all lower-cased). */
  predicate TokenRow(v: RefRow, tokenSetName: string) {
    var sn := Lower(v.setName);
    && (Contains(sn, "token") || Contains(Lower(v.productName), "token"))
    && (Contains(sn, Lower(tokenSetName)) || Contains(sn, TokenSetBase(tokenSetName)))
  }

  /** `token_ref_data`: exactly the token rows of the reference data, in order. */
  function TokenCatalog(refData: Catalog, tokenSetName: string): (r: Catalog)
    ensures Keys(r) <= Keys(refData)
    ensures DistinctKeys(refData) ==> DistinctKeys(r)
    ensures forall i :: 0 <= i < |r| ==> r[i] in refData && TokenRow(r[i].1, tokenSetName)
    ensures forall i :: 0 <= i < |refData| && TokenRow(refData[i].1, tokenSetName) ==> refData[i] in r
  {
    FilterValues(refData, (v: RefRow) => TokenRow(v, tokenSetName))
  }

  /** The token catalog keeps the reference data's order: a row appended to the
      reference data is appended to the token catalog exactly when it is a token row
      of the set, so ties between token candidates fall in reference-data order. */
  lemma TokenCatalogAppend(refData: Catalog, x: (SuffixedKey, RefRow), tokenSetName: string)
    ensures TokenCatalog(refData + [x], tokenSetName)
         == TokenCatalog(refData, tokenSetName) + (if TokenRow(x.1, tokenSetName) then [x] else [])
  {
    var p := (v: RefRow) => TokenRow(v, tokenSetName);
    FilterValuesConcat(refData, [x], p);
    assert [x][1..] == [];
  }

  /** The candidate's row in the token catalog has a two-faced product name. */
  predicate DoubleSidedIn(tdb: Catalog, c: Candidate) {
    var v := Get(tdb, c.key);
    v.Some? && IsDoubleSided(v.value.productName)
  }

  /** The two-faced candidates of a ranked list, in their ranked order. */
  function DoubleSidedMatches(m: seq<Candidate>, tdb: Catalog): (r: seq<Candidate>)
    ensures |r| <= |m|
    ensures forall c :: c in r <==> c in m && DoubleSidedIn(tdb, c)
    decreases |m|
  {
    if m == [] then []
    else
      var rest := DoubleSidedMatches(m[1..], tdb);
      assert m == [m[0]] + m[1..];
      if DoubleSidedIn(tdb, m[0]) then [m[0]] + rest else rest
  }

  /** Filtering a descending list keeps it descending. */
  lemma {:induction false} DoubleSidedSorted(m: seq<Candidate>, tdb: Catalog)
    requires SortedDesc(m)
    ensures SortedDesc(DoubleSidedMatches(m, tdb))
    decreases |m|
  {
    if m != [] {
      var rest := DoubleSidedMatches(m[1..], tdb);
      assert SortedDesc(m[1..]) by {
        forall i, j | 0 <= i < j < |m[1..]| ensures m[1..][i].score >= m[1..][j].score {
          assert m[1..][i] == m[i + 1] && m[1..][j] == m[j + 1];
        }
      }
      DoubleSidedSorted(m[1..], tdb);
      if DoubleSidedIn(tdb, m[0]) {
        if rest != [] {
          assert rest[0] in m[1..];
          var k :| 0 <= k < |m[1..]| && m[1..][k] == rest[0];
          assert m[k + 1] == rest[0];
        }
        SortedCons(m[0], rest);
      }
    }
  }

  /** The ranked token candidates of a query key. */
  function TokenMatches(o: Oracles, refData: Catalog, tokenSetName: string, nk: SuffixedKey): (m: seq<Candidate>)
    ensures SortedDesc(m)
    ensures MatchesIn(m, TokenCatalog(refData, tokenSetName))
  {
    var m := FindBestMatch(o, nk.key, TokenCatalog(refData, tokenSetName));
    assert forall j :: 0 <= j < |m| ==> m[j] in m;
    m
  }

  /** The two-faced test that sends a confirmed token back for review. */
  predicate FaceConflict(name: string, m: seq<Candidate>, tdb: Catalog)
    requires |m| > 0
  {
    var ds := DoubleSidedMatches(m, tdb);
    Contains(name, FACES) && ds != [] && ds[0].key != m[0].key
  }

  /** A ranked list of token candidates, with the catalog they were scored
      against: the token rows of the reference data. */
  predicate Ranked(refData: Catalog, tdb: Catalog, tokenSetName: string, m: seq<Candidate>) {
    && SortedDesc(m) && MatchesIn(m, tdb) && Keys(tdb) <= Keys(refData)
    && forall i :: 0 <= i < |tdb| ==> tdb[i] in refData && TokenRow(tdb[i].1, tokenSetName)
  }

  /** How `process_token` ends for the ranked candidates `m` of a key, scored
      against the token catalog `tdb` (:938-973): with no candidate the token is
      given up (unless an item with its 4-tuple is queued); below 250 it is queued
      under its 5-tuple; a two-faced card whose best two-faced candidate is not the
      top one is queued under its 4-tuple with just the two-faced candidates;
      otherwise the top candidate's row is the step's entry. */
  predicate TokenSettles(o: Oracles, ctx: Context, row: SourceRow, condition: string, name: string,
                         tokenSetName: string, productName: string, number: string, nk: SuffixedKey,
                         tdb: Catalog, m: seq<Candidate>, s: Step)
    requires MatchesIn(m, tdb)
  {
    if m == [] then
      s == Step(None, GiveUp(ctx, Short(nk.key), BuildTokenFallback(o, tokenSetName, productName, number, row, condition)))
    else if m[0].score < TOKEN_CONFIRM then
      s == Step(None, Defer(ctx, Deferred(Long(nk), m, tdb)))
    else if FaceConflict(name, m, tdb) then
      s == Step(None, Defer(ctx, Deferred(Short(nk.key), DoubleSidedMatches(m, tdb), tdb)))
    else
      s == Step(Some(BuildTokenEntry(o, Get(tdb, m[0].key).value, row, condition)), ctx)
  }

  /** How `process_token` ends for a normalised key: no key changes nothing; any
      other key is scored against the token rows of the reference data and settled
      as above. */
  predicate TokenRouted(o: Oracles, ctx: Context, row: SourceRow, condition: string, name: string,
                        tokenSetName: string, productName: string, number: string, k: Option<SuffixedKey>, s: Step)
  {
    match k
    case None => s == Step(None, ctx)
    case Some(nk) =>
      TokenSettles(o, ctx, row, condition, name, tokenSetName, productName, number, nk,
                   TokenCatalog(ctx.refData, tokenSetName), TokenMatches(o, ctx.refData, tokenSetName, nk), s)
  }

  /** What `process_token` does with the ranked candidates of a key. With no
      candidate the token is given up (unless an item with its 4-tuple is queued);
      below 250 it is queued under its 5-tuple; a two-faced card whose best
      two-faced candidate is not the top one is queued under its 4-tuple with just
      the two-faced candidates; otherwise the top candidate's row is emitted. The
      reference data, the memo and the Scryfall-only list never change. */
  method Settle(o: Oracles, ctx: Context, row: SourceRow, condition: string, name: string,
                tokenSetName: string, productName: string, number: string, nk: SuffixedKey,
                tdb: Catalog, m: seq<Candidate>)
    returns (s: Step)
    requires Valid(ctx) && Ranked(ctx.refData, tdb, tokenSetName, m)
    ensures Valid(s.ctx) && AtMostOne(ctx, s) && Grows(ctx, s.ctx)
    ensures CarriesRow(s, condition, Quantity(o, row))
    ensures s.ctx.refData == ctx.refData && s.ctx.confirmed == ctx.confirmed
    ensures s.ctx.scryfallOnly == ctx.scryfallOnly
    ensures TokenSettles(o, ctx, row, condition, name, tokenSetName, productName, number, nk, tdb, m, s)
    ensures s.entry.Some? ==> exists i :: 0 <= i < |ctx.refData| && TokenRow(ctx.refData[i].1, tokenSetName)
                                         && s.entry.value.id == ctx.refData[i].1.id
  {
    if m == [] {
      var g := BuildTokenFallback(o, tokenSetName, productName, number, row, condition);
      GiveUpStep(ctx, Short(nk.key), g);
      s := Step(None, GiveUp(ctx, Short(nk.key), g));
    } else if m[0].score < TOKEN_CONFIRM {
      var d := Deferred(Long(nk), m, tdb);
      DeferStep(ctx, d);
      s := Step(None, Defer(ctx, d));
    } else if FaceConflict(name, m, tdb) {
      var ds := DoubleSidedMatches(m, tdb);
      assert MatchesIn(ds, tdb) by {
        forall j | 0 <= j < |ds| ensures ds[j].key in Keys(tdb) {
          assert ds[j] in m;
          var i :| 0 <= i < |m| && m[i] == ds[j];
        }
      }
      var d := Deferred(Short(nk.key), ds, tdb);
      DeferStep(ctx, d);
      s := Step(None, Defer(ctx, d));
    } else {
      var ref := Get(tdb, m[0].key).value;
      var i :| 0 <= i < |tdb| && tdb[i] == (m[0].key, ref);
      var e := BuildTokenEntry(o, ref, row, condition);
      QuietStep(ctx, Step(Some(e), ctx));
      s := Step(Some(e), ctx);
      assert tdb[i] in ctx.refData;
    }
  }

  /** What `process_token` does with a normalised key: no key changes nothing;
      otherwise the key is scored against the token rows and settled as above. */
  method RouteToken(o: Oracles, ctx: Context, row: SourceRow, condition: string, name: string,
                    tokenSetName: string, productName: string, number: string, k: Option<SuffixedKey>)
    returns (s: Step)
    requires Valid(ctx)
    ensures Valid(s.ctx) && AtMostOne(ctx, s) && Grows(ctx, s.ctx)
    ensures CarriesRow(s, condition, Quantity(o, row))
    ensures s.ctx.refData == ctx.refData && s.ctx.confirmed == ctx.confirmed
    ensures s.ctx.scryfallOnly == ctx.scryfallOnly
    ensures k.None? ==> s == Step(None, ctx)
    ensures TokenRouted(o, ctx, row, condition, name, tokenSetName, productName, number, k, s)
    ensures s.entry.Some? ==> exists i :: 0 <= i < |ctx.refData| && TokenRow(ctx.refData[i].1, tokenSetName)
                                         && s.entry.value.id == ctx.refData[i].1.id
  {
    if k.None? {
      QuietStep(ctx, Step(None, ctx));
      return Step(None, ctx);
    }
    var tdb := TokenCatalog(ctx.refData, tokenSetName);
    var m := TokenMatches(o, ctx.refData, tokenSetName, k.value);
    s := Settle(o, ctx, row, condition, name, tokenSetName, productName, number, k.value, tdb, m);
  }

  /** `process_token`: the token set name, product name and collector number
      derived from the row, normalised, then routed as above. */
  method ProcessToken(o: Oracles, ctx: Context, row: SourceRow, condition: string, name: string, setName: string)
    returns (s: Step)
    requires Valid(ctx)
    ensures Valid(s.ctx) && AtMostOne(ctx, s) && Grows(ctx, s.ctx)
    ensures CarriesRow(s, condition, Quantity(o, row))
    ensures s.ctx.refData == ctx.refData && s.ctx.confirmed == ctx.confirmed
    ensures s.ctx.scryfallOnly == ctx.scryfallOnly
    ensures var k := NormalizeKey(o, TokenProductName(name), TokenSetName(setName), condition,
                                  Strip(Cell(row, "Collector number", "")));
      k.None? ==> s == Step(None, ctx)
    ensures TokenRouted(o, ctx, row, condition, name, TokenSetName(setName), TokenProductName(name),
                        Strip(Cell(row, "Collector number", "")),
                        NormalizeKey(o, TokenProductName(name), TokenSetName(setName), condition,
                                     Strip(Cell(row, "Collector number", ""))), s)
  {
    var tokenSetName := TokenSetName(setName);
    var number := Strip(Cell(row, "Collector number", ""));
    var productName := TokenProductName(name);
    var k := NormalizeKey(o, productName, tokenSetName, condition, number);
    s := RouteToken(o, ctx, row, condition, name, tokenSetName, productName, number, k);
  }
}

=== FILE: verifier.dfy ===
/** The Scryfall glue that affects matching (`enhance_matches_with_scryfall`):
    deriving a set code, looking a card up, and inserting a synthetic
    high-scoring candidate backed by a row built from the Scryfall card. */
module Verifier {
  import opened Wrappers
  import opened Text
  import opened Dicts
  import opened Cards
  import opened Normalize
  import opened Scorer

  /** The fields of a Scryfall card object the converter reads. */
  datatype ScryfallCard = ScryfallCard(
    name: string,
    setName: string,
    collectorNumber: string,
    rarity: string,
    promo: bool,
    promoTypes: seq<string>)

  /** The two Scryfall lookups, by card id and by (name, set code, number). Each is
      a pure function of its arguments, which is what the converter's per-run
      response cache makes them; None stands for "not found" and for any failure. */
  datatype Authority = Authority(
    byId: string -> Option<ScryfallCard>,
    byName: (string, string, Option<string>) -> Option<ScryfallCard>)

  const LORD_OF_THE_RINGS: string := "The Lord of the Rings: Tales of Middle-earth"

  /** `SET_ALIAS`. */
  const SET_ALIAS: map<string, string> := map[
    "Universes Beyond: " + LORD_OF_THE_RINGS := "LTR",
    "Commander: " + LORD_OF_THE_RINGS := "LTC",
    "the list" := "The List",
    "edge of eternities" := "eoe",
    "EOE" := "eoe"]

  const SYNTHETIC_SCORE: int := 350

  function Min(a: int, b: int): int {
    if a <= b then a else b
  }

  /** The first character of each word. */
  function Initials(ws: seq<string>): (r: string)
    requires forall i :: 0 <= i < |ws| ==> |ws[i]| > 0
    ensures |r| == |ws|
    ensures forall i :: 0 <= i < |ws| ==> r[i] == ws[i][0]
  {
    if ws == [] then [] else [ws[0][0]] + Initials(ws[1..])
  }

  /** The set name needs an acronym: longer than 3 characters and at least two words. */
  predicate Abbreviated(setName: string) {
    |setName| > 3 && |Words(setName)| >= 2
  }

  /** `''.join(word[0] for word in words[:3]).lower()`. */
  function Acronym(ws: seq<string>): (r: string)
    requires forall i :: 0 <= i < |ws| ==> |ws[i]| > 0
    ensures |r| == Min(3, |ws|)
    ensures forall i :: 0 <= i < |r| ==> r[i] == LowerChar(ws[i][0])
  {
    var first := ws[..Min(3, |ws|)];
    assert forall i :: 0 <= i < |first| ==> first[i] == ws[i];
    Lower(Initials(first))
  }

  /** The Scryfall set code tried for a set name: the lower-cased initials of its
      first three words when it is abbreviated, otherwise its alias or the name itself. */
  function SetCode(setName: string): (code: string)
    ensures Abbreviated(setName) ==>
      && |code| == Min(3, |Words(setName)|)
      && forall i :: 0 <= i < |code| ==> code[i] == LowerChar(Words(setName)[i][0])
    ensures !Abbreviated(setName) && setName !in SET_ALIAS ==> code == setName
  {
    if Abbreviated(setName) then Acronym(Words(setName))
    else if setName in SET_ALIAS then SET_ALIAS[setName]
    else setName
  }

  /** A string that starts with a word and has a blank at `i` followed later by a
      non-blank at `j` has at least two words. */
  lemma TwoWords(s: string, i: nat, j: nat)
    requires 0 < i < j < |s|
    requires !IsSpace(s[0]) && IsSpace(s[i]) && !IsSpace(s[j])
    ensures |Words(s)| >= 2
  {
    var w := TakeWord(s);
    assert TrimLeft(s) == s;
    var rest := s[|w|..];
    assert rest[j - |w|] == s[j];
    if TrimLeft(rest) == [] {
      LeadingBlanks(rest, j - |w|);
    }
  }

  /** The alias table has no effect on a normalised set name: such a name is
      either abbreviated or matches no alias. */
  lemma AliasesNeverApply(s: string)
    requires AllChars(s, IsLowerSetChar)
    requires s != "the list"
    ensures !Abbreviated(s) ==> s !in SET_ALIAS
  {
    if s in SET_ALIAS {
      AliasKeys(s);
      if s == "edge of eternities" {
        TwoWords(s, 4, 5);
      }
    }
  }

  /** Apart from "the list" and "edge of eternities", every alias key starts with
      an upper-case letter. */
  lemma AliasKeys(k: string)
    requires k in SET_ALIAS
    ensures k == "the list" || k == "edge of eternities" || (|k| > 0 && IsAsciiUpper(k[0]))
  {
  }

  /** The card behind a ManaBox row: by the row's non-blank Scryfall ID when the row
      is non-empty and names one, and by name, set code and number otherwise or when
      the id finds nothing. */
  function LookupCard(a: Authority, row: SourceRow, key: Key): Option<ScryfallCard> {
    var id := Strip(Cell(row, "Scryfall ID", ""));
    var byId := if row != map[] && Cell(row, "Scryfall ID", "") != "" && id != "" then a.byId(id) else None;
    if byId.Some? then byId else a.byName(key.name, SetCode(key.setName), key.number)
  }

  /** The " (Promo Type, ...)" suffix of a promotional card's product name. */
  function PromoSuffix(card: ScryfallCard): string {
    if card.promo && card.promoTypes != [] then " (" + Title(JoinWith(card.promoTypes, ", ")) + ")" else ""
  }

  /** `create_scryfall_fallback_entry`, as the reference row stored for the
      synthetic key: marked "Scryfall Verified", named after the card (plus its promo
      types), with the key's condition and the row's own price. */
  function FallbackRow(o: Oracles, card: ScryfallCard, row: SourceRow, condition: string): (r: RefRow)
    ensures r.id == SCRYFALL_VERIFIED && r.productLine == PRODUCT_LINE
    ensures StartsWith(r.productName, card.name)
    ensures r.productName == card.name <==> !card.promo || card.promoTypes == []
    ensures r.condition == condition && r.price == o.marketPrice(row, None)
  {
    var name := card.name + PromoSuffix(card);
    assert name[..|card.name|] == card.name;
    RefRow(SCRYFALL_VERIFIED, PRODUCT_LINE, card.setName, name, card.collectorNumber,
           Title(card.rarity), condition, o.marketPrice(row, None))
  }

  /** The candidate list and the reference data after the Scryfall step. */
  datatype Enhanced = Enhanced(matches: seq<Candidate>, refData: Catalog)

  /** The insertion condition: a card was found, a (non-empty) row was supplied, and
      there is no candidate or the best one scores below 300. */
  predicate Inserts(found: Option<ScryfallCard>, row: SourceRow, matches: seq<Candidate>) {
    found.Some? && row != map[] && (matches == [] || matches[0].score < 300)
  }

  /** `enhance_matches_with_scryfall`. The synthetic candidate (the query's own key at
      score 350) goes in front exactly when `Inserts` holds, and then the query's key
      is bound to the fallback row in the reference data; otherwise nothing changes. */
  function EnhanceMatches(o: Oracles, a: Authority, nk: SuffixedKey, matches: seq<Candidate>,
                          refData: Catalog, row: SourceRow): (r: Enhanced)
    requires DistinctKeys(refData)
    ensures r.matches == [Candidate(nk, SYNTHETIC_SCORE)] + matches <==> Inserts(LookupCard(a, row, nk.key), row, matches)
    ensures !Inserts(LookupCard(a, row, nk.key), row, matches) ==> r == Enhanced(matches, refData)
    ensures DistinctKeys(r.refData)
    ensures Keys(refData) <= Keys(r.refData) <= Keys(refData) + {nk}
    ensures r.matches != matches ==> Get(r.refData, nk).Some? && Get(r.refData, nk).value.id == SCRYFALL_VERIFIED
    ensures Inserts(LookupCard(a, row, nk.key), row, matches) ==>
      Get(r.refData, nk) == Some(FallbackRow(o, LookupCard(a, row, nk.key).value, row, nk.key.condition))
    ensures forall k :: k != nk ==> Get(r.refData, k) == Get(refData, k)
  {
    var found := LookupCard(a, row, nk.key);
    if Inserts(found, row, matches) then
      var db := Put(refData, nk, FallbackRow(o, found.value, row, nk.key.condition));
      forall k ensures Get(db, k) == if k == nk then Some(FallbackRow(o, found.value, row, nk.key.condition)) else Get(refData, k) {
        GetPut(refData, nk, FallbackRow(o, found.value, row, nk.key.condition), k);
      }
      Enhanced([Candidate(nk, SYNTHETIC_SCORE)] + matches, db)
    else
      assert |[Candidate(nk, SYNTHETIC_SCORE)] + matches| != |matches|;
      Enhanced(matches, refData)
  }

  /** A synthetic candidate outranks every candidate that allowed its insertion. */
  lemma SyntheticLeads(o: Oracles, a: Authority, nk: SuffixedKey, matches: seq<Candidate>, refData: Catalog, row: SourceRow)
    requires DistinctKeys(refData) && SortedDesc(matches)
    requires Inserts(LookupCard(a, row, nk.key), row, matches)
    ensures var r := EnhanceMatches(o, a, nk, matches, refData, row).matches;
      forall i :: 0 < i < |r| ==> r[i].score < r[0].score
  {
    var r := EnhanceMatches(o, a, nk, matches, refData, row).matches;
    assert r == [Candidate(nk, SYNTHETIC_SCORE)] + matches;
    HeadLeads(Candidate(nk, SYNTHETIC_SCORE), matches);
  }

  /** A head scoring above the best of a descending list outranks all of it. */
  lemma HeadLeads(c: Candidate, matches: seq<Candidate>)
    requires SortedDesc(matches) && (matches == [] || matches[0].score < c.score)
    ensures forall i :: 0 < i < |[c] + matches| ==> ([c] + matches)[i].score < ([c] + matches)[0].score
  {
    var r := [c] + matches;
    forall i | 0 < i < |r| ensures r[i].score < r[0].score {
      assert r[i] == matches[i - 1];
      assert matches[i - 1].score <= matches[0].score;
    }
  }
}

=== FILE: wrappers.dfy ===
/** The optional-value type used throughout the model, standing for Python's
    `None`-or-value returns. */
module Wrappers {

  datatype Option<+T> = None | Some(value: T) {

    /** Returns the value in Some, or `default` when None. */
    function GetOr(default: T): T {
      match this
      case Some(v) => v
      case None => default
    }
  }
}
